=== FILE: README.md ===
# PhotoDedup deduplication pipeline, modelled in Dafny

PhotoDedup finds near-duplicate photographs in a directory tree and recommends
which copies to keep. This project models its backend pipeline and proves what
each stage promises:

- **Scanner** (`scan_directory`) walks the tree and keeps the RAW files, plus
  ordinary images when asked. It builds one `PhotoInfo` per file and reports
  progress after files 1, 51, 101, … (`i % 50 == 0`, counting from 0) and after the
  last file.
- **Thumbnail batch loop** (`extract_thumbnails_batch`) reports progress after files 1, 21, 41, …
  (`i % 20 == 0`, counting from 0) and after the last file.
- **Hasher** (`compute_phash_batch`, `hamming_distance`) runs the fan-out/fan-in of
  perceptual hashes over a worker pool and counts differing bits between two
  hex fingerprints.
- **Grouper** (`UnionFind`, `group_similar_photos`) joins every pair of photos
  whose fingerprints differ in at most `threshold` bits. It does this with a
  union-find forest (union by rank, path compression). It then extracts the
  connected components with at least two photos, largest first, and sorts each
  component by path.
- **Lightroom sidecar detection** (`detect_edited_photos`, `_parse_xmp_metadata`,
  `get_catalog_info`) marks a photo as edited when it has a `.xmp`/`.XMP` sidecar.
  It reads the rating, reject mark and colour label from the sidecar's text.
- **Recommender** (`recommend_for_group`, `recommend_all`) gives each group a
  keep list and a delete list, and sums them into a summary.
- **Routes** covers the process-wide `scan_state` and the endpoints that drive it:
  - `start_scan`, `_update_progress`, `_run_scan`, `reset_scan`;
  - the queries `get_groups` and `get_recommendations`;
  - `delete_photos`.

One module per source file: `Scanner`, `Thumbnail`, `Hasher`, `UnionFind`,
`Grouper`, `Lightroom`, `Recommender`, `Routes` and `Config`. Shared modules:
- `Wrappers`: `Option`, `Result`;
- `Seqs`: sequence facts;
- `Dicts`: Python dictionaries as sequences of pairs, so that insertion order is kept;
- `PosixPath`: the `os.path` functions the code uses.

How the outside world appears in the model:
- Everything the program reads from outside is a parameter. `Routes.Env` bundles:
  - the `os.walk` listing, `os.path.getsize` and the EXIF reader;
  - `extract_thumbnail` and `compute_phash`;
  - the order in which the pool's workers finish;
  - `os.path.exists`, the text of each sidecar file, and whether edit detection raises.
- An exception is an `Err` value, and the run that catches it is modelled on that path.
- The background thread of `start_scan` is modelled as the sequential method
  `Routes.RunScan`, which runs from the state `start_scan` leaves.
- Each progress callback is a `Routes.Update` value. `RunScan` returns the updates
  in order, and the state keeps the last one.

Where the documentation and the code disagree, the model follows the code:
- **Similarity threshold.** The docstring of `group_similar_photos` says photos
  are joined when their distance is *below* the threshold. The code joins them
  when it is *at most* the threshold (`dist <= threshold`).

**Pick values.** The sidecar parser sets `pick` to `-1` when the rating is the
reject mark -1, and to `0` otherwise (lightroom.py:149-152). No other value is
ever produced. The recommender's reject test (`pick == -1`, recommender.py:68) and
the `pick` that `/groups` shows (routes.py:285) see only these two values, and
`Lightroom.ParseXmp` states that `pick` is -1 or 0.

**Ratings too long to convert.** `int()` (lightroom.py:144) refuses a decimal
string of more than 4300 digits (CPython's default `sys.get_int_max_str_digits()`)
and raises `ValueError`. `detect_edited_photos` catches it (lightroom.py:117-122),
so such a photo is edited but not flagged. The model has this path: `Lightroom.ParseRaises`
says when the parse raises, and `Lightroom.FlagsPhoto` is the flag test that
`detect_edited_photos` applies.

## Model

| member | source | states |
|---|---|---|
| PosixPath.Basename | backend/core/scanner.py:21 | The file name is everything after the last slash: it holds no slash, is a suffix of the path, and is preceded by a slash whenever it is shorter than the path. |
| PosixPath.SplitExt | backend/core/scanner.py:81 | Stem and extension put back together give the path. A non-empty extension is a dot followed by characters that are neither dots nor slashes. |
| PosixPath.SplitExtCut | backend/core/scanner.py:81 | An extension is split off exactly when the file name has a dot after some non-dot character, so hidden names such as `.nef` have none. |
| PosixPath.BasenameOfJoin | backend/core/scanner.py:83 | A directory joined with a plain file name has that file name as its basename. |
| PosixPath.Join | backend/core/scanner.py:83 | An absolute second part replaces the first. Otherwise the result is the first part, then a slash exactly when the first part is non-empty and does not end in one, then the second part. |
| PosixPath.Lower | backend/core/scanner.py:81 | Lower-casing keeps the length and folds each character on its own. |
| Dicts.Get | backend/core/grouper.py:121 | A lookup misses exactly when the key was never stored. A hit returns a value stored under that key. |
| Dicts.Put | backend/core/hasher.py:69 | Storing under a new key appends it; storing under an old key keeps its place. Afterwards the key gives the new value and every other key its old one. |
| Dicts.PutDistinct | backend/core/hasher.py:69 | Storing keeps the keys distinct. |
| Hasher.HammingDistance | backend/core/hasher.py:82-95 | The distance between two equal-length hex fingerprints is at most four per digit. |
| Hasher.HammingCountsDifferingBits | backend/core/hasher.py:93-95 | The distance is the number of bit positions at which the two decoded fingerprints differ. |
| Hasher.NibbleDiff | backend/core/hasher.py:95 | On one hex digit, the popcount of the XOR is the number of differing bits. |
| Hasher.HammingSymmetric | backend/core/hasher.py:82-95 | The distance does not depend on the order of the arguments. |
| Hasher.HammingSelf | backend/core/hasher.py:91 | A fingerprint is at distance 0 from itself. |
| Hasher.HammingZeroMeansSameBits | backend/core/hasher.py:91 | Distance 0 holds exactly when the two fingerprints encode the same bits. |
| Hasher.SixtyFourBitRange | backend/core/hasher.py:22 | For 16-digit (64-bit) fingerprints the distance lies in 0..64. |
| Hasher.Unthumbed | backend/core/hasher.py:75-77 | The keys filled with `None` are exactly the inputs that have no thumbnail. |
| Hasher.BatchReports | backend/core/hasher.py:70-72 | There are never more progress reports than completed tasks. |
| Hasher.BatchReportsOrdered | backend/core/hasher.py:70-72 | Each report is (count, total) for a reached count that is a multiple of 50 or the total. The counts strictly increase. |
| Hasher.BatchReportsComplete | backend/core/hasher.py:70-72 | Every reached count that is a multiple of 50 or equal to the total is reported. |
| Hasher.CollectCompleted | backend/core/hasher.py:67-72 | The results are keyed in completion order. Each holds `compute_phash` of its own thumbnail. The reports follow the cadence. |
| Hasher.NoneEntries | backend/core/hasher.py:75-77 | The appended entries are keyed by the given paths in order, and every value is `None`. |
| Hasher.ComputePhashBatch | backend/core/hasher.py:35-79 | The result has distinct keys, exactly the input keys: the completed tasks in completion order, then the thumbnail-less inputs. An input with a thumbnail maps to its hash (`None` on failure); one without maps to `None`. |
| Hasher.BatchValue | backend/core/hasher.py:67-77 | The assembled result maps each input to its hash, or to `None` when it has no thumbnail. |
| Hasher.BatchKeys | backend/core/hasher.py:53-79 | The assembled keys are distinct and are exactly the input keys, whatever the completion order. |
| UnionFind.EmptyForest | backend/core/grouper.py:12-14 | A fresh structure satisfies the forest invariant. |
| UnionFind.AboveShrinks | backend/core/grouper.py:20-21 | Each recursive step of `find` moves to a node of strictly higher rank, so `find` terminates. |
| UnionFind.Compress | backend/core/grouper.py:20-22 | Path compression keeps the node set, every rank and every root, and only re-points nodes at their root. |
| UnionFind.Find | backend/core/grouper.py:16-22 | An unseen node is registered as a root of rank 0. The returned node is the root, and the partition is unchanged. |
| UnionFind.Link | backend/core/grouper.py:28-33 | The lower-ranked root goes under the higher-ranked one (the first on a tie). Only a tie raises a rank, by one. The two sets share the surviving root; all other roots stay. |
| UnionFind.Union | backend/core/grouper.py:24-33 | Both nodes are registered and afterwards in one set. The invariant is kept. |
| UnionFind.UnionMerges | backend/core/grouper.py:24-33 | Nodes that were with either argument get the common root, one of the two old roots. Every other node keeps its root. Joining already-connected nodes changes no rank. |
| UnionFind.UnionConnects | backend/core/grouper.py:24-33 | After a union two nodes are connected exactly when they were before, or one was with each argument. |
| UnionFind.Connected | backend/core/grouper.py:35-36 | The answer is whether the two nodes share a set; the partition is unchanged. |
| Grouper.LinkedSym | backend/core/grouper.py:97-101 | Linking in the similarity graph is symmetric. |
| Grouper.LinkedTrans | backend/core/grouper.py:97-101 | Linking in the similarity graph is transitive. |
| Grouper.UnionSound | backend/core/grouper.py:99-101 | Joining two photos within the threshold keeps every connected pair linked in the similarity graph. |
| Grouper.JoinRow | backend/core/grouper.py:98-101 | After row `i`, photo `i` is connected to every later photo within the threshold. The forest only connects linked photos, and no earlier connection is lost. |
| Grouper.JoinSimilar | backend/core/grouper.py:97-101 | After the comparison loops, two photos are connected in the forest exactly when they are linked by a chain of pairs within the threshold. |
| Grouper.WalkSame | backend/core/grouper.py:97-101 | Once every close pair is connected, both ends of any chain of close pairs are connected. |
| Grouper.MembersOf | backend/core/grouper.py:104-107 | The photos filed under a root are exactly those filed with it. |
| Grouper.MembersNoDup | backend/core/grouper.py:104-107 | A photo filed once appears at most once in its root's list. |
| Grouper.AddMember | backend/core/grouper.py:107 | `setdefault(...).append(...)`: a new root goes last. Only the root's list grows, by the photo. |
| Grouper.GroupBy | backend/core/grouper.py:104-107 | The filing loop yields one entry per root, and the roots are distinct. |
| Grouper.GroupByMembers | backend/core/grouper.py:104-107 | Each root that occurs has an entry, and nothing else does. Each entry lists exactly the photos filed under its root, in filing order. |
| Grouper.CollectGroups | backend/core/grouper.py:104-107 | The extraction loop, though it compresses paths while it runs, files every photo under its root in the forest it started from. |
| Grouper.InsertBySize | backend/core/grouper.py:112-114 | Inserting adds the element and loses nothing. |
| Grouper.InsertBySizeSorted | backend/core/grouper.py:113 | Insertion keeps the sequence in non-increasing size. |
| Grouper.InsertBySizeFilters | backend/core/grouper.py:113 | Insertion puts the new entry after every entry of its size that was already there (stability). |
| Grouper.SortBySize | backend/core/grouper.py:113 | Sorting by `-len(members)` is a permutation. |
| Grouper.SortBySizeStable | backend/core/grouper.py:113 | The sort yields non-increasing sizes, and entries of equal size keep their original order. |
| Grouper.StrLessTotal | backend/core/grouper.py:123 | Python's string order is total on different strings. |
| Grouper.StrLessTrans | backend/core/grouper.py:123 | Python's string order is transitive. |
| Grouper.InsertPath | backend/core/grouper.py:123 | Inserting a path adds it and loses nothing. |
| Grouper.InsertPathAscending | backend/core/grouper.py:123 | Inserting a new path keeps the paths in strictly ascending order. |
| Grouper.SortPaths | backend/core/grouper.py:123 | `sorted(members)` is a permutation. |
| Grouper.SortPathsAscending | backend/core/grouper.py:123 | Distinct paths come out in strictly ascending string order. |
| Grouper.TotalSize | backend/core/grouper.py:50-52 | With non-negative sizes, the total lies between 0 and the sum and is at least each photo's size. |
| Grouper.Entries | backend/core/grouper.py:117-124 | Each photo record carries its path, its own hash, and its size from `photo_sizes` (0 when missing). |
| Grouper.MakeGroup | backend/core/grouper.py:117-125 | The group has the given id and one photo per member. |
| Grouper.MakeGroupContents | backend/core/grouper.py:117-125 | The group's paths are the members, each as often as listed. Each photo carries the hash stored for its path and `photo_sizes.get(path, 0)`. |
| Grouper.BuildGroups | backend/core/grouper.py:112-125 | There are no more groups than buckets. |
| Grouper.BuildGroupsKept | backend/core/grouper.py:112-125 | Every group built has at least two photos, and its id is one of the positions `enumerate` gives the buckets. |
| Grouper.HashedOnly | backend/core/grouper.py:86 | Exactly the photos with a hash are kept, with their hash, in input order. |
| Grouper.HashedOnlyDistinct | backend/core/grouper.py:86-87 | Dropping the photos without a hash keeps the paths distinct. |
| Grouper.BuildGroupsPrefix | backend/core/grouper.py:112-125 | On size-sorted buckets the singletons all come last. The kept groups are therefore exactly the leading buckets, and each group's id is its position. |
| Grouper.SmallBucketsSkipped | backend/core/grouper.py:115-116 | Buckets with fewer than two photos yield no group. |
| Grouper.BucketsFiled | backend/core/grouper.py:104-114 | After filing and sorting, the buckets are size-sorted and distinct. Each holds exactly its root's photos, and every root that occurs has a bucket. |
| Grouper.GroupMadeFrom | backend/core/grouper.py:117-125 | A built group has the bucket's position as id and the bucket's size as count. Its photos are exactly the bucket's members, sorted by path, each with its own hash and size. |
| Grouper.GroupsBuilt | backend/core/grouper.py:112-125 | Ids are positions and every group has at least two photos. Each group's paths are its bucket's members in ascending order, and exactly the trailing buckets are skipped. |
| Grouper.GroupsDisjoint | backend/core/grouper.py:104-125 | No photo is in two groups. |
| Grouper.TogetherSame | backend/core/grouper.py:104-125 | Photos that share a group have the same root. |
| Grouper.SameTogether | backend/core/grouper.py:104-125 | Two different photos with the same root share a group. |
| Grouper.GroupsAreSets | backend/core/grouper.py:104-125 | Two different photos share a group exactly when the forest connects them. |
| Grouper.GroupByFirstSeen | backend/core/grouper.py:104-107 | `groups_dict` lists its roots in the order of their first photo: each bucket's first photo occurs in the input, and a bucket filed earlier has its first photo earlier. |
| Grouper.InsertBySizeTies | backend/core/grouper.py:113 | Insertion keeps buckets of equal size in the order of their first photo. |
| Grouper.SortBySizeTies | backend/core/grouper.py:113 | Because `sorted` is stable, buckets of equal size stay in the order of their first photo. |
| Grouper.GroupsTieOrder | backend/core/grouper.py:112-125 | Groups of equal size are built in the order of their buckets' first photos. |
| Grouper.ComponentsTies | backend/core/grouper.py:103-125 | The groups built from a forest hold hashed photos, and groups of equal size come in the order of their first photo in the input. |
| Grouper.ComponentsShape | backend/core/grouper.py:103-125 | The groups built from a forest are numbered in order, hold at least two photos each, come largest first, and are sorted by path. |
| Grouper.ComponentsPartition | backend/core/grouper.py:103-125 | The groups built from a forest are disjoint, and two photos share one exactly when the forest connects them. |
| Grouper.GroupComponents | backend/core/grouper.py:103-127 | After the comparison loops: numbered groups of at least two photos, largest first, equal sizes in the order of their first photo in the input, each sorted by path. They are disjoint and match the forest's connections, and each photo carries its hash and size. |
| Grouper.EntriesHashed | backend/core/grouper.py:86 | Every grouped photo's hash is the one it had in the input. |
| Grouper.TogetherLinked | backend/core/grouper.py:97-125 | Two different photos share a group exactly when a chain of close pairs links them. |
| Grouper.GroupHashed | backend/core/grouper.py:93-127 | Clustering the hashed photos yields the connected components of the similarity graph with at least two photos. They are numbered, largest first, equal sizes in the order of their first photo, and sorted by path. |
| Grouper.GroupSimilarPhotos | backend/core/grouper.py:63-127 | Photos without a hash take no part. The groups are numbered 0, 1, ... and have at least two photos each. They come largest first, and groups of equal size come in the order of their first photo in the input. Each group is sorted by path, and no photo is in two groups. Each photo keeps its own hash and size. Two hashed photos share a group exactly when a chain of pairs within the threshold links them. |
| Lightroom.DigitRun | backend/core/lightroom.py:142 | `\d+` is greedy: the run covers digits only and stops at the end of the text or at a non-digit. |
| Lightroom.FindFrom | backend/core/lightroom.py:156 | The position found holds the character, and no earlier position from the start does; -1 means it does not occur. |
| Lightroom.RatingAtMatches | backend/core/lightroom.py:142-144 | The rating scan succeeds at a position exactly when `xmp:Rating="(-?\d+)"` matches there. It yields the integer the group spells. |
| Lightroom.MatchIsScanned | backend/core/lightroom.py:142-144 | Any match of the rating pattern is read as its signed decimal value. |
| Lightroom.MatchRun | backend/core/lightroom.py:142 | Where a match starts, the scan sees its minus sign, exactly its digits as the greedy run, and the closing quote. |
| Lightroom.MatchDigitCount | backend/core/lightroom.py:142-144 | The digits the scan counts at a match are the digits of its group. |
| Lightroom.ScanIsMatch | backend/core/lightroom.py:142 | The pieces the scan checks spell a match of the rating pattern. |
| Lightroom.DigitRunExact | backend/core/lightroom.py:142 | Digits followed by a non-digit are the whole greedy run. |
| Lightroom.LabelAtMatches | backend/core/lightroom.py:156-158 | The label scan yields a label exactly when `xmp:Label="([^"]*)"` matches there with that group. |
| Lightroom.SearchRating | backend/core/lightroom.py:142 | `re.search` fails only if no position matches. Otherwise its value is the match at some position with none before it. |
| Lightroom.SearchRatingFirst | backend/core/lightroom.py:142 | The search returns the leftmost match. |
| Lightroom.SearchRatingDigits | backend/core/lightroom.py:142-144 | The group `int()` converts has at least one digit exactly when the search finds a match. |
| Lightroom.SearchDigitsFirst | backend/core/lightroom.py:142-144 | The digits converted are those of the leftmost match's group. |
| Lightroom.SearchLabel | backend/core/lightroom.py:156 | The label search fails only if no position matches. Otherwise it returns a match with none before it. |
| Lightroom.SearchLabelFirst | backend/core/lightroom.py:156 | The label search returns the leftmost match. |
| Lightroom.ParseXmp | backend/core/lightroom.py:127-164 | Pick is -1 or 0, and the rating is never -1. An unreadable file gives 0/0/"". Otherwise pick is -1 exactly when the first rating match is -1, and the rating is then 0; with pick 0 the rating is that match's value (0 if there is none), and the label is the first label match's group. |
| Lightroom.ParseXmpRating | backend/core/lightroom.py:141-152 | With leftmost rating match v: v = -1 becomes the reject mark with rating 0, and any other v is the rating. The photo is flagged iff v > 0, v = -1 or a label is present. The parse raises exactly when v has more than 4300 digits. |
| Lightroom.ParseXmpNoRating | backend/core/lightroom.py:141-152 | A sidecar without a rating match gives rating 0 and pick 0, and its parse does not raise. |
| Lightroom.ParseXmpLabel | backend/core/lightroom.py:155-158 | The label is the group of the leftmost label match. |
| Lightroom.ParseXmpNoLabel | backend/core/lightroom.py:155-158 | A sidecar without a label match gives the empty label. |
| Lightroom.ParseRaises | backend/core/lightroom.py:142-144 | The parse raises only for a readable file with a rating match, whose digits `int()` refuses. |
| Lightroom.IsFlagged | backend/core/lightroom.py:119 | For a parse with no negative rating (every parse that returns), the test holds exactly when the result differs from the 0/0/"" of an unreadable file: a rating above 0, a reject mark or a label. |
| Lightroom.FlagsPhoto | backend/core/lightroom.py:117-122 | Only a readable sidecar can flag a photo. A sidecar with no rating match flags it exactly when its first label match is non-empty. |
| Lightroom.SidecarOf | backend/core/lightroom.py:100-108 | A sidecar is found iff `stem.xmp` or `stem.XMP` exists. The lower-case name wins when both do, and the one returned exists. |
| Lightroom.DetectEditedPhotos | backend/core/lightroom.py:80-124 | A photo is edited iff it has a sidecar. It is flagged iff it is edited, its parse does not raise, and the parsed sidecar has a rating above 0, a reject mark or a label. Flagged photos hold that parse. |
| Lightroom.GetCatalogInfo | backend/core/lightroom.py:205-214 | The total is the number of paths, and flagged ≤ edited ≤ total. Edited counts the distinct paths with a sidecar, and flagged the distinct paths whose sidecar flags them. The path falls back to the sidecar label when none (or an empty one) was given. |
| Recommender.Select | backend/core/recommender.py:64-75 | The loop's list for a verdict is the in-order sublist of exactly the photos with that verdict. |
| Recommender.SelectPartition | backend/core/recommender.py:64-75 | Every photo lands in exactly one of the two lists. |
| Recommender.SelectAll | backend/core/recommender.py:64-75 | When the rule keeps nothing, the delete list is the whole group, in order. |
| Recommender.Classify | backend/core/recommender.py:66-75 | A rejected photo is deleted. A photo is kept exactly when it is not rejected and is edited or flagged. |
| Recommender.RecommendForGroup | backend/core/recommender.py:36-81 | The recommendation refers to its group, and a non-empty group always keeps at least one photo. |
| Recommender.RecommendationSplit | backend/core/recommender.py:64-79 | Together the keep and delete lists hold each of the group's paths exactly as often as the group does. Each list keeps the group's order. |
| Recommender.RecommendationLists | backend/core/recommender.py:64-79 | If the rule keeps any photo, the lists are exactly the rule's. Otherwise the first photo is kept and the rest deleted in order. A rejected photo is deleted unless it is that first photo. |
| Recommender.NoneIsEmpty | backend/core/recommender.py:58-59 | Passing `None` for the edited set or the flagged map behaves like an empty one. |
| Recommender.KeepDeleteDisjoint | backend/core/recommender.py:64-79 | With distinct paths, every photo of the group is in exactly one list. |
| Recommender.SizeWhereSplit | backend/core/recommender.py:18-22 | Two lists that every photo is in exactly one of split the group's total size. |
| Recommender.SaveBytesOfKept | backend/core/recommender.py:18-22 | The bytes saved are the total size minus the kept photos' sizes. With non-negative sizes they lie between 0 and the total. |
| Recommender.SaveBytes | backend/core/recommender.py:17-22 | With no negative sizes, the bytes freed lie between 0 and the group's total size. |
| Recommender.ToDict | backend/core/recommender.py:24-33 | The dictionary carries the group's id and photo count, the two lists with their lengths, and the bytes the delete list frees. |
| Recommender.ListsCover | backend/core/recommender.py:24-33 | Keep count plus delete count equals the group's photo count. |
| Recommender.RecommendAll | backend/core/recommender.py:84-127 | One recommendation per group, in order, each equal to `recommend_for_group`'s with matching id and counts. The summary's counts are the per-group sums, and total photos equals the photos over all groups. |
| Scanner.Extensions | backend/core/scanner.py:70-74 | An extension is wanted iff it is RAW and RAW was asked for, or it is an ordinary image and images were asked for. |
| Scanner.Wanted | backend/core/scanner.py:79-82 | When the empty extension is not selected, a wanted name is non-empty, not hidden, and has a dot after its first character. |
| Scanner.CollectIn | backend/core/scanner.py:78-83 | A directory yields no more files than it lists. |
| Scanner.CollectInMembers | backend/core/scanner.py:78-83 | A path is collected from a directory iff it is the directory joined with a listed name that is not hidden and has a wanted extension. |
| Scanner.CollectFiles | backend/core/scanner.py:76-83 | A path is in the listing iff one of the walked directories yields it. |
| Scanner.CollectFilesMembers | backend/core/scanner.py:76-83 | A path is collected iff one of the walked directories yields it. |
| Scanner.CollectedName | backend/core/scanner.py:83 | A collected file reports the name it was listed under. |
| Scanner.NonEmpty | backend/core/scanner.py:93-94 | `x or None` keeps exactly the non-empty texts. |
| Scanner.InfoOf | backend/core/scanner.py:89-94 | A `PhotoInfo` carries its path, its basename and its size. Date and camera are set only when EXIF was read, and never to an empty text. When EXIF was read, a non-empty date or camera it returned is stored as is. Without EXIF both stay unset. |
| Scanner.ScanEvents | backend/core/scanner.py:98-99 | Each report names a processed file that meets the cadence (`i % 50 == 0` or the last), with the total and that file's name. |
| Scanner.ScanEventsIncreasing | backend/core/scanner.py:88-99 | Reports come in strictly increasing order of file number. |
| Scanner.ScanEventsComplete | backend/core/scanner.py:98-99 | Every processed file that meets the cadence is reported. |
| Scanner.ScanEventsEnds | backend/core/scanner.py:98-99 | A completed scan reports file 1 first and the last file last. |
| Scanner.ScanDirectory | backend/core/scanner.py:49-101 | Every collected file's `PhotoInfo`, in walk order, iff every size can be read. Otherwise the first failing file's error, after the reports for the files before it. |
| Scanner.ScanFileList | backend/core/scanner.py:85-101 | The loop over the collected files yields the outcome above. |
| Thumbnail.ExtractThumbnailsBatch | backend/core/thumbnail.py:89-113 | If every extraction returns: one entry per distinct path with its thumbnail, and a report after files 1, 21, 41, … (`i % 20 == 0`, counting from 0) and the last file. Otherwise the first raised error, after the reports before it. |
| Routes.Decimal | backend/api/routes.py:198 | `str(n)` is a non-empty string of digits with no leading zero. |
| Routes.DecimalRoundTrip | backend/api/routes.py:198 | Reading `str(n)` back as a decimal gives n. |
| Routes.UpdateProgress | backend/api/routes.py:150-157 | `status` and `stage` both become the stage, and the five progress fields are the ones given. The results are untouched. |
| Routes.ApplyAll | backend/api/routes.py:150-157 | A run of updates leaves the last one's fields and keeps the results. |
| Routes.StartScan | backend/api/routes.py:112-147 | A missing directory gives 400 and a running scan gives 409. Otherwise the status is scanning, the results are cleared, and the directory and catalog path are recorded. |
| Routes.StartForgetsPast | backend/api/routes.py:118-137 | The state after an accepted start does not depend on what came before. |
| Routes.NoSecondStart | backend/api/routes.py:118-119 | While the started scan runs, a second start is refused with 409. |
| Routes.ResetScan | backend/api/routes.py:353-371 | Status is idle and results and progress are cleared, whatever the status was. `stage` is left as it was. |
| Routes.ResetAllowsStart | backend/api/routes.py:353-371 | After a reset any existing directory can be started. A reset after a finished run leaves status and stage apart. |
| Routes.SizesOf | backend/api/routes.py:206 | The size map has one key per listed path. |
| Routes.SizesOfLastWins | backend/api/routes.py:206 | A path listed twice keeps the size of its last listing. |
| Routes.ThumbMap | backend/api/routes.py:195 | The map's keys are distinct and keep the order of the extraction results. A photo is a key exactly when its thumbnail is present, and it maps to that thumbnail. |
| Routes.ScanBlock | backend/api/routes.py:164-174 | The scan step opens with its message, then the callbacks' updates, all at the scanning stage. |
| Routes.ThumbBlock | backend/api/routes.py:182-190 | The thumbnail step opens with its message, then the callbacks' updates, all at the extracting stage. |
| Routes.AllSubmitted | backend/api/routes.py:195-200 | Every photo in the thumbnail map has a thumbnail, so every one is hashed and none is filled with `None`. |
| Routes.HashesOfThumbs | backend/api/routes.py:195-201 | The stored fingerprints are exactly those of the photos with a thumbnail, each being `compute_phash` of its thumbnail. |
| Routes.StoredHashesComparable | backend/api/routes.py:200-207 | With 64-bit pHash output, every two stored fingerprints can be compared. |
| Routes.HashBatch | backend/api/routes.py:195-200 | Hashing the thumbnail map stores each thumbnailed photo's fingerprint, whatever order the workers finish in. The reports are those of a batch whose total is the number of thumbnailed photos. |
| Routes.ThumbMapCount | backend/api/routes.py:195-200 | The thumbnail map, and every completion order of it, has one entry per photo that got a thumbnail. |
| Routes.HashStage | backend/api/routes.py:192-201 | Step 3's updates are all at the hashing stage, starting with its message. Only the fingerprints change, to the photos' fingerprints. Its updates are exactly the opening message, then one report per completed task over the thumbnailed photos. |
| Routes.GroupStage | backend/api/routes.py:203-208 | Step 4 stores what `group_similar_photos` promises for the stored fingerprints, the photos' sizes and the run's threshold. These are the similarity components with at least two photos, numbered, largest first with ties in input order, sorted by path, each photo with its hash and size. Only the groups change. |
| Routes.DetectStage | backend/api/routes.py:212-219 | The stored edited set and flagged map are those of the photos' sidecars, and nothing else changes. At most one more update follows, at the grouping stage. That update is the count message, present exactly when some photo has a sidecar. |
| Routes.EditStage | backend/api/routes.py:210-221 | Step 5 either stores the sidecar results or, when detection raises, keeps the previous sets. Only the edit state changes. Its updates are the detecting message, then the failure message when detection raises, or else the count message when some photo has a sidecar. |
| Routes.RecommendStage | backend/api/routes.py:223-230 | Step 6 stores `recommend_all` of the stored groups and edit state, and changes nothing else. |
| Routes.GroupSteps | backend/api/routes.py:203-230 | Steps 4 to 6 store the similarity components of the stored fingerprints, the edit state of the photos' sidecars and `recommend_all` of these. Their updates are exactly: the grouping message, the detecting message, the failure or count message if any, and the recommending message. |
| Routes.AnalysePhotos | backend/api/routes.py:192-230 | Steps 3 to 6 store the photos' fingerprints, then the similarity components over them at the run's threshold (as `group_similar_photos` promises), then the edit state of their sidecars, then `recommend_all` of these. The photos are untouched. Its updates are the hashing step's, then those of steps 4 to 6, exactly as `HashStage` and `GroupSteps` state. |
| Routes.FirstError | backend/api/routes.py:238-239 | No error iff every call succeeds. Otherwise the error of the first failing call, after only successes. |
| Routes.FirstErrorAt | backend/api/routes.py:238-239 | The first failure is the one at the earliest failing position. |
| Routes.Reached | backend/api/routes.py:238-239 | The number of calls made before the first failure: all of them succeed, and the next one, if any, fails. |
| Routes.ReachedAt | backend/api/routes.py:238-239 | Any position with only successes before it and a failure at it (or the end) is that number. It is the end exactly when nothing fails. |
| Routes.ThumbEventsTrace | backend/api/routes.py:182-190 | Whatever the batch returns, the thumbnail step's updates are its opening message and one report per extracted file that meets the cadence, up to the first failure. |
| Routes.ProcessPhotos | backend/api/routes.py:181-236 | A failed extraction ends in `Error` with the first failure's message, keeping the results. Otherwise the run ends `Done` with the counts. The fingerprints, the similarity components at the run's threshold, the edit state and the recommendations are then stored as in `AnalysePhotos`. The extraction updates are exactly the opening message and the reports up to the first failure. After a success, the hashing and grouping updates are exactly those of `AnalysePhotos`. |
| Routes.ScanResult | backend/core/scanner.py:88-101 | The scan fails iff some size cannot be read, with the first such error. Otherwise the photos are the files' `PhotoInfo`s, in order. |
| Routes.ScanStep | backend/api/routes.py:163-174 | The scan step's updates are at the scanning stage, opening with its message. It fails with the first unreadable size, or yields every collected file's `PhotoInfo` in order. Its updates are exactly the opening message and one report per file that meets the cadence, up to the first unreadable size. |
| Routes.StoreAndProcess | backend/api/routes.py:175-236 | The photos are stored. With no photos the run ends `Done` with the "none found" message, and the earlier results stay. Otherwise it ends as `ProcessPhotos` says: on success, with the fingerprints, similarity components at the run's threshold, edit state and recommendations of these photos. With photos, its updates are as `ProcessPhotos` states. |
| Routes.RunScan | backend/api/routes.py:160-239 | The run ends in `Error` exactly when a size or a thumbnail fails, with the first such error, keeping the earlier results. Otherwise it ends `Done` with every collected file's `PhotoInfo` stored in walk order. When there are photos, the run also stores their fingerprints, the similarity components at the run's threshold (largest first, ties in input order, sorted by path), their edit state and the recommendations. Its updates are exactly: the scan step's. Then, when the scan finds photos, the thumbnail step's, up to the first failure. Then, when the run ends `Done`, the hashing step's over the thumbnailed photos and those of steps 4 to 6. |
| Routes.RunOrdered | backend/api/routes.py:160-239 | A run's stages never go back, and only its last update is final. |
| Routes.FirstFound | backend/api/routes.py:280-283 | The `or` chain finds nothing iff no key is flagged. Otherwise it returns the entry of the first key present. |
| Routes.Annotate | backend/api/routes.py:269-285 | Edited/flagged iff any of the three keys is in the set or map. Rating and pick come from the first key found, or are 0. |
| Routes.ViewGroup | backend/core/grouper.py:46-60 | The view has the group's id and its photos annotated, in order. Its count is the number of photos shown, which is the group's count, and its total size is the sum of the sizes shown. |
| Routes.GetGroups | backend/api/routes.py:256-288 | Before the scan is done the answer is 400. Afterwards it is every stored group, annotated, with their number. |
| Routes.ShownByPath | backend/api/routes.py:274-285 | A photo whose own path is edited or flagged is shown so, with that entry's rating and pick. |
| Routes.SidecarShown | backend/api/routes.py:212-285 | After a run, a grouped photo with a sidecar is shown edited. One whose sidecar flags it is shown flagged, with the sidecar's pick. |
| Routes.GetRecommendations | backend/api/routes.py:291-301 | 400 before the scan is done and 404 when nothing was stored. Otherwise the stored result. |
| Routes.QueriesWaitForRun | backend/api/routes.py:256-301 | After a start or a reset neither query answers until the run finishes. |
| Routes.DeletePhotos | backend/api/routes.py:329-350 | The counts are the lengths of the two lists, and together they account for every requested path. `os.path.exists` is asked when the loop reaches a path, so a path already sent to the trash by an earlier entry, or lying inside a directory an earlier entry sent there, counts as missing. |
| Routes.DeleteInOrder | backend/api/routes.py:335-343 | The deleted paths and the failed paths each keep the request's order. |
| Routes.DeleteOutcomes | backend/api/routes.py:335-343 | A deleted path existed and was trashed without an exception, no path is deleted twice, and no deleted path lies inside a directory deleted before it. An error carries either the exception's text, for a file that existed and that the trash refused, or "file missing"; a file that existed when the request came and is reported missing went to the trash with a deleted entry, itself or a directory holding it. A file that existed, was refused, and was not taken along by a deleted directory carries the exception's text. |
| Routes.DeleteTwice | backend/api/routes.py:335-343 | A request naming one deletable path twice deletes it once and reports the second entry as missing. |
| Routes.DeletePartition | backend/api/routes.py:335-343 | Every requested path is reported exactly once, as deleted or as an error. |
| Routes.DeletedIff | backend/api/routes.py:335-343 | A deleted path existed and trashing it did not raise. Conversely, a requested path that exists and whose trashing does not raise is deleted, or else lies inside a directory the request deleted, which took it along. |
| Routes.GoneMeans | backend/api/routes.py:337-338 | A path is gone exactly when some trashed entry is the path itself or a directory holding it. |
| Routes.DeletedWhenReached | backend/api/routes.py:335-339 | When the loop has passed entry `i`, which exists and is accepted by the trash, that path is gone: trashed at its own turn, or by an earlier entry that is the path itself or a directory holding it. The paths deleted up to then begin the final deleted list. |
| Routes.DeletePrefix | backend/api/routes.py:335-339 | The paths deleted over a prefix of the request begin the paths deleted over the whole request, so later entries only append. |
| Routes.DeleteDirectoryFirst | backend/api/routes.py:335-343 | A request naming a directory and then a file inside it, both deletable, deletes the directory and reports the file as missing. |

## Left out

- Lightroom.DigitRun, Lightroom.RatingMatch: `\d` in the rating pattern is modelled as the ASCII digits. Python's `re` also accepts other Unicode decimal digits, which `int()` would then read.
- Threads and the pool: `_run_scan` runs in a daemon thread and `compute_phash_batch` in a thread pool. The model is sequential: the pool's completion order is a parameter, and the polling readers are not modelled. The run has no cancellation, and neither has the model.
- `websocket_progress`, `get_scan_status`, `pick_folder`/`_pick_directory`, `get_thumbnail`, `get_thumbnail_by_path` and `find_lrcat_files` are left out. They are I/O wrappers, subprocess calls or file serving, with no logic the pipeline depends on.
- The `/lightroom/info` route is not modelled. Its `except` only re-raises as 400, and `get_catalog_info` itself is modelled as `Lightroom.GetCatalogInfo`.
- Lightroom.ParseRaises: the 4300-digit limit on `int()` is modelled at its default value. A limit changed at run time (`sys.set_int_max_str_digits`), or an interpreter without it (before 3.11, 3.10.7, 3.9.14 and 3.8.14), is not modelled. Nothing else in `_parse_xmp_metadata` raises past its own `try`.
- PosixPath.Lower: folds only the ASCII letters, where `str.lower` folds all of Unicode. This changes nothing for the extension test at scanner.py:81. The only non-ASCII character that lowercases to an ASCII letter alone is U+212A (the Kelvin sign, to `k`), and no wanted extension has a `k`. U+0130 lowercases to `i` plus a combining dot, which is not ASCII either. Every other non-ASCII character stays non-ASCII.
- Routes.DeletePhotos: one file named by two different spellings (`a.nef` and `./a.nef`, a doubled or trailing slash, `..`, or a link) is two paths to the model. Whether a path still exists is decided from `present` and the paths trashed before it: the path itself, or a directory whose name and a slash begin the path, compared as strings. So trashing one spelling does not make another spelling missing.
- PosixPath: the path functions follow POSIX `os.path` (`posixpath`), with `/` as the only separator. On Windows (the `win32` branch at routes.py:408 shows the backend runs there), `os.path` is `ntpath`, which also splits at `\` and knows drive letters; that flavour is not modelled.
- Recommender.RecommendAll: the summary's `save_gb` (a rounded float) is not modelled; `save_bytes` is.
- `extract_thumbnail` (RAW decoding, resizing, the on-disk cache) is a parameter. So are `compute_phash`, `os.path.getsize`, the EXIF reader, `os.path.exists`, sidecar reading, `send2trash` and `os.path.normpath`.
- Routes.StoredHashesComparable: this assumes that `imagehash` prints 64-bit hashes as 16 hex digits. Under that assumption `hex_to_hash` never raises inside `group_similar_photos`, so the model has no error path for it there.
- The `lrcat_path` the request carries is stored in `scan_state` but unused by the run; the model stores it and does nothing else with it.
- Routes.GetGroups: the source writes the annotations into the stored photo dictionaries (`to_dict` hands out the same list). The model returns the annotated copy and leaves the stored groups unchanged. A later call gives the same answer either way.
- Routes.RunScan: the updates are stated exactly, and so is the final state. The states between the updates, which the polling endpoints could observe, are not stated.
- Scanner.ScanDirectory: `os.walk`'s directory listing is a parameter, as are the order of the walk and of the names in each directory.
- Hasher.ComputePhashBatch: when some input has no thumbnail, `completed == total` is never reached, so there is no final report. The model states this as written, with `total` counting every input. In the pipeline every input to the batch has a thumbnail, so the final report is made.

=== FILE: config.dfy ===
/** Constants of backend/config.py. */
module Config {

  /** Extensions of the camera RAW formats scanned by default (lower case, with the dot). */
  const RawExtensions: set<string> :=
    {".nef", ".cr2", ".cr3", ".arw", ".orf", ".rw2", ".raf", ".dng", ".pef"}

  /** Extensions of ordinary images, scanned only on request. */
  const ImageExtensions: set<string> :=
    {".jpg", ".jpeg", ".png", ".tiff", ".tif", ".heic"}

  /** Largest Hamming distance at which two fingerprints still count as similar. */
  const DefaultSimilarityThreshold: int := 10
}

=== FILE: dicts.dfy ===
/** Python dictionaries whose insertion order matters, as sequences of
    (key, value) pairs with distinct keys. */
module Dicts {
  import opened Wrappers
  import opened Seqs

  /** The keys in insertion order (`list(d.keys())`). */
  function KeysOf<K, V>(kv: seq<(K, V)>): (ks: seq<K>)
    ensures |ks| == |kv|
    ensures forall i :: 0 <= i < |kv| ==> ks[i] == kv[i].0
  {
    if |kv| == 0 then [] else [kv[0].0] + KeysOf(kv[1..])
  }

  /** The values in insertion order (`list(d.values())`). */
  function ValuesOf<K, V>(kv: seq<(K, V)>): (vs: seq<V>)
    ensures |vs| == |kv|
    ensures forall i :: 0 <= i < |kv| ==> vs[i] == kv[i].1
  {
    if |kv| == 0 then [] else [kv[0].1] + ValuesOf(kv[1..])
  }

  ghost predicate DistinctKeys<K, V>(kv: seq<(K, V)>)
  {
    NoDup(KeysOf(kv))
  }

  /** `d.get(k)`: the value stored under `k`, if any. */
  function Get<K(==), V>(kv: seq<(K, V)>, k: K): (r: Option<V>)
    ensures r.None? <==> k !in KeysOf(kv)
    ensures r.Some? ==> (k, r.value) in kv
  {
    if |kv| == 0 then None
    else if kv[0].0 == k then Some(kv[0].1)
    else Get(kv[1..], k)
  }

  /** With distinct keys, the value found is the one stored at the key's position. */
  lemma {:induction false} GetAt<K, V>(kv: seq<(K, V)>, i: int)
    requires DistinctKeys(kv) && 0 <= i < |kv|
    ensures Get(kv, kv[i].0) == Some(kv[i].1)
  {
    if i > 0 {
      assert KeysOf(kv)[0] != KeysOf(kv)[i];
      assert KeysOf(kv[1..]) == KeysOf(kv)[1..];
      GetAt(kv[1..], i - 1);
    }
  }

  /** Appending a pair under a new key leaves every other lookup unchanged. */
  lemma {:induction false} GetAppend<K, V>(kv: seq<(K, V)>, k: K, v: V, q: K)
    ensures Get(kv + [(k, v)], q) == if q in KeysOf(kv) then Get(kv, q) else if q == k then Some(v) else None
  {
    if |kv| > 0 {
      assert (kv + [(k, v)])[1..] == kv[1..] + [(k, v)];
      GetAppend(kv[1..], k, v, q);
    }
  }

  lemma KeysOfAppend<K, V>(kv: seq<(K, V)>, k: K, v: V)
    ensures KeysOf(kv + [(k, v)]) == KeysOf(kv) + [k]
  {
  }

  lemma KeysOfConcat<K, V>(a: seq<(K, V)>, b: seq<(K, V)>)
    ensures KeysOf(a + b) == KeysOf(a) + KeysOf(b)
  {
  }

  /** `d[k] = v`: a new key goes last, an existing key keeps its place and takes the
      new value. */
  function Put<K(==,!new), V>(kv: seq<(K, V)>, k: K, v: V): (r: seq<(K, V)>)
    ensures KeysOf(r) == if k in KeysOf(kv) then KeysOf(kv) else KeysOf(kv) + [k]
    ensures forall q :: Get(r, q) == if q == k then Some(v) else Get(kv, q)
  {
    if |kv| == 0 then [(k, v)]
    else if kv[0].0 == k then [(k, v)] + kv[1..]
    else [kv[0]] + Put(kv[1..], k, v)
  }

  /** An update that either keeps the keys or appends a new one keeps them distinct. */
  lemma KeysAddedDistinct<K, V, W>(kv: seq<(K, V)>, r: seq<(K, W)>, k: K)
    requires DistinctKeys(kv)
    requires KeysOf(r) == if k in KeysOf(kv) then KeysOf(kv) else KeysOf(kv) + [k]
    ensures DistinctKeys(r)
  {
    if k !in KeysOf(kv) {
      NoDupSnoc(KeysOf(kv), k);
    }
  }

  /** Storing under a key keeps the keys distinct. */
  lemma PutDistinct<K(!new), V>(kv: seq<(K, V)>, k: K, v: V)
    requires DistinctKeys(kv)
    ensures DistinctKeys(Put(kv, k, v))
  {
    KeysAddedDistinct(kv, Put(kv, k, v), k);
  }

  /** With distinct keys, a stored pair is what a lookup finds. */
  lemma GetStored<K, V>(kv: seq<(K, V)>, k: K, v: V)
    requires DistinctKeys(kv) && (k, v) in kv
    ensures Get(kv, k) == Some(v)
  {
    var i :| 0 <= i < |kv| && kv[i] == (k, v);
    GetAt(kv, i);
  }
}

=== FILE: grouper.dfy ===
/** backend/core/grouper.py: clustering photos whose perceptual hashes lie within a
    Hamming-distance threshold of each other, through a union-find structure. */
module Grouper {
  import opened Wrappers
  import opened Seqs
  import opened Dicts
  import Hasher
  import opened UnionFind

  // ---------------------------------------------------------------------------
  // Similarity as a graph over the photos that have a hash
  // ---------------------------------------------------------------------------

  /** Every two hashes can be compared (equal-length hexadecimal strings, as
      `compute_phash` produces them). */
  ghost predicate AllComparable(hs: seq<string>)
  {
    forall i, j :: 0 <= i < |hs| && 0 <= j < |hs| ==> Hasher.Comparable(hs[i], hs[j])
  }

  /** Photos `i` and `j` are an edge of the similarity graph: their hashes differ in
      at most `t` bits. */
  ghost predicate Near(hs: seq<string>, t: int, i: int, j: int)
  {
    && 0 <= i < |hs| && 0 <= j < |hs|
    && Hasher.Comparable(hs[i], hs[j])
    && Hasher.HammingDistance(hs[i], hs[j]) <= t
  }

  /** A path in the similarity graph, given by photo indices. */
  ghost predicate IsWalk(hs: seq<string>, t: int, w: seq<int>)
  {
    && |w| >= 1
    && (forall k :: 0 <= k < |w| ==> 0 <= w[k] < |hs|)
    && (forall k :: 0 <= k < |w| - 1 ==> Near(hs, t, w[k], w[k + 1]))
  }

  /** Photos `i` and `j` lie in the same connected component of the similarity graph:
      a chain of pairwise-similar photos leads from one to the other. */
  ghost predicate Linked(hs: seq<string>, t: int, i: int, j: int)
  {
    exists w :: IsWalk(hs, t, w) && w[0] == i && w[|w| - 1] == j
  }

  lemma LinkedRefl(hs: seq<string>, t: int, i: int)
    requires 0 <= i < |hs|
    ensures Linked(hs, t, i, i)
  {
    assert IsWalk(hs, t, [i]);
  }

  lemma NearLinked(hs: seq<string>, t: int, i: int, j: int)
    requires Near(hs, t, i, j)
    ensures Linked(hs, t, i, j)
  {
    assert IsWalk(hs, t, [i, j]);
  }

  lemma NearSym(hs: seq<string>, t: int, i: int, j: int)
    requires Near(hs, t, i, j)
    ensures Near(hs, t, j, i)
  {
    Hasher.HammingSymmetric(hs[i], hs[j]);
  }

  function Reverse<T>(s: seq<T>): (r: seq<T>)
    ensures |r| == |s|
    ensures forall k :: 0 <= k < |s| ==> r[k] == s[|s| - 1 - k]
  {
    if |s| == 0 then [] else Reverse(s[1..]) + [s[0]]
  }

  lemma LinkedSym(hs: seq<string>, t: int, i: int, j: int)
    requires Linked(hs, t, i, j)
    ensures Linked(hs, t, j, i)
  {
    var w :| IsWalk(hs, t, w) && w[0] == i && w[|w| - 1] == j;
    var r := Reverse(w);
    forall k | 0 <= k < |r| - 1
      ensures Near(hs, t, r[k], r[k + 1])
    {
      NearSym(hs, t, w[|w| - 2 - k], w[|w| - 1 - k]);
    }
    assert IsWalk(hs, t, r);
  }

  lemma LinkedTrans(hs: seq<string>, t: int, i: int, j: int, k: int)
    requires Linked(hs, t, i, j) && Linked(hs, t, j, k)
    ensures Linked(hs, t, i, k)
  {
    var w1 :| IsWalk(hs, t, w1) && w1[0] == i && w1[|w1| - 1] == j;
    var w2 :| IsWalk(hs, t, w2) && w2[0] == j && w2[|w2| - 1] == k;
    var w := w1 + w2[1..];
    forall m | 0 <= m < |w| - 1
      ensures Near(hs, t, w[m], w[m + 1])
    {
      if m < |w1| - 1 {
        assert w[m] == w1[m] && w[m + 1] == w1[m + 1];
      } else {
        assert w[m] == w2[m - |w1| + 1] && w[m + 1] == w2[m - |w1| + 2];
      }
    }
    assert IsWalk(hs, t, w);
  }

  // ---------------------------------------------------------------------------
  // The pairwise comparison loop
  // ---------------------------------------------------------------------------

  /** Every pair the forest connects is linked in the similarity graph. */
  ghost predicate Sound(uf: Forest<string>, paths: seq<string>, hs: seq<string>, t: int)
    requires Valid(uf)
  {
    forall a, b :: 0 <= a < |paths| && 0 <= b < |paths| && Same(uf, paths[a], paths[b]) ==> Linked(hs, t, a, b)
  }

  /** Joining two similar photos keeps the forest sound. */
  lemma UnionSound(uf: Forest<string>, paths: seq<string>, hs: seq<string>, t: int, i: int, j: int)
    requires Valid(uf) && |paths| == |hs| && NoDup(paths)
    requires Sound(uf, paths, hs, t) && Near(hs, t, i, j)
    ensures Sound(Union(uf, paths[i], paths[j]), paths, hs, t)
  {
    var g := Union(uf, paths[i], paths[j]);
    forall a, b | 0 <= a < |paths| && 0 <= b < |paths| && Same(g, paths[a], paths[b])
      ensures Linked(hs, t, a, b)
    {
      UnionConnects(uf, paths[i], paths[j], paths[a], paths[b]);
      NearLinked(hs, t, i, j);
      if Same(uf, paths[a], paths[b]) {
      } else if Same(uf, paths[a], paths[i]) && Same(uf, paths[b], paths[j]) {
        LinkedSym(hs, t, b, j);
        LinkedTrans(hs, t, a, i, j);
        LinkedTrans(hs, t, a, j, b);
      } else {
        assert Same(uf, paths[a], paths[j]) && Same(uf, paths[b], paths[i]);
        LinkedSym(hs, t, b, i);
        LinkedSym(hs, t, i, j);
        LinkedTrans(hs, t, a, j, i);
        LinkedTrans(hs, t, a, i, b);
      }
    }
  }

  /** A union never separates nodes that were already connected. */
  lemma UnionKeepsSame(uf: Forest<string>, x: string, y: string)
    requires Valid(uf)
    ensures forall a, b :: Same(uf, a, b) ==> Same(Union(uf, x, y), a, b)
  {
    forall a, b | Same(uf, a, b)
      ensures Same(Union(uf, x, y), a, b)
    {
      UnionConnects(uf, x, y, a, b);
    }
  }

  /** Connectedness kept through two steps is kept through both. */
  lemma SameTrans(f: Forest<string>, g: Forest<string>, h: Forest<string>)
    requires Valid(f) && Valid(g) && Valid(h)
    requires forall a, b :: Same(f, a, b) ==> Same(g, a, b)
    requires forall a, b :: Same(g, a, b) ==> Same(h, a, b)
    ensures forall a, b :: Same(f, a, b) ==> Same(h, a, b)
  {
  }

  /** The row invariant of the comparison loop advances past photo `j`. */
  lemma RowStep(f: Forest<string>, g: Forest<string>, paths: seq<string>, hs: seq<string>, t: int, i: int, j: int)
    requires Valid(f) && Valid(g) && 0 <= i < |paths| && 0 <= j < |paths|
    requires forall a, b :: Same(f, a, b) ==> Same(g, a, b)
    requires Same(g, paths[i], paths[j])
    requires forall b :: i < b < j && Near(hs, t, i, b) ==> Same(f, paths[i], paths[b])
    ensures forall b :: i < b < j + 1 && Near(hs, t, i, b) ==> Same(g, paths[i], paths[b])
  {
  }

  /** The row invariant advances past a photo `j` that is not similar to `i`. */
  lemma RowSkip(f: Forest<string>, paths: seq<string>, hs: seq<string>, t: int, i: int, j: int)
    requires Valid(f) && 0 <= i < |paths| && 0 <= j < |paths|
    requires !Near(hs, t, i, j)
    requires forall b :: i < b < j && Near(hs, t, i, b) ==> Same(f, paths[i], paths[b])
    ensures forall b :: i < b < j + 1 && Near(hs, t, i, b) ==> Same(f, paths[i], paths[b])
  {
  }

  /** Once every similar pair is connected, every linked pair is. */
  lemma {:induction false} WalkSame(uf: Forest<string>, paths: seq<string>, hs: seq<string>, t: int, w: seq<int>)
    requires Valid(uf) && |paths| == |hs|
    requires forall a, b :: Near(hs, t, a, b) ==> Same(uf, paths[a], paths[b])
    requires IsWalk(hs, t, w)
    ensures Same(uf, paths[w[0]], paths[w[|w| - 1]])
    decreases |w|
  {
    if |w| > 1 {
      var v := w[..|w| - 1];
      assert IsWalk(hs, t, v);
      WalkSame(uf, paths, hs, t, v);
      assert Near(hs, t, w[|w| - 2], w[|w| - 1]);
    }
  }

  /** One row of the comparison loop: photo `i` against every later photo. Nodes
      stay connected, and `i` ends up connected to each later photo similar to it. */
  method JoinRow(uf0: Forest<string>, paths: seq<string>, hs: seq<string>, t: int, i: int) returns (uf: Forest<string>)
    requires |paths| == |hs| && NoDup(paths) && AllComparable(hs) && 0 <= i < |paths|
    requires Valid(uf0) && Sound(uf0, paths, hs, t)
    ensures Valid(uf) && Sound(uf, paths, hs, t)
    ensures forall a, b :: Same(uf0, a, b) ==> Same(uf, a, b)
    ensures forall b :: i < b < |paths| && Near(hs, t, i, b) ==> Same(uf, paths[i], paths[b])
  {
    uf := uf0;
    var j := i + 1;
    while j < |paths|
      invariant i + 1 <= j <= |paths|
      invariant Valid(uf) && Sound(uf, paths, hs, t)
      invariant forall a, b :: Same(uf0, a, b) ==> Same(uf, a, b)
      invariant forall b :: i < b < j && Near(hs, t, i, b) ==> Same(uf, paths[i], paths[b])
    {
      var dist := Hasher.HammingDistance(hs[i], hs[j]);
      if dist <= t {
        var g := Union(uf, paths[i], paths[j]);
        UnionSound(uf, paths, hs, t, i, j);
        UnionKeepsSame(uf, paths[i], paths[j]);
        SameTrans(uf0, uf, g);
        RowStep(uf, g, paths, hs, t, i, j);
        uf := g;
      } else {
        RowSkip(uf, paths, hs, t, i, j);
      }
      j := j + 1;
    }
  }

  /** The invariant of the outer loop advances past row `i`. */
  lemma RowsStep(f: Forest<string>, g: Forest<string>, paths: seq<string>, hs: seq<string>, t: int, i: int)
    requires Valid(f) && Valid(g) && 0 <= i < |paths|
    requires forall a, b :: Same(f, a, b) ==> Same(g, a, b)
    requires forall a, b :: 0 <= a < i && a < b < |paths| && Near(hs, t, a, b) ==> Same(f, paths[a], paths[b])
    requires forall b :: i < b < |paths| && Near(hs, t, i, b) ==> Same(g, paths[i], paths[b])
    ensures forall a, b :: 0 <= a < i + 1 && a < b < |paths| && Near(hs, t, a, b) ==> Same(g, paths[a], paths[b])
  {
  }

  /** Once every similar pair is connected (in either order), every linked pair is. */
  lemma LinkedSame(uf: Forest<string>, paths: seq<string>, hs: seq<string>, t: int)
    requires Valid(uf) && |paths| == |hs|
    requires forall a, b :: 0 <= a < b < |paths| && Near(hs, t, a, b) ==> Same(uf, paths[a], paths[b])
    ensures forall a, b :: 0 <= a < |paths| && 0 <= b < |paths| && Linked(hs, t, a, b) ==> Same(uf, paths[a], paths[b])
  {
    forall a, b | Near(hs, t, a, b)
      ensures Same(uf, paths[a], paths[b])
    {
      if b < a {
        NearSym(hs, t, a, b);
      }
    }
    forall a, b | 0 <= a < |paths| && 0 <= b < |paths| && Linked(hs, t, a, b)
      ensures Same(uf, paths[a], paths[b])
    {
      var w :| IsWalk(hs, t, w) && w[0] == a && w[|w| - 1] == b;
      WalkSame(uf, paths, hs, t, w);
    }
  }

  /** `for i in range(n): for j in range(i + 1, n): if dist <= threshold: union`:
      afterwards two photos are connected exactly when a chain of similar photos
      joins them. */
  method JoinSimilar(paths: seq<string>, hs: seq<string>, t: int) returns (uf: Forest<string>)
    requires |paths| == |hs| && NoDup(paths) && AllComparable(hs)
    ensures Valid(uf)
    ensures forall a, b :: 0 <= a < |paths| && 0 <= b < |paths| ==>
              (Same(uf, paths[a], paths[b]) <==> Linked(hs, t, a, b))
  {
    var n := |paths|;
    uf := EmptyForest();
    forall a, b | 0 <= a < n && 0 <= b < n && Same(uf, paths[a], paths[b])
      ensures Linked(hs, t, a, b)
    {
      assert a == b;
      LinkedRefl(hs, t, a);
    }
    var i := 0;
    while i < n
      invariant 0 <= i <= n
      invariant Valid(uf) && Sound(uf, paths, hs, t)
      invariant forall a, b :: 0 <= a < i && a < b < n && Near(hs, t, a, b) ==> Same(uf, paths[a], paths[b])
    {
      var g := JoinRow(uf, paths, hs, t, i);
      RowsStep(uf, g, paths, hs, t, i);
      uf := g;
      i := i + 1;
    }
    LinkedSame(uf, paths, hs, t);
  }

  // ---------------------------------------------------------------------------
  // groups_dict: the photos filed under their root, in first-seen order
  // ---------------------------------------------------------------------------

  /** The photos filed under `key` by a sequence of (photo, root) filings, in order. */
  function MembersOf(kv: seq<(string, string)>, key: string): (ms: seq<string>)
    ensures forall p :: p in ms <==> (p, key) in kv
  {
    if |kv| == 0 then []
    else
      assert kv == kv[..|kv| - 1] + [kv[|kv| - 1]];
      MembersOf(kv[..|kv| - 1], key) + (if kv[|kv| - 1].1 == key then [kv[|kv| - 1].0] else [])
  }

  lemma MembersOfLast(kv: seq<(string, string)>, key: string)
    requires |kv| > 0
    ensures MembersOf(kv, key) == MembersOf(kv[..|kv| - 1], key) + (if kv[|kv| - 1].1 == key then [kv[|kv| - 1].0] else [])
  {
  }

  /** Photos filed once each are members of a group at most once. */
  lemma {:induction false} MembersNoDup(kv: seq<(string, string)>, key: string)
    requires DistinctKeys(kv)
    ensures NoDup(MembersOf(kv, key))
  {
    if |kv| > 0 {
      var init := kv[..|kv| - 1];
      assert KeysOf(init) == KeysOf(kv)[..|kv| - 1];
      MembersNoDup(init, key);
      var last := kv[|kv| - 1];
      if last.1 == key {
        forall q | q in MembersOf(init, key)
          ensures q != last.0
        {
          var m :| 0 <= m < |init| && init[m] == (q, key);
          assert KeysOf(kv)[m] == q && KeysOf(kv)[|kv| - 1] == last.0;
        }
      }
    }
  }

  /** `groups_dict.setdefault(root, []).append(path)`. */
  function AddMember(gs: seq<(string, seq<string>)>, key: string, p: string): (r: seq<(string, seq<string>)>)
    requires DistinctKeys(gs)
    ensures KeysOf(r) == if key in KeysOf(gs) then KeysOf(gs) else KeysOf(gs) + [key]
    ensures forall i :: 0 <= i < |r| ==>
              r[i].1 == (if i < |gs| then gs[i].1 else []) + (if r[i].0 == key then [p] else [])
  {
    if |gs| == 0 then [(key, [p])]
    else if gs[0].0 == key then
      assert forall i :: 1 <= i < |gs| ==> KeysOf(gs)[i] != KeysOf(gs)[0];
      [(key, gs[0].1 + [p])] + gs[1..]
    else
      assert KeysOf(gs[1..]) == KeysOf(gs)[1..];
      [gs[0]] + AddMember(gs[1..], key, p)
  }

  /** The whole filing loop, one `setdefault(...).append(...)` per filing. */
  function GroupBy(kv: seq<(string, string)>): (gs: seq<Bucket>)
    ensures DistinctKeys(gs)
  {
    if |kv| == 0 then []
    else
      var prev := GroupBy(kv[..|kv| - 1]);
      var r := AddMember(prev, kv[|kv| - 1].1, kv[|kv| - 1].0);
      KeysAddedDistinct(prev, r, kv[|kv| - 1].1);
      r
  }

  /** The filing loop yields one group per root that occurs, each holding exactly the
      photos filed under that root, in filing order. */
  lemma {:induction false} GroupByMembers(kv: seq<(string, string)>)
    ensures var gs := GroupBy(kv);
            && (forall k :: k in KeysOf(gs) <==> MembersOf(kv, k) != [])
            && (forall i :: 0 <= i < |gs| ==> gs[i].1 == MembersOf(kv, gs[i].0))
  {
    if |kv| > 0 {
      var init := kv[..|kv| - 1];
      var last := kv[|kv| - 1];
      var prev := GroupBy(init);
      GroupByMembers(init);
      var gs := GroupBy(kv);
      assert gs == AddMember(prev, last.1, last.0);
      var isNew := last.1 !in KeysOf(prev);
      assert forall k :: k in KeysOf(gs) <==> MembersOf(kv, k) != [] by {
        forall k
          ensures k in KeysOf(gs) <==> MembersOf(kv, k) != []
        {
          MembersOfLast(kv, k);
        }
      }
      forall i | 0 <= i < |gs|
        ensures gs[i].1 == MembersOf(kv, gs[i].0)
      {
        var key := gs[i].0;
        assert key == KeysOf(gs)[i];
        MembersOfLast(kv, key);
        if i < |prev| {
          assert prev[i].0 == KeysOf(prev)[i] == key;
          assert prev[i].1 == MembersOf(init, key);
        } else {
          assert |KeysOf(gs)| > |KeysOf(prev)|;
          assert KeysOf(gs) == KeysOf(prev) + [last.1];
          assert key == last.1;
          assert MembersOf(init, key) == [];
        }
      }
    }
  }

  /** `(path, uf.find(path))` for each path: the root the forest assigns each photo. */
  ghost function Keyed(uf: Forest<string>, paths: seq<string>): (kv: seq<(string, string)>)
    requires Valid(uf)
    ensures |kv| == |paths|
    ensures forall i :: 0 <= i < |paths| ==> kv[i] == (paths[i], RootOf(uf, paths[i]))
  {
    if |paths| == 0 then [] else Keyed(uf, paths[..|paths| - 1]) + [(paths[|paths| - 1], RootOf(uf, paths[|paths| - 1]))]
  }

  /** The extraction loop: `find` each photo (compressing paths as it goes, which
      moves no photo to another set) and file it under its root. */
  method CollectGroups(uf0: Forest<string>, paths: seq<string>) returns (groups: seq<(string, seq<string>)>)
    requires Valid(uf0)
    ensures groups == GroupBy(Keyed(uf0, paths))
  {
    var uf := uf0;
    groups := [];
    var i := 0;
    while i < |paths|
      invariant 0 <= i <= |paths|
      invariant Valid(uf) && forall z :: RootOf(uf, z) == RootOf(uf0, z)
      invariant groups == GroupBy(Keyed(uf0, paths[..i]))
    {
      var found := Find(uf, paths[i]);
      ghost var kv := Keyed(uf0, paths[..i + 1]);
      assert paths[..i + 1][..i] == paths[..i];
      assert kv[..i] == Keyed(uf0, paths[..i]);
      assert kv[i] == (paths[i], found.1);
      groups := AddMember(groups, found.1, paths[i]);
      assert groups == GroupBy(kv);
      uf := found.0;
      i := i + 1;
    }
    assert paths[..i] == paths;
  }

  // ---------------------------------------------------------------------------
  // sorted(groups_dict.items(), key=lambda x: -len(x[1])): a stable sort by size
  // ---------------------------------------------------------------------------

  /** A root with the photos filed under it: one item of `groups_dict`. */
  type Bucket = (string, seq<string>)

  /** Sizes never increase along the sequence. */
  ghost predicate BySizeDesc(s: seq<Bucket>)
  {
    forall i, j :: 0 <= i < j < |s| ==> |s[i].1| >= |s[j].1|
  }

  /** The entries of size `n`, in order. */
  function WithSize(s: seq<Bucket>, n: nat): seq<Bucket>
  {
    if |s| == 0 then []
    else WithSize(s[..|s| - 1], n) + (if |s[|s| - 1].1| == n then [s[|s| - 1]] else [])
  }

  lemma {:induction false} WithSizeConcat(a: seq<Bucket>, b: seq<Bucket>, n: nat)
    ensures WithSize(a + b, n) == WithSize(a, n) + WithSize(b, n)
    decreases |b|
  {
    if |b| == 0 {
      assert a + b == a;
    } else {
      assert (a + b)[..|a + b| - 1] == a + b[..|b| - 1];
      WithSizeConcat(a, b[..|b| - 1], n);
    }
  }

  lemma {:induction false} WithSizeNone(s: seq<Bucket>, n: nat)
    requires forall i :: 0 <= i < |s| ==> |s[i].1| < n
    ensures WithSize(s, n) == []
  {
    if |s| > 0 {
      WithSizeNone(s[..|s| - 1], n);
    }
  }

  /** Insertion after every entry at least as large: the stable position. */
  function InsertBySize(s: seq<Bucket>, x: Bucket): (r: seq<Bucket>)
    ensures multiset(r) == multiset(s) + multiset{x}
    ensures forall e :: e in r <==> e in s || e == x
  {
    if |s| == 0 then [x]
    else if |s[0].1| >= |x.1| then
      assert s == [s[0]] + s[1..];
      [s[0]] + InsertBySize(s[1..], x)
    else [x] + s
  }

  /** Inserting into a size-sorted sequence keeps it sorted. */
  lemma {:induction false} InsertBySizeSorted(s: seq<Bucket>, x: Bucket)
    requires BySizeDesc(s)
    ensures BySizeDesc(InsertBySize(s, x))
  {
    var r := InsertBySize(s, x);
    if |s| > 0 && |s[0].1| >= |x.1| {
      InsertBySizeSorted(s[1..], x);
      var rest := InsertBySize(s[1..], x);
      assert r == [s[0]] + rest;
      forall i, j | 0 <= i < j < |r|
        ensures |r[i].1| >= |r[j].1|
      {
        assert r[j] == rest[j - 1];
        if i == 0 {
          assert rest[j - 1] in rest;
          if rest[j - 1] != x {
            var k :| 0 <= k < |s[1..]| && s[1..][k] == rest[j - 1];
            assert s[1..][k] == s[k + 1];
          }
        } else {
          assert r[i] == rest[i - 1];
        }
      }
    }
  }

  lemma WithSizeSingle(x: Bucket, n: nat)
    ensures WithSize([x], n) == if |x.1| == n then [x] else []
  {
    assert [x][..0] == [];
  }

  /** Inserting into a size-sorted sequence appends `x` to the entries of its size. */
  lemma {:induction false} InsertBySizeFilters(s: seq<Bucket>, x: Bucket, n: nat)
    requires BySizeDesc(s)
    ensures WithSize(InsertBySize(s, x), n) == WithSize(s, n) + (if |x.1| == n then [x] else [])
    decreases |s|
  {
    if |s| == 0 {
      WithSizeSingle(x, n);
    } else if |s[0].1| >= |x.1| {
      InsertBySizeFilters(s[1..], x, n);
      InsertAfterHead(s, x, n);
    } else {
      InsertAtHead(s, x, n);
    }
  }

  lemma InsertAfterHead(s: seq<Bucket>, x: Bucket, n: nat)
    requires |s| > 0 && |s[0].1| >= |x.1|
    requires WithSize(InsertBySize(s[1..], x), n) == WithSize(s[1..], n) + (if |x.1| == n then [x] else [])
    ensures WithSize(InsertBySize(s, x), n) == WithSize(s, n) + (if |x.1| == n then [x] else [])
  {
    var head, tail := [s[0]], s[1..];
    var rest := InsertBySize(tail, x);
    var extra := if |x.1| == n then [x] else [];
    calc {
      WithSize(InsertBySize(s, x), n);
      { assert InsertBySize(s, x) == head + rest; }
      WithSize(head + rest, n);
      { WithSizeConcat(head, rest, n); }
      WithSize(head, n) + (WithSize(tail, n) + extra);
      (WithSize(head, n) + WithSize(tail, n)) + extra;
      { WithSizeConcat(head, tail, n); }
      WithSize(head + tail, n) + extra;
      { assert s == head + tail; }
      WithSize(s, n) + extra;
    }
  }

  lemma InsertAtHead(s: seq<Bucket>, x: Bucket, n: nat)
    requires BySizeDesc(s) && |s| > 0 && |s[0].1| < |x.1|
    ensures WithSize(InsertBySize(s, x), n) == WithSize(s, n) + (if |x.1| == n then [x] else [])
  {
    assert InsertBySize(s, x) == [x] + s;
    WithSizeConcat([x], s, n);
    WithSizeSingle(x, n);
    if |x.1| == n {
      WithSizeNone(s, n);
    }
  }

  /** Python's stable sort on `-len(members)`. */
  function SortBySize(s: seq<Bucket>): (r: seq<Bucket>)
    ensures multiset(r) == multiset(s)
  {
    if |s| == 0 then []
    else
      assert s == s[..|s| - 1] + [s[|s| - 1]];
      InsertBySize(SortBySize(s[..|s| - 1]), s[|s| - 1])
  }

  /** The sort orders by decreasing size and keeps the original order among entries
      of equal size: for each size, the entries of that size are those of the input,
      in the input's order. */
  lemma {:induction false} SortBySizeStable(s: seq<Bucket>)
    ensures BySizeDesc(SortBySize(s))
    ensures forall n: nat :: WithSize(SortBySize(s), n) == WithSize(s, n)
  {
    if |s| > 0 {
      var init := s[..|s| - 1];
      SortBySizeStable(init);
      InsertBySizeSorted(SortBySize(init), s[|s| - 1]);
      forall n: nat
        ensures WithSize(SortBySize(s), n) == WithSize(s, n)
      {
        InsertBySizeFilters(SortBySize(init), s[|s| - 1], n);
      }
    }
  }

  // ---------------------------------------------------------------------------
  // Equal sizes keep groups_dict's order: the order in which roots are first seen
  // ---------------------------------------------------------------------------

  /** The position of the first photo of `paths` that is among `ms`, or `|paths|`
      when there is none (FirstIndexBefore: no earlier photo is among `ms`). */
  function FirstIndex(paths: seq<string>, ms: seq<string>): (i: nat)
    ensures i <= |paths|
    ensures i < |paths| ==> paths[i] in ms
  {
    if |paths| == 0 then 0
    else if paths[0] in ms then 0
    else 1 + FirstIndex(paths[1..], ms)
  }

  /** No photo before the first position is among `ms`. */
  lemma {:induction false} FirstIndexBefore(paths: seq<string>, ms: seq<string>, j: int)
    requires 0 <= j < FirstIndex(paths, ms)
    ensures paths[j] !in ms
  {
    if j > 0 {
      FirstIndexBefore(paths[1..], ms, j - 1);
    }
  }

  /** The first position is at most that of any photo among `ms`. */
  lemma FirstIndexLeast(paths: seq<string>, ms: seq<string>, j: int)
    requires 0 <= j < |paths| && paths[j] in ms
    ensures FirstIndex(paths, ms) <= j
  {
    if j < FirstIndex(paths, ms) {
      FirstIndexBefore(paths, ms, j);
    }
  }

  /** Only membership matters to the first position. */
  lemma FirstIndexSame(paths: seq<string>, a: seq<string>, b: seq<string>)
    requires forall q :: q in a <==> q in b
    ensures FirstIndex(paths, a) == FirstIndex(paths, b)
  {
    var i, k := FirstIndex(paths, a), FirstIndex(paths, b);
    if i < |paths| {
      FirstIndexLeast(paths, b, i);
    }
    if k < |paths| {
      FirstIndexLeast(paths, a, k);
    }
  }

  /** A later photo that is not among the earlier ones does not move a first
      position that is already reached. */
  lemma FirstIndexExtend(paths: seq<string>, x: string, ms: seq<string>, ms': seq<string>)
    requires FirstIndex(paths, ms) < |paths| && x !in paths
    requires forall j :: 0 <= j < |paths| ==> (paths[j] in ms' <==> paths[j] in ms)
    ensures FirstIndex(paths + [x], ms') == FirstIndex(paths, ms)
  {
    var ext := paths + [x];
    var i := FirstIndex(paths, ms);
    assert ext[i] == paths[i];
    FirstIndexLeast(ext, ms', i);
    var k := FirstIndex(ext, ms');
    if k < i {
      assert ext[k] == paths[k];
      FirstIndexBefore(paths, ms, k);
    }
  }

  /** Buckets in strictly increasing first position of their members. */
  ghost predicate FirstSeenOrder(s: seq<Bucket>, paths: seq<string>)
  {
    forall i, j :: 0 <= i < j < |s| ==> FirstIndex(paths, s[i].1) < FirstIndex(paths, s[j].1)
  }

  /** Buckets of equal size in strictly increasing first position of their members. */
  ghost predicate TiesFirstSeen(s: seq<Bucket>, paths: seq<string>)
  {
    forall i, j :: 0 <= i < j < |s| && |s[i].1| == |s[j].1| ==>
      FirstIndex(paths, s[i].1) < FirstIndex(paths, s[j].1)
  }

  /** Filing a photo not filed before leaves the first position of an existing root. */
  lemma AddMemberOldFirst(prev: seq<Bucket>, key: string, p: string, paths: seq<string>, i: int)
    requires DistinctKeys(prev) && p !in paths && 0 <= i < |prev|
    requires FirstIndex(paths, prev[i].1) < |paths|
    ensures FirstIndex(paths + [p], AddMember(prev, key, p)[i].1) == FirstIndex(paths, prev[i].1)
  {
    var gs := AddMember(prev, key, p);
    assert gs[i].1 == prev[i].1 + (if gs[i].0 == key then [p] else []);
    forall j | 0 <= j < |paths|
      ensures paths[j] in gs[i].1 <==> paths[j] in prev[i].1
    {
      assert paths[j] != p;
    }
    FirstIndexExtend(paths, p, prev[i].1, gs[i].1);
  }

  /** A root seen for the first time is first seen at the new photo. */
  lemma AddMemberNewFirst(prev: seq<Bucket>, key: string, p: string, paths: seq<string>)
    requires DistinctKeys(prev) && p !in paths && |AddMember(prev, key, p)| > |prev|
    ensures FirstIndex(paths + [p], AddMember(prev, key, p)[|prev|].1) == |paths|
  {
    var gs := AddMember(prev, key, p);
    var ext := paths + [p];
    assert KeysOf(gs)[|prev|] == key;
    assert gs[|prev|].1 == [p];
    assert ext[|paths|] == p;
    FirstIndexLeast(ext, [p], |paths|);
    assert forall j :: 0 <= j < |paths| ==> ext[j] == paths[j];
  }

  /** Filing one more photo, not filed before, keeps the roots in first-seen order. */
  lemma AddMemberFirstSeen(prev: seq<Bucket>, key: string, p: string, paths: seq<string>)
    requires DistinctKeys(prev) && p !in paths
    requires forall i :: 0 <= i < |prev| ==> FirstIndex(paths, prev[i].1) < |paths|
    requires FirstSeenOrder(prev, paths)
    ensures forall i :: 0 <= i < |AddMember(prev, key, p)| ==> FirstIndex(paths + [p], AddMember(prev, key, p)[i].1) <= |paths|
    ensures FirstSeenOrder(AddMember(prev, key, p), paths + [p])
  {
    var gs := AddMember(prev, key, p);
    var ext := paths + [p];
    forall i | 0 <= i < |gs|
      ensures FirstIndex(ext, gs[i].1) <= |paths|
    {
      AddMemberFirst(prev, key, p, paths, i);
    }
    forall i, j | 0 <= i < j < |gs|
      ensures FirstIndex(ext, gs[i].1) < FirstIndex(ext, gs[j].1)
    {
      AddMemberFirst(prev, key, p, paths, i);
      AddMemberFirst(prev, key, p, paths, j);
    }
  }

  /** Where the first photo of a root lies after filing one more photo: where it
      was, or at the new photo for a new root. */
  lemma AddMemberFirst(prev: seq<Bucket>, key: string, p: string, paths: seq<string>, i: int)
    requires DistinctKeys(prev) && p !in paths && 0 <= i < |AddMember(prev, key, p)|
    requires i < |prev| ==> FirstIndex(paths, prev[i].1) < |paths|
    ensures i <= |prev|
    ensures FirstIndex(paths + [p], AddMember(prev, key, p)[i].1) ==
              if i < |prev| then FirstIndex(paths, prev[i].1) else |paths|
  {
    if i < |prev| {
      AddMemberOldFirst(prev, key, p, paths, i);
    } else {
      AddMemberNewFirst(prev, key, p, paths);
    }
  }

  /** A dict keeps its keys in insertion order, so the filing loop lists the roots in
      the order in which their first photo is filed. */
  lemma {:induction false} GroupByFirstSeen(kv: seq<(string, string)>)
    requires DistinctKeys(kv)
    ensures forall i :: 0 <= i < |GroupBy(kv)| ==> FirstIndex(KeysOf(kv), GroupBy(kv)[i].1) < |kv|
    ensures FirstSeenOrder(GroupBy(kv), KeysOf(kv))
  {
    if |kv| > 0 {
      var init := kv[..|kv| - 1];
      var last := kv[|kv| - 1];
      var paths := KeysOf(init);
      assert KeysOf(kv) == paths + [last.0];
      assert last.0 !in paths by {
        forall j | 0 <= j < |paths|
          ensures paths[j] != last.0
        {
          assert paths[j] == KeysOf(kv)[j] && last.0 == KeysOf(kv)[|kv| - 1];
        }
      }
      GroupByFirstSeen(init);
      assert GroupBy(kv) == AddMember(GroupBy(init), last.1, last.0);
      AddMemberFirstSeen(GroupBy(init), last.1, last.0, paths);
    }
  }

  /** Inserting after a head at least as large. */
  lemma InsertTiesAfterHead(s: seq<Bucket>, x: Bucket, paths: seq<string>)
    requires |s| > 0 && |s[0].1| >= |x.1|
    requires TiesFirstSeen(InsertBySize(s[1..], x), paths)
    requires forall e :: e in s ==> FirstIndex(paths, e.1) < FirstIndex(paths, x.1)
    requires forall j :: 1 <= j < |s| && |s[0].1| == |s[j].1| ==> FirstIndex(paths, s[0].1) < FirstIndex(paths, s[j].1)
    ensures TiesFirstSeen(InsertBySize(s, x), paths)
  {
    var rest := InsertBySize(s[1..], x);
    assert InsertBySize(s, x) == [s[0]] + rest;
    assert s[0] in s;
    forall e | e in rest && |e.1| == |s[0].1|
      ensures FirstIndex(paths, s[0].1) < FirstIndex(paths, e.1)
    {
      HeadBeforeTie(s, x, paths, e);
    }
    TiesCons(s[0], rest, paths);
  }

  /** A head that comes before every bucket of its size behind it keeps ties in order. */
  lemma TiesCons(h: Bucket, rest: seq<Bucket>, paths: seq<string>)
    requires TiesFirstSeen(rest, paths)
    requires forall e :: e in rest && |e.1| == |h.1| ==> FirstIndex(paths, h.1) < FirstIndex(paths, e.1)
    ensures TiesFirstSeen([h] + rest, paths)
  {
    var r := [h] + rest;
    forall i, j | 0 <= i < j < |r| && |r[i].1| == |r[j].1|
      ensures FirstIndex(paths, r[i].1) < FirstIndex(paths, r[j].1)
    {
      assert r[j] == rest[j - 1];
      if i > 0 {
        assert r[i] == rest[i - 1];
      }
    }
  }

  /** The head comes first among the buckets of its size inserted after it. */
  lemma HeadBeforeTie(s: seq<Bucket>, x: Bucket, paths: seq<string>, e: Bucket)
    requires |s| > 0 && e in InsertBySize(s[1..], x) && |s[0].1| == |e.1|
    requires FirstIndex(paths, s[0].1) < FirstIndex(paths, x.1)
    requires forall j :: 1 <= j < |s| && |s[0].1| == |s[j].1| ==> FirstIndex(paths, s[0].1) < FirstIndex(paths, s[j].1)
    ensures FirstIndex(paths, s[0].1) < FirstIndex(paths, e.1)
  {
    if e != x {
      var k :| 0 <= k < |s[1..]| && s[1..][k] == e;
      assert s[k + 1] == e;
    }
  }

  /** Inserting in front of a smaller head. */
  lemma InsertTiesAtHead(s: seq<Bucket>, x: Bucket, paths: seq<string>)
    requires |s| > 0 && |s[0].1| < |x.1| && BySizeDesc(s) && TiesFirstSeen(s, paths)
    ensures TiesFirstSeen(InsertBySize(s, x), paths)
  {
    var r := InsertBySize(s, x);
    assert r == [x] + s;
    forall i, j | 0 <= i < j < |r| && |r[i].1| == |r[j].1|
      ensures FirstIndex(paths, r[i].1) < FirstIndex(paths, r[j].1)
    {
      assert r[j] == s[j - 1] && |s[0].1| >= |s[j - 1].1|;
      if i > 0 {
        assert r[i] == s[i - 1];
      }
    }
  }

  /** Inserting a bucket seen after all others into a size-sorted sequence keeps
      equal sizes in first-seen order. */
  lemma {:induction false} InsertBySizeTies(s: seq<Bucket>, x: Bucket, paths: seq<string>)
    requires BySizeDesc(s) && TiesFirstSeen(s, paths)
    requires forall e :: e in s ==> FirstIndex(paths, e.1) < FirstIndex(paths, x.1)
    ensures TiesFirstSeen(InsertBySize(s, x), paths)
  {
    if |s| > 0 && |s[0].1| >= |x.1| {
      var tail := s[1..];
      assert forall i :: 0 <= i < |tail| ==> tail[i] == s[i + 1];
      InsertBySizeTies(tail, x, paths);
      InsertTiesAfterHead(s, x, paths);
    } else if |s| > 0 {
      InsertTiesAtHead(s, x, paths);
    }
  }

  /** The stable sort of buckets listed in first-seen order keeps equal sizes in
      first-seen order. */
  lemma {:induction false} SortBySizeTies(s: seq<Bucket>, paths: seq<string>)
    requires FirstSeenOrder(s, paths)
    ensures TiesFirstSeen(SortBySize(s), paths)
  {
    if |s| > 0 {
      var init := s[..|s| - 1];
      var x := s[|s| - 1];
      SortBySizeTies(init, paths);
      SortBySizeStable(init);
      var sorted := SortBySize(init);
      forall e | e in sorted
        ensures FirstIndex(paths, e.1) < FirstIndex(paths, x.1)
      {
        assert e in multiset(sorted);
        var k :| 0 <= k < |init| && init[k] == e;
      }
      InsertBySizeTies(sorted, x, paths);
    }
  }

  // ---------------------------------------------------------------------------
  // sorted(members): Python's string order
  // ---------------------------------------------------------------------------

  /** Python's `<` on `str`: lexicographic by code point, a proper prefix first. */
  predicate StrLess(a: string, b: string)
  {
    if |a| == 0 then |b| > 0
    else if |b| == 0 then false
    else if a[0] != b[0] then a[0] < b[0]
    else StrLess(a[1..], b[1..])
  }

  lemma {:induction false} StrLessIrrefl(a: string)
    ensures !StrLess(a, a)
  {
    if |a| > 0 {
      StrLessIrrefl(a[1..]);
    }
  }

  /** Two different strings are ordered one way or the other. */
  lemma {:induction false} StrLessTotal(a: string, b: string)
    ensures a == b || StrLess(a, b) || StrLess(b, a)
  {
    if |a| > 0 && |b| > 0 && a[0] == b[0] {
      StrLessTotal(a[1..], b[1..]);
      assert a == [a[0]] + a[1..] && b == [b[0]] + b[1..];
    }
  }

  lemma {:induction false} StrLessTrans(a: string, b: string, c: string)
    requires StrLess(a, b) && StrLess(b, c)
    ensures StrLess(a, c)
  {
    if |a| > 0 && a[0] == b[0] && b[0] == c[0] {
      StrLessTrans(a[1..], b[1..], c[1..]);
    }
  }

  /** Strictly increasing in Python's string order. */
  ghost predicate Ascending(s: seq<string>)
  {
    forall i, j :: 0 <= i < j < |s| ==> StrLess(s[i], s[j])
  }

  function InsertPath(s: seq<string>, x: string): (r: seq<string>)
    ensures multiset(r) == multiset(s) + multiset{x}
    ensures forall e :: e in r <==> e in s || e == x
  {
    if |s| == 0 then [x]
    else if StrLess(s[0], x) then
      assert s == [s[0]] + s[1..];
      [s[0]] + InsertPath(s[1..], x)
    else [x] + s
  }

  /** Inserting a new path into an ascending sequence keeps it ascending. */
  lemma {:induction false} InsertPathAscending(s: seq<string>, x: string)
    requires Ascending(s) && x !in s
    ensures Ascending(InsertPath(s, x))
  {
    var r := InsertPath(s, x);
    if |s| > 0 {
      if StrLess(s[0], x) {
        var rest := InsertPath(s[1..], x);
        InsertPathAscending(s[1..], x);
        assert r == [s[0]] + rest;
        forall j | 0 < j < |r|
          ensures StrLess(r[0], r[j])
        {
          assert r[j] in rest;
        }
      } else {
        assert r == [x] + s;
        StrLessTotal(x, s[0]);
        forall j | 0 < j < |r|
          ensures StrLess(r[0], r[j])
        {
          if j > 1 {
            StrLessTrans(x, s[0], s[j - 1]);
          }
        }
      }
    }
  }

  /** `sorted(members)`. */
  function SortPaths(s: seq<string>): (r: seq<string>)
    ensures multiset(r) == multiset(s)
  {
    if |s| == 0 then []
    else
      assert s == s[..|s| - 1] + [s[|s| - 1]];
      InsertPath(SortPaths(s[..|s| - 1]), s[|s| - 1])
  }

  /** Distinct paths come out in strictly ascending order. */
  lemma {:induction false} SortPathsAscending(s: seq<string>)
    requires NoDup(s)
    ensures Ascending(SortPaths(s))
  {
    if |s| > 0 {
      var init := s[..|s| - 1];
      assert NoDup(init);
      SortPathsAscending(init);
      assert s[|s| - 1] !in multiset(init);
      InsertPathAscending(SortPaths(init), s[|s| - 1]);
    }
  }

  // ---------------------------------------------------------------------------
  // PhotoGroup and the assembled result
  // ---------------------------------------------------------------------------

  /** One photo of a group: `{'path': ..., 'hash': ..., 'size': ...}`. */
  datatype PhotoEntry = PhotoEntry(path: string, hash: string, size: int)

  datatype PhotoGroup = PhotoGroup(groupId: nat, photos: seq<PhotoEntry>)

  /** `PhotoGroup.count`. */
  function Count(g: PhotoGroup): nat
  {
    |g.photos|
  }

  /** The sum of a sequence of photo sizes. */
  function SumSizes(es: seq<PhotoEntry>): int
  {
    if |es| == 0 then 0 else SumSizes(es[..|es| - 1]) + es[|es| - 1].size
  }

  /** `PhotoGroup.total_size`: the sum of the sizes of its photos. */
  function TotalSize(g: PhotoGroup): (total: int)
    ensures (forall i :: 0 <= i < |g.photos| ==> g.photos[i].size >= 0) ==>
              0 <= total && forall i :: 0 <= i < |g.photos| ==> g.photos[i].size <= total
  {
    SumSizesBounds(g.photos);
    SumSizes(g.photos)
  }

  lemma {:induction false} SumSizesBounds(es: seq<PhotoEntry>)
    ensures (forall i :: 0 <= i < |es| ==> es[i].size >= 0) ==>
              0 <= SumSizes(es) && forall i :: 0 <= i < |es| ==> es[i].size <= SumSizes(es)
  {
    if |es| > 0 {
      SumSizesBounds(es[..|es| - 1]);
    }
  }

  /** The paths of a group's photos, in order. */
  function PathsOf(g: PhotoGroup): (ps: seq<string>)
    ensures |ps| == |g.photos|
    ensures forall i :: 0 <= i < |ps| ==> ps[i] == g.photos[i].path
  {
    seq(|g.photos|, i requires 0 <= i < |g.photos| => g.photos[i].path)
  }

  /** `photo_sizes.get(p, 0)` after `photo_sizes = photo_sizes or {}`. */
  function SizeOf(sizes: Option<map<string, int>>, p: string): int
  {
    match sizes
    case None => 0
    case Some(m) => if p in m then m[p] else 0
  }

  /** The photo dictionaries of one group, in the given path order. */
  function Entries(ps: seq<string>, valid: seq<(string, string)>, sizes: Option<map<string, int>>): (es: seq<PhotoEntry>)
    requires forall p :: p in ps ==> p in KeysOf(valid)
    ensures |es| == |ps|
    ensures forall i :: 0 <= i < |ps| ==>
              es[i].path == ps[i] && Get(valid, ps[i]) == Some(es[i].hash) && es[i].size == SizeOf(sizes, ps[i])
  {
    if |ps| == 0 then []
    else
      var rest := Entries(ps[1..], valid, sizes);
      var es := [PhotoEntry(ps[0], Get(valid, ps[0]).value, SizeOf(sizes, ps[0]))] + rest;
      assert forall i :: 1 <= i < |ps| ==> es[i] == rest[i - 1] && ps[i] == ps[1..][i - 1];
      es
  }

  /** `PhotoGroup(group_id=gid, photos=[... for p in sorted(members)])`. */
  function MakeGroup(gid: nat, members: seq<string>, valid: seq<(string, string)>, sizes: Option<map<string, int>>): (g: PhotoGroup)
    requires forall p :: p in members ==> p in KeysOf(valid)
    ensures g.groupId == gid && Count(g) == |members|
  {
    var ps := SortPaths(members);
    assert forall p :: p in ps ==> p in multiset(members);
    PhotoGroup(gid, Entries(ps, valid, sizes))
  }

  /** A group holds its members, once each, with the hash and size recorded for each. */
  lemma MakeGroupContents(gid: nat, members: seq<string>, valid: seq<(string, string)>, sizes: Option<map<string, int>>)
    requires forall p :: p in members ==> p in KeysOf(valid)
    ensures var g := MakeGroup(gid, members, valid, sizes);
            && multiset(PathsOf(g)) == multiset(members)
            && forall i :: 0 <= i < |g.photos| ==>
                 Get(valid, g.photos[i].path) == Some(g.photos[i].hash) && g.photos[i].size == SizeOf(sizes, g.photos[i].path)
  {
    var ps := SortPaths(members);
    assert forall p :: p in ps ==> p in multiset(members);
    var g := PhotoGroup(gid, Entries(ps, valid, sizes));
    assert PathsOf(g) == ps;
  }

  /** Every member of every bucket is a photo with a hash. */
  ghost predicate Hashed(buckets: seq<Bucket>, valid: seq<(string, string)>)
  {
    forall k, p :: 0 <= k < |buckets| && p in buckets[k].1 ==> p in KeysOf(valid)
  }

  lemma HashedTail(buckets: seq<Bucket>, valid: seq<(string, string)>)
    requires Hashed(buckets, valid) && |buckets| > 0
    ensures Hashed(buckets[1..], valid)
  {
    forall k, p | 0 <= k < |buckets[1..]| && p in buckets[1..][k].1
      ensures p in KeysOf(valid)
    {
      assert buckets[1..][k] == buckets[k + 1];
    }
  }

  /** The `enumerate` loop: the `gid`-th bucket becomes group `gid` unless it holds a
      single photo, in which case it is skipped. */
  function BuildGroups(buckets: seq<Bucket>, gid: nat, valid: seq<(string, string)>, sizes: Option<map<string, int>>): (gs: seq<PhotoGroup>)
    requires Hashed(buckets, valid)
    ensures |gs| <= |buckets|
  {
    if |buckets| == 0 then []
    else
      HashedTail(buckets, valid);
      (if |buckets[0].1| < 2 then [] else [MakeGroup(gid, buckets[0].1, valid, sizes)])
        + BuildGroups(buckets[1..], gid + 1, valid, sizes)
  }

  /** A group of at least two photos whose id is one of the `n` positions from `gid`. */
  predicate Kept(g: PhotoGroup, gid: nat, n: nat)
  {
    Count(g) >= 2 && gid <= g.groupId < gid + n
  }

  /** Every group built holds at least two photos and takes its id from its bucket's position. */
  lemma {:induction false} BuildGroupsKept(buckets: seq<Bucket>, gid: nat, valid: seq<(string, string)>, sizes: Option<map<string, int>>)
    requires Hashed(buckets, valid)
    ensures forall k :: 0 <= k < |BuildGroups(buckets, gid, valid, sizes)| ==> Kept(BuildGroups(buckets, gid, valid, sizes)[k], gid, |buckets|)
  {
    if |buckets| > 0 {
      HashedTail(buckets, valid);
      BuildGroupsKept(buckets[1..], gid + 1, valid, sizes);
      var rest := BuildGroups(buckets[1..], gid + 1, valid, sizes);
      var gs := BuildGroups(buckets, gid, valid, sizes);
      if |buckets[0].1| >= 2 {
        var g := MakeGroup(gid, buckets[0].1, valid, sizes);
        assert gs == [g] + rest;
        forall k | 0 < k < |gs| ensures Kept(gs[k], gid, |buckets|) {
          assert gs[k] == rest[k - 1];
        }
      }
    }
  }

  /** The kept groups are exactly a prefix of the buckets, each made from the bucket
      at its position, and every bucket after that prefix is a singleton. */
  ghost predicate PrefixBuilt(gs: seq<PhotoGroup>, buckets: seq<Bucket>, gid: nat, valid: seq<(string, string)>, sizes: Option<map<string, int>>)
    requires Hashed(buckets, valid)
  {
    && |gs| <= |buckets|
    && (forall k :: 0 <= k < |gs| ==> |buckets[k].1| >= 2 && gs[k] == MakeGroup(gid + k, buckets[k].1, valid, sizes))
    && (forall m :: |gs| <= m < |buckets| ==> |buckets[m].1| < 2)
  }

  /** On buckets sorted by decreasing size the skipped singletons all come last, so
      the kept groups are exactly a prefix of the buckets and each group's id is its
      position in the result. */
  lemma {:induction false} BuildGroupsPrefix(buckets: seq<Bucket>, gid: nat, valid: seq<(string, string)>, sizes: Option<map<string, int>>)
    requires Hashed(buckets, valid) && BySizeDesc(buckets)
    ensures PrefixBuilt(BuildGroups(buckets, gid, valid, sizes), buckets, gid, valid, sizes)
  {
    if |buckets| > 0 {
      var tail := buckets[1..];
      HashedTail(buckets, valid);
      assert BySizeDesc(tail) by {
        forall i, j | 0 <= i < j < |tail| ensures |tail[i].1| >= |tail[j].1| {
          assert tail[i] == buckets[i + 1] && tail[j] == buckets[j + 1];
        }
      }
      BuildGroupsPrefix(tail, gid + 1, valid, sizes);
      if |buckets[0].1| < 2 {
        PrefixSkip(buckets, gid, valid, sizes);
      } else {
        var rest := BuildGroups(tail, gid + 1, valid, sizes);
        var gs := BuildGroups(buckets, gid, valid, sizes);
        assert gs == [MakeGroup(gid, buckets[0].1, valid, sizes)] + rest;
        PrefixKeep(gs, rest, buckets, gid, valid, sizes);
      }
    }
  }

  /** A singleton first bucket: sorted by size, every bucket is a singleton. */
  lemma PrefixSkip(buckets: seq<Bucket>, gid: nat, valid: seq<(string, string)>, sizes: Option<map<string, int>>)
    requires Hashed(buckets, valid) && BySizeDesc(buckets) && |buckets| > 0 && |buckets[0].1| < 2
    ensures PrefixBuilt(BuildGroups(buckets, gid, valid, sizes), buckets, gid, valid, sizes)
  {
    var tail := buckets[1..];
    HashedTail(buckets, valid);
    forall m | 0 <= m < |tail| ensures |tail[m].1| < 2 {
      assert tail[m] == buckets[m + 1];
    }
    SmallBucketsSkipped(tail, gid + 1, valid, sizes);
    assert BuildGroups(buckets, gid, valid, sizes) == [];
  }

  /** A kept first bucket becomes group `gid` in front of the groups of the rest. */
  lemma PrefixKeep(gs: seq<PhotoGroup>, rest: seq<PhotoGroup>, buckets: seq<Bucket>, gid: nat,
                   valid: seq<(string, string)>, sizes: Option<map<string, int>>)
    requires Hashed(buckets, valid) && |buckets| > 0 && |buckets[0].1| >= 2
    requires Hashed(buckets[1..], valid)
    requires gs == [MakeGroup(gid, buckets[0].1, valid, sizes)] + rest
    requires PrefixBuilt(rest, buckets[1..], gid + 1, valid, sizes)
    ensures PrefixBuilt(gs, buckets, gid, valid, sizes)
  {
    var tail := buckets[1..];
    forall k | 0 < k < |gs|
      ensures |buckets[k].1| >= 2 && gs[k] == MakeGroup(gid + k, buckets[k].1, valid, sizes)
    {
      assert gs[k] == rest[k - 1] && tail[k - 1] == buckets[k];
    }
    forall m | |gs| <= m < |buckets| ensures |buckets[m].1| < 2 {
      assert tail[m - 1] == buckets[m];
    }
  }

  lemma {:induction false} SmallBucketsSkipped(buckets: seq<Bucket>, gid: nat, valid: seq<(string, string)>, sizes: Option<map<string, int>>)
    requires Hashed(buckets, valid)
    requires forall m :: 0 <= m < |buckets| ==> |buckets[m].1| < 2
    ensures BuildGroups(buckets, gid, valid, sizes) == []
  {
    if |buckets| > 0 {
      HashedTail(buckets, valid);
      SmallBucketsSkipped(buckets[1..], gid + 1, valid, sizes);
    }
  }

  // ---------------------------------------------------------------------------
  // group_similar_photos
  // ---------------------------------------------------------------------------

  /** `valid = {p: h for p, h in photo_hashes.items() if h is not None}`: every
      photo with a hash, in the original order, and nothing else. */
  function HashedOnly(photoHashes: seq<(string, Option<string>)>): (valid: seq<(string, string)>)
    ensures forall i :: 0 <= i < |valid| ==> (valid[i].0, Some(valid[i].1)) in photoHashes
    ensures forall i :: 0 <= i < |photoHashes| && photoHashes[i].1.Some? ==>
              (photoHashes[i].0, photoHashes[i].1.value) in valid
    ensures IsSubseq(KeysOf(valid), KeysOf(photoHashes))
  {
    if |photoHashes| == 0 then []
    else
      var init := photoHashes[..|photoHashes| - 1];
      var last := photoHashes[|photoHashes| - 1];
      var rest := HashedOnly(init);
      assert photoHashes == init + [last];
      KeysOfAppend(init, last.0, last.1);
      match last.1
      case None =>
        SubseqExtend(KeysOf(rest), KeysOf(init), last.0);
        rest
      case Some(h) =>
        KeysOfAppend(rest, last.0, h);
        SubseqSnoc(KeysOf(rest), KeysOf(init), last.0);
        rest + [(last.0, h)]
  }

  /** Dropping the photos without a hash keeps the paths distinct. */
  lemma HashedOnlyDistinct(photoHashes: seq<(string, Option<string>)>)
    requires DistinctKeys(photoHashes)
    ensures DistinctKeys(HashedOnly(photoHashes))
  {
    SubseqNoDup(KeysOf(HashedOnly(photoHashes)), KeysOf(photoHashes));
  }

  /** Photos `a` and `b` appear in one group. */
  ghost predicate Together(groups: seq<PhotoGroup>, a: string, b: string)
  {
    exists k :: 0 <= k < |groups| && a in PathsOf(groups[k]) && b in PathsOf(groups[k])
  }

  /** The paths of a built group are the bucket's members, sorted. */
  lemma MakeGroupPaths(gid: nat, members: seq<string>, valid: seq<(string, string)>, sizes: Option<map<string, int>>)
    requires forall p :: p in members ==> p in KeysOf(valid)
    ensures PathsOf(MakeGroup(gid, members, valid, sizes)) == SortPaths(members)
    ensures forall p :: p in PathsOf(MakeGroup(gid, members, valid, sizes)) <==> p in members
  {
    var ps := SortPaths(members);
    assert forall p :: p in ps <==> p in multiset(members);
  }

  /** Each sorted bucket is one of the buckets built by the filing loop: its members
      are exactly the photos filed under its root. */
  lemma SortedBucketsFiled(kv: seq<(string, string)>, k: int)
    requires 0 <= k < |SortBySize(GroupBy(kv))|
    ensures var b := SortBySize(GroupBy(kv))[k];
            b.1 == MembersOf(kv, b.0)
  {
    var bs := GroupBy(kv);
    var b := SortBySize(bs)[k];
    assert b in multiset(SortBySize(bs));
    assert b in bs;
    var m :| 0 <= m < |bs| && bs[m] == b;
    GroupByMembers(kv);
  }

  /** Buckets with distinct roots are distinct, and so are their sorted copies. */
  lemma SortedBucketsDistinct(kv: seq<(string, string)>)
    ensures NoDup(SortBySize(GroupBy(kv)))
  {
    var bs := GroupBy(kv);
    forall i, j | 0 <= i < j < |bs|
      ensures bs[i] != bs[j]
    {
      assert KeysOf(bs)[i] == bs[i].0 && KeysOf(bs)[j] == bs[j].0;
    }
    NoDupPerm(bs, SortBySize(bs));
  }

  /** Every root some photo is filed under has a bucket among the sorted ones. */
  lemma SortedBucketsCover(kv: seq<(string, string)>, r: string)
    requires MembersOf(kv, r) != []
    ensures exists k :: 0 <= k < |SortBySize(GroupBy(kv))| && SortBySize(GroupBy(kv))[k].0 == r
  {
    var bs := GroupBy(kv);
    GroupByMembers(kv);
    var m :| 0 <= m < |bs| && KeysOf(bs)[m] == r;
    assert bs[m] in multiset(SortBySize(bs));
    var k :| 0 <= k < |SortBySize(bs)| && SortBySize(bs)[k] == bs[m];
  }

  /** What filing and sorting produce, stated over the filings alone. */
  ghost predicate FiledBuckets(kv: seq<(string, string)>, buckets: seq<Bucket>)
  {
    && BySizeDesc(buckets) && NoDup(buckets)
    && (forall k :: 0 <= k < |buckets| ==> buckets[k].1 == MembersOf(kv, buckets[k].0))
    && (forall r :: MembersOf(kv, r) != [] ==> exists k :: 0 <= k < |buckets| && buckets[k].0 == r)
  }

  /** The buckets are sorted by size, distinct, hold exactly the photos filed under
      their root, and cover every root that occurs. */
  lemma BucketsFiled(kv: seq<(string, string)>)
    ensures FiledBuckets(kv, SortBySize(GroupBy(kv)))
  {
    var buckets := SortBySize(GroupBy(kv));
    SortBySizeStable(GroupBy(kv));
    SortedBucketsDistinct(kv);
    forall k | 0 <= k < |buckets|
      ensures buckets[k].1 == MembersOf(kv, buckets[k].0)
    {
      SortedBucketsFiled(kv, k);
    }
    forall r | MembersOf(kv, r) != []
      ensures exists k :: 0 <= k < |buckets| && buckets[k].0 == r
    {
      SortedBucketsCover(kv, r);
    }
  }

  /** A sequence holding two different values has at least two elements. */
  lemma TwoDistinct(s: seq<string>, a: string, b: string)
    requires a in s && b in s && a != b
    ensures |s| >= 2
  {
    var i :| 0 <= i < |s| && s[i] == a;
    var j :| 0 <= j < |s| && s[j] == b;
    assert i != j;
  }

  /** What the `enumerate` loop builds from size-sorted buckets of distinct photos. */
  ghost predicate BuiltFrom(groups: seq<PhotoGroup>, buckets: seq<Bucket>, valid: seq<(string, string)>, sizes: Option<map<string, int>>)
  {
    && |groups| <= |buckets|
    && (forall k :: 0 <= k < |groups| ==>
          && groups[k].groupId == k && Count(groups[k]) == |buckets[k].1| >= 2
          && Ascending(PathsOf(groups[k]))
          && forall p :: p in PathsOf(groups[k]) <==> p in buckets[k].1)
    && (forall m :: |groups| <= m < |buckets| ==> |buckets[m].1| < 2)
    && (forall k, e :: 0 <= k < |groups| && e in groups[k].photos ==>
          Get(valid, e.path) == Some(e.hash) && e.size == SizeOf(sizes, e.path))
  }

  /** One kept bucket made into a group. */
  lemma GroupMadeFrom(buckets: seq<Bucket>, valid: seq<(string, string)>, sizes: Option<map<string, int>>,
                      k: nat, g: PhotoGroup)
    requires Hashed(buckets, valid) && k < |buckets| && NoDup(buckets[k].1)
    requires g == MakeGroup(k, buckets[k].1, valid, sizes)
    ensures g.groupId == k && Count(g) == |buckets[k].1|
    ensures Ascending(PathsOf(g))
    ensures forall p :: p in PathsOf(g) <==> p in buckets[k].1
    ensures forall e :: e in g.photos ==> Get(valid, e.path) == Some(e.hash) && e.size == SizeOf(sizes, e.path)
  {
    var ms := buckets[k].1;
    MakeGroupPaths(k, ms, valid, sizes);
    SortPathsAscending(ms);
    assert |SortPaths(ms)| == |ms| by {
      assert |multiset(SortPaths(ms))| == |multiset(ms)|;
    }
    assert |PathsOf(g)| == |g.photos|;
    forall e | e in g.photos
      ensures Get(valid, e.path) == Some(e.hash) && e.size == SizeOf(sizes, e.path)
    {
      var i :| 0 <= i < |g.photos| && g.photos[i] == e;
    }
  }

  /** The groups built from size-sorted buckets: ids are positions, every group has
      at least two photos, its photos are the bucket's members by ascending path,
      each carrying its own hash and its size, and only singleton buckets are
      dropped. */
  lemma GroupsBuilt(buckets: seq<Bucket>, valid: seq<(string, string)>, sizes: Option<map<string, int>>)
    requires Hashed(buckets, valid) && BySizeDesc(buckets)
    requires forall k :: 0 <= k < |buckets| ==> NoDup(buckets[k].1)
    ensures BuiltFrom(BuildGroups(buckets, 0, valid, sizes), buckets, valid, sizes)
  {
    var groups := BuildGroups(buckets, 0, valid, sizes);
    BuildGroupsPrefix(buckets, 0, valid, sizes);
    forall k | 0 <= k < |groups|
      ensures groups[k].groupId == k && Count(groups[k]) == |buckets[k].1| >= 2
      ensures Ascending(PathsOf(groups[k]))
      ensures forall p :: p in PathsOf(groups[k]) <==> p in buckets[k].1
      ensures forall e :: e in groups[k].photos ==> Get(valid, e.path) == Some(e.hash) && e.size == SizeOf(sizes, e.path)
    {
      GroupMadeFrom(buckets, valid, sizes, k, groups[k]);
    }
  }

  /** The filings of a forest: each photo under its root. */
  ghost predicate FiledByRoot(uf: Forest<string>, paths: seq<string>, kv: seq<(string, string)>)
  {
    && Valid(uf) && NoDup(paths) && |kv| == |paths|
    && forall i :: 0 <= i < |paths| ==> kv[i] == (paths[i], RootOf(uf, paths[i]))
  }

  /** No photo is in two groups. */
  lemma GroupsDisjoint(uf: Forest<string>, paths: seq<string>, kv: seq<(string, string)>, buckets: seq<Bucket>,
                       groups: seq<PhotoGroup>, valid: seq<(string, string)>, sizes: Option<map<string, int>>)
    requires FiledByRoot(uf, paths, kv) && FiledBuckets(kv, buckets) && BuiltFrom(groups, buckets, valid, sizes)
    ensures forall k, l, p :: 0 <= k < |groups| && 0 <= l < |groups| && p in PathsOf(groups[k]) && p in PathsOf(groups[l]) ==> k == l
  {
    forall k, l, p | 0 <= k < |groups| && 0 <= l < |groups| && p in PathsOf(groups[k]) && p in PathsOf(groups[l])
      ensures k == l
    {
      var i :| 0 <= i < |kv| && kv[i] == (p, buckets[k].0);
      var j :| 0 <= j < |kv| && kv[j] == (p, buckets[l].0);
      assert i == j;
      assert buckets[k] == buckets[l];
    }
  }

  /** Photos sharing a group have the same root. */
  lemma TogetherSame(uf: Forest<string>, paths: seq<string>, kv: seq<(string, string)>, buckets: seq<Bucket>,
                     groups: seq<PhotoGroup>, valid: seq<(string, string)>, sizes: Option<map<string, int>>, i: int, j: int)
    requires FiledByRoot(uf, paths, kv) && FiledBuckets(kv, buckets) && BuiltFrom(groups, buckets, valid, sizes)
    requires 0 <= i < |paths| && 0 <= j < |paths| && Together(groups, paths[i], paths[j])
    ensures Same(uf, paths[i], paths[j])
  {
    var k :| 0 <= k < |groups| && paths[i] in PathsOf(groups[k]) && paths[j] in PathsOf(groups[k]);
    var key := buckets[k].0;
    assert buckets[k].1 == MembersOf(kv, key);
    assert paths[i] in MembersOf(kv, key) && paths[j] in MembersOf(kv, key);
    var a :| 0 <= a < |kv| && kv[a] == (paths[i], key);
    var b :| 0 <= b < |kv| && kv[b] == (paths[j], key);
    assert paths[a] == paths[i] && paths[b] == paths[j];
    assert a == i && b == j;
    assert RootOf(uf, paths[i]) == key == RootOf(uf, paths[j]);
  }

  /** Two different photos with the same root share a group. */
  lemma SameTogether(uf: Forest<string>, paths: seq<string>, kv: seq<(string, string)>, buckets: seq<Bucket>,
                     groups: seq<PhotoGroup>, valid: seq<(string, string)>, sizes: Option<map<string, int>>, i: int, j: int)
    requires FiledByRoot(uf, paths, kv) && FiledBuckets(kv, buckets) && BuiltFrom(groups, buckets, valid, sizes)
    requires 0 <= i < |paths| && 0 <= j < |paths| && i != j && Same(uf, paths[i], paths[j])
    ensures Together(groups, paths[i], paths[j])
  {
    var pi, pj := paths[i], paths[j];
    var r := RootOf(uf, pi);
    assert kv[i] == (pi, r) && kv[j] == (pj, r);
    assert pi in MembersOf(kv, r) && pj in MembersOf(kv, r);
    var k :| 0 <= k < |buckets| && buckets[k].0 == r;
    TwoDistinct(buckets[k].1, pi, pj);
    assert pi in PathsOf(groups[k]) && pj in PathsOf(groups[k]);
  }

  /** Two different photos share a group exactly when the forest connects them. */
  lemma GroupsAreSets(uf: Forest<string>, paths: seq<string>, kv: seq<(string, string)>, buckets: seq<Bucket>,
                      groups: seq<PhotoGroup>, valid: seq<(string, string)>, sizes: Option<map<string, int>>)
    requires FiledByRoot(uf, paths, kv) && FiledBuckets(kv, buckets) && BuiltFrom(groups, buckets, valid, sizes)
    ensures forall i, j :: 0 <= i < |paths| && 0 <= j < |paths| && i != j ==>
              (Together(groups, paths[i], paths[j]) <==> Same(uf, paths[i], paths[j]))
  {
    forall i, j | 0 <= i < |paths| && 0 <= j < |paths| && i != j
      ensures Together(groups, paths[i], paths[j]) <==> Same(uf, paths[i], paths[j])
    {
      if Together(groups, paths[i], paths[j]) {
        TogetherSame(uf, paths, kv, buckets, groups, valid, sizes, i, j);
      }
      if Same(uf, paths[i], paths[j]) {
        SameTogether(uf, paths, kv, buckets, groups, valid, sizes, i, j);
      }
    }
  }

  /** The buckets of a forest's sets over the photos with a hash. */
  ghost function BucketsOf(uf: Forest<string>, valid: seq<(string, string)>): seq<Bucket>
    requires Valid(uf)
  {
    SortBySize(GroupBy(Keyed(uf, KeysOf(valid))))
  }

  lemma BucketsHashed(uf: Forest<string>, valid: seq<(string, string)>)
    requires Valid(uf)
    ensures Hashed(BucketsOf(uf, valid), valid)
  {
    var kv := Keyed(uf, KeysOf(valid));
    var buckets := BucketsOf(uf, valid);
    forall k, p | 0 <= k < |buckets| && p in buckets[k].1
      ensures p in KeysOf(valid)
    {
      SortedBucketsFiled(kv, k);
    }
  }

  /** The buckets of a forest's sets are filed by root, sorted, and hold distinct
      photos with a hash. */
  lemma BucketsOfFacts(uf: Forest<string>, valid: seq<(string, string)>)
    requires Valid(uf) && DistinctKeys(valid)
    ensures FiledByRoot(uf, KeysOf(valid), Keyed(uf, KeysOf(valid)))
    ensures FiledBuckets(Keyed(uf, KeysOf(valid)), BucketsOf(uf, valid))
    ensures Hashed(BucketsOf(uf, valid), valid)
    ensures forall k :: 0 <= k < |BucketsOf(uf, valid)| ==> NoDup(BucketsOf(uf, valid)[k].1)
  {
    var kv := Keyed(uf, KeysOf(valid));
    var buckets := BucketsOf(uf, valid);
    BucketsHashed(uf, valid);
    BucketsFiled(kv);
    forall k | 0 <= k < |buckets|
      ensures NoDup(buckets[k].1)
    {
      MembersNoDup(kv, buckets[k].0);
    }
  }

  /** The groups built from a forest's sets: ids are positions, every group has at
      least two photos, larger groups come first, and photos are sorted by path and
      carry their own hash and size. */
  lemma ComponentsShape(uf: Forest<string>, valid: seq<(string, string)>, sizes: Option<map<string, int>>)
    requires Valid(uf) && DistinctKeys(valid)
    ensures Hashed(BucketsOf(uf, valid), valid)
    ensures var groups := BuildGroups(BucketsOf(uf, valid), 0, valid, sizes);
            && (forall k :: 0 <= k < |groups| ==> groups[k].groupId == k && Count(groups[k]) >= 2)
            && (forall k, l :: 0 <= k < l < |groups| ==> Count(groups[k]) >= Count(groups[l]))
            && (forall k :: 0 <= k < |groups| ==> Ascending(PathsOf(groups[k])))
            && (forall k, e :: 0 <= k < |groups| && e in groups[k].photos ==>
                  Get(valid, e.path) == Some(e.hash) && e.size == SizeOf(sizes, e.path))
  {
    BucketsOfFacts(uf, valid);
    var buckets := BucketsOf(uf, valid);
    GroupsBuilt(buckets, valid, sizes);
    BuiltShape(BuildGroups(buckets, 0, valid, sizes), buckets, valid, sizes);
  }

  /** What `BuiltFrom` says about the groups alone, on buckets sorted by size. */
  lemma BuiltShape(groups: seq<PhotoGroup>, buckets: seq<Bucket>, valid: seq<(string, string)>, sizes: Option<map<string, int>>)
    requires BuiltFrom(groups, buckets, valid, sizes) && BySizeDesc(buckets)
    ensures forall k :: 0 <= k < |groups| ==> groups[k].groupId == k && Count(groups[k]) >= 2
    ensures forall k, l :: 0 <= k < l < |groups| ==> Count(groups[k]) >= Count(groups[l])
    ensures forall k :: 0 <= k < |groups| ==> Ascending(PathsOf(groups[k]))
    ensures forall k, e :: 0 <= k < |groups| && e in groups[k].photos ==>
              Get(valid, e.path) == Some(e.hash) && e.size == SizeOf(sizes, e.path)
  {
  }

  /** No photo is in two of the groups built from a forest's sets, and two different
      photos share a group exactly when the forest connects them. */
  lemma ComponentsPartition(uf: Forest<string>, valid: seq<(string, string)>, sizes: Option<map<string, int>>)
    requires Valid(uf) && DistinctKeys(valid)
    ensures Hashed(BucketsOf(uf, valid), valid)
    ensures var groups := BuildGroups(BucketsOf(uf, valid), 0, valid, sizes);
            && (forall k, l, p :: 0 <= k < |groups| && 0 <= l < |groups| && p in PathsOf(groups[k]) && p in PathsOf(groups[l]) ==> k == l)
            && (forall i, j :: 0 <= i < |valid| && 0 <= j < |valid| && i != j ==>
                  (Together(groups, KeysOf(valid)[i], KeysOf(valid)[j]) <==> Same(uf, KeysOf(valid)[i], KeysOf(valid)[j])))
  {
    var paths := KeysOf(valid);
    var kv := Keyed(uf, paths);
    var buckets := BucketsOf(uf, valid);
    BucketsOfFacts(uf, valid);
    GroupsBuilt(buckets, valid, sizes);
    var groups := BuildGroups(buckets, 0, valid, sizes);
    GroupsDisjoint(uf, paths, kv, buckets, groups, valid, sizes);
    GroupsAreSets(uf, paths, kv, buckets, groups, valid, sizes);
  }

  /** Groups of equal size keep the order of the buckets they are built from. */
  lemma GroupsTieOrder(groups: seq<PhotoGroup>, buckets: seq<Bucket>, valid: seq<(string, string)>,
                       sizes: Option<map<string, int>>, paths: seq<string>)
    requires BuiltFrom(groups, buckets, valid, sizes) && TiesFirstSeen(buckets, paths)
    ensures forall k, l :: 0 <= k < l < |groups| && Count(groups[k]) == Count(groups[l]) ==>
              FirstIndex(paths, PathsOf(groups[k])) < FirstIndex(paths, PathsOf(groups[l]))
  {
    forall k, l | 0 <= k < l < |groups| && Count(groups[k]) == Count(groups[l])
      ensures FirstIndex(paths, PathsOf(groups[k])) < FirstIndex(paths, PathsOf(groups[l]))
    {
      FirstIndexSame(paths, PathsOf(groups[k]), buckets[k].1);
      FirstIndexSame(paths, PathsOf(groups[l]), buckets[l].1);
    }
  }

  /** Of two groups built from a forest's sets with the same number of photos, the
      one whose first photo comes earlier in the input comes first. */
  lemma ComponentsTies(uf: Forest<string>, valid: seq<(string, string)>, sizes: Option<map<string, int>>)
    requires Valid(uf) && DistinctKeys(valid)
    ensures Hashed(BucketsOf(uf, valid), valid)
    ensures var groups := BuildGroups(BucketsOf(uf, valid), 0, valid, sizes);
            forall k, l :: 0 <= k < l < |groups| && Count(groups[k]) == Count(groups[l]) ==>
              FirstIndex(KeysOf(valid), PathsOf(groups[k])) < FirstIndex(KeysOf(valid), PathsOf(groups[l]))
  {
    var paths := KeysOf(valid);
    var kv := Keyed(uf, paths);
    assert KeysOf(kv) == paths;
    GroupByFirstSeen(kv);
    SortBySizeTies(GroupBy(kv), paths);
    BucketsOfFacts(uf, valid);
    GroupsBuilt(BucketsOf(uf, valid), valid, sizes);
    GroupsTieOrder(BuildGroups(BucketsOf(uf, valid), 0, valid, sizes), BucketsOf(uf, valid), valid, sizes, paths);
  }

  /** Everything after the comparison loop: extract the forest's sets, sort them,
      drop singletons and build the groups. */
  method GroupComponents(uf: Forest<string>, valid: seq<(string, string)>, photoSizes: Option<map<string, int>>)
    returns (groups: seq<PhotoGroup>)
    requires Valid(uf) && DistinctKeys(valid)
    ensures forall k :: 0 <= k < |groups| ==> groups[k].groupId == k && Count(groups[k]) >= 2
    ensures forall k, l :: 0 <= k < l < |groups| ==> Count(groups[k]) >= Count(groups[l])
    ensures forall k, l :: 0 <= k < l < |groups| && Count(groups[k]) == Count(groups[l]) ==>
              FirstIndex(KeysOf(valid), PathsOf(groups[k])) < FirstIndex(KeysOf(valid), PathsOf(groups[l]))
    ensures forall k :: 0 <= k < |groups| ==> Ascending(PathsOf(groups[k]))
    ensures forall k, e :: 0 <= k < |groups| && e in groups[k].photos ==>
              Get(valid, e.path) == Some(e.hash) && e.size == SizeOf(photoSizes, e.path)
    ensures forall k, l, p :: 0 <= k < |groups| && 0 <= l < |groups| && p in PathsOf(groups[k]) && p in PathsOf(groups[l]) ==> k == l
    ensures forall i, j :: 0 <= i < |valid| && 0 <= j < |valid| && i != j ==>
              (Together(groups, KeysOf(valid)[i], KeysOf(valid)[j]) <==> Same(uf, KeysOf(valid)[i], KeysOf(valid)[j]))
  {
    var byRoot := CollectGroups(uf, KeysOf(valid));
    var buckets := SortBySize(byRoot);
    BucketsHashed(uf, valid);
    groups := BuildGroups(buckets, 0, valid, photoSizes);
    assert buckets == BucketsOf(uf, valid);
    ComponentsShape(uf, valid, photoSizes);
    ComponentsTies(uf, valid, photoSizes);
    ComponentsPartition(uf, valid, photoSizes);
  }

  /** A photo found in the photos with a hash has that hash in the input. */
  lemma EntriesHashed(photoHashes: seq<(string, Option<string>)>, groups: seq<PhotoGroup>)
    requires forall k, e :: 0 <= k < |groups| && e in groups[k].photos ==> Get(HashedOnly(photoHashes), e.path) == Some(e.hash)
    ensures forall k, e :: 0 <= k < |groups| && e in groups[k].photos ==> (e.path, Some(e.hash)) in photoHashes
  {
    var valid := HashedOnly(photoHashes);
    forall k, e | 0 <= k < |groups| && e in groups[k].photos
      ensures (e.path, Some(e.hash)) in photoHashes
    {
      assert (e.path, e.hash) in valid;
      var i :| 0 <= i < |valid| && valid[i] == (e.path, e.hash);
    }
  }

  /** Sharing a group is being connected by the forest, which is being linked. */
  lemma TogetherLinked(valid: seq<(string, string)>, uf: Forest<string>, groups: seq<PhotoGroup>, t: int)
    requires Valid(uf)
    requires forall a, b :: 0 <= a < |valid| && 0 <= b < |valid| ==>
               (Same(uf, KeysOf(valid)[a], KeysOf(valid)[b]) <==> Linked(ValuesOf(valid), t, a, b))
    requires forall i, j :: 0 <= i < |valid| && 0 <= j < |valid| && i != j ==>
               (Together(groups, KeysOf(valid)[i], KeysOf(valid)[j]) <==> Same(uf, KeysOf(valid)[i], KeysOf(valid)[j]))
    ensures forall i, j :: 0 <= i < |valid| && 0 <= j < |valid| && i != j ==>
              (Together(groups, valid[i].0, valid[j].0) <==> Linked(ValuesOf(valid), t, i, j))
  {
    forall i, j | 0 <= i < |valid| && 0 <= j < |valid| && i != j
      ensures Together(groups, valid[i].0, valid[j].0) <==> Linked(ValuesOf(valid), t, i, j)
    {
      assert KeysOf(valid)[i] == valid[i].0 && KeysOf(valid)[j] == valid[j].0;
    }
  }

  /** The clustering proper, on the photos that have a hash. */
  method GroupHashed(valid: seq<(string, string)>, photoSizes: Option<map<string, int>>, threshold: int)
    returns (groups: seq<PhotoGroup>)
    requires DistinctKeys(valid) && AllComparable(ValuesOf(valid))
    ensures forall k :: 0 <= k < |groups| ==> groups[k].groupId == k && Count(groups[k]) >= 2
    ensures forall k, l :: 0 <= k < l < |groups| ==> Count(groups[k]) >= Count(groups[l])
    ensures forall k, l :: 0 <= k < l < |groups| && Count(groups[k]) == Count(groups[l]) ==>
              FirstIndex(KeysOf(valid), PathsOf(groups[k])) < FirstIndex(KeysOf(valid), PathsOf(groups[l]))
    ensures forall k :: 0 <= k < |groups| ==> Ascending(PathsOf(groups[k]))
    ensures forall k, e :: 0 <= k < |groups| && e in groups[k].photos ==>
              Get(valid, e.path) == Some(e.hash) && e.size == SizeOf(photoSizes, e.path)
    ensures forall k, l, p :: 0 <= k < |groups| && 0 <= l < |groups| && p in PathsOf(groups[k]) && p in PathsOf(groups[l]) ==> k == l
    ensures forall i, j :: 0 <= i < |valid| && 0 <= j < |valid| && i != j ==>
              (Together(groups, valid[i].0, valid[j].0) <==> Linked(ValuesOf(valid), threshold, i, j))
  {
    var uf := JoinSimilar(KeysOf(valid), ValuesOf(valid), threshold);
    groups := GroupComponents(uf, valid, photoSizes);
    TogetherLinked(valid, uf, groups, threshold);
  }

  /** What `group_similar_photos(photo_hashes, photo_sizes, threshold)` returns:
      the connected components with at least two photos of the similarity graph
      over the photos that have a hash (an edge joins two photos whose hashes
      differ in at most `threshold` bits); numbered 0, 1, 2, ... largest first,
      equal sizes in the order in which their first photo appears in the input;
      each component's photos sorted by path, carrying their own hash and their
      size. */
  ghost predicate SimilarGroups(groups: seq<PhotoGroup>, photoHashes: seq<(string, Option<string>)>,
                                photoSizes: Option<map<string, int>>, threshold: int)
  {
    var valid := HashedOnly(photoHashes);
    && (forall k :: 0 <= k < |groups| ==> groups[k].groupId == k && Count(groups[k]) >= 2)
    && (forall k, l :: 0 <= k < l < |groups| ==> Count(groups[k]) >= Count(groups[l]))
    && (forall k, l :: 0 <= k < l < |groups| && Count(groups[k]) == Count(groups[l]) ==>
          FirstIndex(KeysOf(valid), PathsOf(groups[k])) < FirstIndex(KeysOf(valid), PathsOf(groups[l])))
    && (forall k :: 0 <= k < |groups| ==> Ascending(PathsOf(groups[k])))
    && (forall k, e :: 0 <= k < |groups| && e in groups[k].photos ==>
          (e.path, Some(e.hash)) in photoHashes && e.size == SizeOf(photoSizes, e.path))
    && (forall k, l, p :: 0 <= k < |groups| && 0 <= l < |groups| && p in PathsOf(groups[k]) && p in PathsOf(groups[l]) ==> k == l)
    && (forall i, j :: 0 <= i < |valid| && 0 <= j < |valid| && i != j ==>
          (Together(groups, valid[i].0, valid[j].0) <==> Linked(ValuesOf(valid), threshold, i, j)))
  }

  /** `group_similar_photos(photo_hashes, photo_sizes, threshold)`. */
  method GroupSimilarPhotos(photoHashes: seq<(string, Option<string>)>, photoSizes: Option<map<string, int>>, threshold: int)
    returns (groups: seq<PhotoGroup>)
    requires DistinctKeys(photoHashes)
    requires AllComparable(ValuesOf(HashedOnly(photoHashes)))
    ensures SimilarGroups(groups, photoHashes, photoSizes, threshold)
  {
    var valid := HashedOnly(photoHashes);
    if |valid| == 0 {
      return [];
    }
    HashedOnlyDistinct(photoHashes);
    groups := GroupHashed(valid, photoSizes, threshold);
    EntriesHashed(photoHashes, groups);
  }
}

=== FILE: hasher.dfy ===
/** backend/core/hasher.py: comparison of perceptual-hash fingerprints and the
    assembly of a batch of fingerprints computed by a pool of workers.
    The pHash primitive itself is a parameter (`phash`), never interpreted. */
module Hasher {
  import opened Wrappers
  import opened Seqs
  import opened Dicts

  // ---------------------------------------------------------------------------
  // Fingerprints: hexadecimal strings, four bits per digit, most significant first.
  // ---------------------------------------------------------------------------

  predicate IsHexDigit(c: char)
  {
    '0' <= c <= '9' || 'a' <= c <= 'f' || 'A' <= c <= 'F'
  }

  predicate IsHex(s: string)
  {
    forall k :: 0 <= k < |s| ==> IsHexDigit(s[k])
  }

  /** Two fingerprints can be compared when both are hex strings of the same length. */
  predicate Comparable(a: string, b: string)
  {
    IsHex(a) && IsHex(b) && |a| == |b|
  }

  /** The four bits one hex digit stands for. */
  function Nibble(c: char): bv4
    requires IsHexDigit(c)
  {
    if c <= '9' then (c as int - '0' as int) as bv4
    else if c <= 'F' then (c as int - 'A' as int + 10) as bv4
    else (c as int - 'a' as int + 10) as bv4
  }

  /** Number of set bits of a nibble. */
  function PopCount(n: bv4): (r: nat)
    ensures r <= 4
  {
    (n & 1) as nat + ((n >> 1) & 1) as nat + ((n >> 2) & 1) as nat + ((n >> 3) & 1) as nat
  }

  /** `hamming_distance`: the sum, over aligned digit pairs, of popcount(digit XOR digit). */
  function HammingDistance(a: string, b: string): (d: nat)
    requires Comparable(a, b)
    ensures d <= 4 * |a|
  {
    if |a| == 0 then 0
    else PopCount(Nibble(a[0]) ^ Nibble(b[0])) + HammingDistance(a[1..], b[1..])
  }

  // ---------------------------------------------------------------------------
  // Reference definition: the fingerprint as a bit string, and the number of
  // positions at which two bit strings differ.
  // ---------------------------------------------------------------------------

  /** The four bits of a nibble, most significant first. */
  function NibbleBits(n: bv4): seq<bool>
  {
    [(n >> 3) & 1 == 1, (n >> 2) & 1 == 1, (n >> 1) & 1 == 1, n & 1 == 1]
  }

  /** The bit string a hex fingerprint encodes. */
  function Bits(s: string): (bits: seq<bool>)
    requires IsHex(s)
    ensures |bits| == 4 * |s|
  {
    if |s| == 0 then [] else NibbleBits(Nibble(s[0])) + Bits(s[1..])
  }

  /** Number of positions at which two equally long bit strings differ. */
  function DiffCount(xs: seq<bool>, ys: seq<bool>): nat
    requires |xs| == |ys|
  {
    if |xs| == 0 then 0
    else (if xs[0] != ys[0] then 1 else 0) + DiffCount(xs[1..], ys[1..])
  }

  lemma {:induction false} DiffCountAppend(xs: seq<bool>, ys: seq<bool>, us: seq<bool>, vs: seq<bool>)
    requires |xs| == |ys| && |us| == |vs|
    ensures DiffCount(xs + us, ys + vs) == DiffCount(xs, ys) + DiffCount(us, vs)
  {
    if |xs| > 0 {
      assert (xs + us)[1..] == xs[1..] + us;
      assert (ys + vs)[1..] == ys[1..] + vs;
      DiffCountAppend(xs[1..], ys[1..], us, vs);
    } else {
      assert xs + us == us && ys + vs == vs;
    }
  }

  /** On one digit, popcount of the XOR counts the differing bits. */
  lemma NibbleDiff(x: bv4, y: bv4)
    ensures PopCount(x ^ y) == DiffCount(NibbleBits(x), NibbleBits(y))
  {
    var xs, ys := NibbleBits(x), NibbleBits(y);
    assert xs[1..][1..] == xs[2..] && ys[1..][1..] == ys[2..];
    assert xs[2..][1..] == xs[3..] && ys[2..][1..] == ys[3..];
    assert xs[3..][1..] == [] && ys[3..][1..] == [];
    assert DiffCount(xs[3..], ys[3..]) == if xs[3] != ys[3] then 1 else 0;
    assert DiffCount(xs[2..], ys[2..]) == (if xs[2] != ys[2] then 1 else 0) + DiffCount(xs[3..], ys[3..]);
    assert DiffCount(xs[1..], ys[1..]) == (if xs[1] != ys[1] then 1 else 0) + DiffCount(xs[2..], ys[2..]);
  }

  /** The Hamming distance is the number of differing bits of the two fingerprints. */
  lemma {:induction false} HammingCountsDifferingBits(a: string, b: string)
    requires Comparable(a, b)
    ensures HammingDistance(a, b) == DiffCount(Bits(a), Bits(b))
  {
    if |a| > 0 {
      var x, y := Nibble(a[0]), Nibble(b[0]);
      NibbleDiff(x, y);
      HammingCountsDifferingBits(a[1..], b[1..]);
      DiffCountAppend(NibbleBits(x), NibbleBits(y), Bits(a[1..]), Bits(b[1..]));
    }
  }

  /** The distance does not depend on the order of its arguments. */
  lemma {:induction false} HammingSymmetric(a: string, b: string)
    requires Comparable(a, b)
    ensures HammingDistance(a, b) == HammingDistance(b, a)
  {
    if |a| > 0 {
      assert Nibble(a[0]) ^ Nibble(b[0]) == Nibble(b[0]) ^ Nibble(a[0]);
      HammingSymmetric(a[1..], b[1..]);
    }
  }

  /** A fingerprint is at distance zero from itself. */
  lemma {:induction false} HammingSelf(a: string)
    requires IsHex(a)
    ensures HammingDistance(a, a) == 0
  {
    if |a| > 0 {
      assert Nibble(a[0]) ^ Nibble(a[0]) == 0;
      HammingSelf(a[1..]);
    }
  }

  /** Distance zero means equal bits; for fingerprints written in one case, equal strings. */
  lemma {:induction false} HammingZeroMeansSameBits(a: string, b: string)
    requires Comparable(a, b)
    ensures HammingDistance(a, b) == 0 <==> Bits(a) == Bits(b)
  {
    HammingCountsDifferingBits(a, b);
    DiffCountZero(Bits(a), Bits(b));
  }

  lemma {:induction false} DiffCountZero(xs: seq<bool>, ys: seq<bool>)
    requires |xs| == |ys|
    ensures DiffCount(xs, ys) == 0 <==> xs == ys
  {
    if |xs| > 0 {
      DiffCountZero(xs[1..], ys[1..]);
      if xs == ys {
        assert xs[1..] == ys[1..];
      } else if xs[0] == ys[0] {
        assert xs == [xs[0]] + xs[1..] && ys == [ys[0]] + ys[1..];
      }
    }
  }

  /** The 64-bit fingerprints produced with hash_size 8 are 16 hex digits long,
      so their distance lies in 0..64. */
  lemma SixtyFourBitRange(a: string, b: string)
    requires Comparable(a, b) && |a| == 16
    ensures 0 <= HammingDistance(a, b) <= 64
  {
  }

  // ---------------------------------------------------------------------------
  // compute_phash_batch: fan-out over a worker pool, fan-in into one dictionary.
  // The pool is modelled by the order in which the submitted tasks complete.
  // ---------------------------------------------------------------------------

  /** A task is submitted for every entry that has a thumbnail. */
  predicate Submitted(imagePaths: seq<(string, Option<string>)>, k: string)
  {
    Get(imagePaths, k).Some? && Get(imagePaths, k).value.Some?
  }

  /** The thumbnail a submitted task works on. */
  function ThumbOf(imagePaths: seq<(string, Option<string>)>, k: string): string
    requires Submitted(imagePaths, k)
  {
    Get(imagePaths, k).value.value
  }

  /** The entries without a thumbnail, in input order: they are filled in with `None`. */
  function Unthumbed(imagePaths: seq<(string, Option<string>)>): (ks: seq<string>)
    ensures forall k :: k in ks <==> exists i :: 0 <= i < |imagePaths| && imagePaths[i] == (k, None)
  {
    if |imagePaths| == 0 then []
    else (if imagePaths[0].1.None? then [imagePaths[0].0] else []) + Unthumbed(imagePaths[1..])
  }

  /** The progress reports after `done` completions out of `total`: the callback fires
      with (completed, total) when `completed % 50 == 0 or completed == total`. */
  function BatchReports(done: nat, total: nat): (r: seq<(nat, nat)>)
    ensures |r| <= done
  {
    if done == 0 then []
    else BatchReports(done - 1, total) + (if done % 50 == 0 || done == total then [(done, total)] else [])
  }

  /** Every report is for a completion count up to `done` that meets the cadence, and
      the counts strictly increase. */
  ghost predicate Cadenced(r: seq<(nat, nat)>, done: nat, total: nat)
  {
    && (forall k :: 0 <= k < |r| ==> 1 <= r[k].0 <= done && r[k].1 == total && (r[k].0 % 50 == 0 || r[k].0 == total))
    && (forall i, j :: 0 <= i < j < |r| ==> r[i].0 < r[j].0)
  }

  lemma {:induction false} BatchReportsOrdered(done: nat, total: nat)
    ensures Cadenced(BatchReports(done, total), done, total)
  {
    if done > 0 {
      BatchReportsOrdered(done - 1, total);
      var prev := BatchReports(done - 1, total);
      var r := BatchReports(done, total);
      if done % 50 == 0 || done == total {
        assert r == prev + [(done, total)];
        forall k | 0 <= k < |r|
          ensures 1 <= r[k].0 <= done && r[k].1 == total && (r[k].0 % 50 == 0 || r[k].0 == total)
        {
          if k < |prev| {
            assert r[k] == prev[k];
          }
        }
        forall i, j | 0 <= i < j < |r|
          ensures r[i].0 < r[j].0
        {
          assert r[i] == prev[i];
          if j < |prev| {
            assert r[j] == prev[j];
          } else {
            assert r[j].0 == done && prev[i].0 <= done - 1;
          }
        }
      } else {
        assert r == prev;
      }
    }
  }

  /** Every completion count reached so far that meets the cadence is reported. */
  lemma {:induction false} BatchReportsComplete(done: nat, total: nat, c: nat)
    requires 1 <= c <= done && (c % 50 == 0 || c == total)
    ensures (c, total) in BatchReports(done, total)
  {
    var prev := BatchReports(done - 1, total);
    if c < done {
      BatchReportsComplete(done - 1, total, c);
      var m :| 0 <= m < |prev| && prev[m] == (c, total);
      assert BatchReports(done, total)[m] == prev[m];
    } else {
      assert BatchReports(done, total) == prev + [(c, total)];
    }
  }

  /** The fan-in loop of `compute_phash_batch`: each completed task stores its own
      result under its own key and bumps the completion counter. */
  method CollectCompleted(imagePaths: seq<(string, Option<string>)>, completion: seq<string>,
                          phash: string -> Option<string>)
    returns (results: seq<(string, Option<string>)>, reports: seq<(nat, nat)>)
    requires forall k :: k in completion ==> Submitted(imagePaths, k)
    ensures KeysOf(results) == completion
    ensures forall k :: k in completion ==> Submitted(imagePaths, k) && Get(results, k) == Some(phash(ThumbOf(imagePaths, k)))
    ensures reports == BatchReports(|completion|, |imagePaths|)
  {
    var total := |imagePaths|;
    results := [];
    reports := [];
    var completed := 0;
    while completed < |completion|
      invariant 0 <= completed <= |completion|
      invariant KeysOf(results) == completion[..completed]
      invariant forall k :: k in completion[..completed] ==>
                  Submitted(imagePaths, k) && Get(results, k) == Some(phash(ThumbOf(imagePaths, k)))
      invariant reports == BatchReports(completed, total)
    {
      var orig := completion[completed];
      assert Submitted(imagePaths, orig);
      var hashVal := phash(ThumbOf(imagePaths, orig));
      CollectStep(imagePaths, completion, phash, results, completed);
      results := results + [(orig, hashVal)];
      completed := completed + 1;
      if completed % 50 == 0 || completed == total {
        reports := reports + [(completed, total)];
      }
    }
    assert completion[..completed] == completion;
  }

  /** One completed task keeps the fan-in loop's invariant. */
  lemma CollectStep(imagePaths: seq<(string, Option<string>)>, completion: seq<string>,
                    phash: string -> Option<string>, results: seq<(string, Option<string>)>, completed: nat)
    requires completed < |completion| && Submitted(imagePaths, completion[completed])
    requires KeysOf(results) == completion[..completed]
    requires forall k :: k in completion[..completed] ==>
               Submitted(imagePaths, k) && Get(results, k) == Some(phash(ThumbOf(imagePaths, k)))
    ensures var next := results + [(completion[completed], phash(ThumbOf(imagePaths, completion[completed])))];
            && KeysOf(next) == completion[..completed + 1]
            && forall k :: k in completion[..completed + 1] ==>
                 Submitted(imagePaths, k) && Get(next, k) == Some(phash(ThumbOf(imagePaths, k)))
  {
    var orig := completion[completed];
    var hashVal := phash(ThumbOf(imagePaths, orig));
    assert completion[..completed + 1] == completion[..completed] + [orig];
    forall k | k in completion[..completed + 1]
      ensures Submitted(imagePaths, k) && Get(results + [(orig, hashVal)], k) == Some(phash(ThumbOf(imagePaths, k)))
    {
      GetAppend(results, orig, hashVal, k);
    }
    KeysOfAppend(results, orig, hashVal);
  }

  /** The entries `results[orig] = None` appended for the inputs without a thumbnail. */
  function NoneEntries(ks: seq<string>): (kv: seq<(string, Option<string>)>)
    ensures KeysOf(kv) == ks
    ensures forall i :: 0 <= i < |kv| ==> kv[i].1 == None
  {
    if |ks| == 0 then [] else [(ks[0], None)] + NoneEntries(ks[1..])
  }

  /** `compute_phash_batch`. `completion` is the order in which the pool finishes the
      submitted tasks (every task exactly once); `phash` is `compute_phash`, which
      reports failure as `None` instead of raising. */
  method ComputePhashBatch(imagePaths: seq<(string, Option<string>)>, completion: seq<string>,
                           phash: string -> Option<string>)
    returns (results: seq<(string, Option<string>)>, reports: seq<(nat, nat)>)
    requires DistinctKeys(imagePaths)
    requires NoDup(completion)
    requires forall k :: k in completion <==> Submitted(imagePaths, k)
    ensures DistinctKeys(results)
    ensures KeysOf(results) == completion + Unthumbed(imagePaths)
    ensures forall k :: k in KeysOf(results) <==> k in KeysOf(imagePaths)
    ensures forall i :: 0 <= i < |imagePaths| ==>
              Get(results, imagePaths[i].0) == Some(match imagePaths[i].1 case None => None case Some(t) => phash(t))
    ensures reports == BatchReports(|completion|, |imagePaths|)
  {
    var done;
    done, reports := CollectCompleted(imagePaths, completion, phash);
    var missing := NoneEntries(Unthumbed(imagePaths));
    results := done + missing;
    KeysOfConcat(done, missing);
    BatchKeys(imagePaths, completion, results);
    forall j | 0 <= j < |imagePaths|
      ensures Get(results, imagePaths[j].0) == Some(match imagePaths[j].1 case None => None case Some(t) => phash(t))
    {
      BatchValue(imagePaths, completion, phash, done, j);
    }
  }

  /** The value assembled for one input entry. */
  lemma BatchValue(imagePaths: seq<(string, Option<string>)>, completion: seq<string>,
                   phash: string -> Option<string>, done: seq<(string, Option<string>)>, j: int)
    requires DistinctKeys(imagePaths) && 0 <= j < |imagePaths|
    requires forall k :: k in completion <==> Submitted(imagePaths, k)
    requires KeysOf(done) == completion
    requires forall k :: k in completion ==> Submitted(imagePaths, k) && Get(done, k) == Some(phash(ThumbOf(imagePaths, k)))
    ensures Get(done + NoneEntries(Unthumbed(imagePaths)), imagePaths[j].0)
              == Some(match imagePaths[j].1 case None => None case Some(t) => phash(t))
  {
    var missing := NoneEntries(Unthumbed(imagePaths));
    var k := imagePaths[j].0;
    GetAt(imagePaths, j);
    GetConcat(done, missing, k);
    if imagePaths[j].1.None? {
      assert k in Unthumbed(imagePaths);
      var m :| 0 <= m < |missing| && KeysOf(missing)[m] == k;
      assert !Submitted(imagePaths, k);
      UnthumbedNoDup(imagePaths);
      GetAt(missing, m);
    } else {
      assert Submitted(imagePaths, k);
    }
  }

  /** Looking a key up in a concatenation of two dictionaries. */
  lemma {:induction false} GetConcat(a: seq<(string, Option<string>)>, b: seq<(string, Option<string>)>, k: string)
    ensures Get(a + b, k) == if k in KeysOf(a) then Get(a, k) else Get(b, k)
  {
    if |a| > 0 {
      assert (a + b)[1..] == a[1..] + b;
      GetConcat(a[1..], b, k);
    } else {
      assert a + b == b;
    }
  }

  lemma UnthumbedSnoc(kv: seq<(string, Option<string>)>, e: (string, Option<string>))
    ensures Unthumbed(kv + [e]) == Unthumbed(kv) + (if e.1.None? then [e.0] else [])
  {
    if |kv| > 0 {
      assert (kv + [e])[1..] == kv[1..] + [e];
      UnthumbedSnoc(kv[1..], e);
    } else {
      assert kv + [e] == [e];
    }
  }

  /** The entry at position `i` is not among the unthumbed entries before it. */
  lemma UnthumbedDistinct(kv: seq<(string, Option<string>)>, i: int)
    requires DistinctKeys(kv) && 0 <= i < |kv|
    ensures kv[i].0 !in Unthumbed(kv[..i])
  {
    forall j | 0 <= j < i ensures kv[..i][j].0 != kv[i].0 {
      assert KeysOf(kv)[j] != KeysOf(kv)[i];
    }
  }

  /** The assembled keys are distinct and are exactly the input keys. */
  lemma BatchKeys(imagePaths: seq<(string, Option<string>)>, completion: seq<string>,
                  results: seq<(string, Option<string>)>)
    requires DistinctKeys(imagePaths)
    requires NoDup(completion)
    requires forall k :: k in completion <==> Submitted(imagePaths, k)
    requires KeysOf(results) == completion + Unthumbed(imagePaths)
    ensures DistinctKeys(results)
    ensures forall k :: k in KeysOf(results) <==> k in KeysOf(imagePaths)
  {
    var ks := KeysOf(results);
    UnthumbedNoDup(imagePaths);
    forall i, j | 0 <= i < j < |ks| ensures ks[i] != ks[j]
    {
      if j >= |completion| && i < |completion| {
        var k := ks[j];
        assert k in Unthumbed(imagePaths);
        var m :| 0 <= m < |imagePaths| && imagePaths[m] == (k, None);
        GetAt(imagePaths, m);
        assert !Submitted(imagePaths, k);
      } else if i >= |completion| {
        assert ks[i] == Unthumbed(imagePaths)[i - |completion|];
      }
    }
    forall k ensures k in KeysOf(results) <==> k in KeysOf(imagePaths)
    {
      if k in KeysOf(imagePaths) {
        var m :| 0 <= m < |imagePaths| && imagePaths[m].0 == k;
        GetAt(imagePaths, m);
        if imagePaths[m].1.None? {
          assert k in Unthumbed(imagePaths);
        } else {
          assert k in completion;
        }
      }
      if k in Unthumbed(imagePaths) {
        var m :| 0 <= m < |imagePaths| && imagePaths[m] == (k, None);
        assert KeysOf(imagePaths)[m] == k;
      }
    }
  }

  lemma {:induction false} UnthumbedNoDup(kv: seq<(string, Option<string>)>)
    requires DistinctKeys(kv)
    ensures NoDup(Unthumbed(kv))
  {
    if |kv| > 0 {
      assert KeysOf(kv[1..]) == KeysOf(kv)[1..];
      UnthumbedNoDup(kv[1..]);
      forall m | 0 <= m < |kv[1..]| ensures kv[1..][m].0 != kv[0].0 {
        assert KeysOf(kv)[0] != KeysOf(kv)[m + 1];
      }
    }
  }
}

=== FILE: lightroom.dfy ===
/** Edit-status detection through XMP sidecar files (backend/core/lightroom.py).
    A photo counts as edited when a sidecar with its base name exists; the sidecar's
    text is searched for a star rating and a colour label. The file system is
    passed in: `fileExists` stands for `os.path.exists` and `read` for opening and
    reading a sidecar, `None` meaning the read raised. */
module Lightroom {
  import opened Wrappers
  import opened Seqs
  import opened PosixPath

  /** The metadata kept for a flagged photo: `{'rating', 'pick', 'label'}`. */
  datatype XmpInfo = XmpInfo(rating: int, pick: int, colorLabel: string)

  /** The literal text in front of the rating's capture group. */
  const RatingPrefix: string := "xmp:Rating=\""

  /** The literal text in front of the label's capture group. */
  const LabelPrefix: string := "xmp:Label=\""

  /** CPython's default limit on the digits `int()` converts from a decimal string
      (`sys.get_int_max_str_digits()`); a longer string raises `ValueError`. */
  const IntMaxStrDigits: nat := 4300

  /** What an unreadable sidecar parses to. */
  const Unreadable: XmpInfo := XmpInfo(0, 0, "")

  predicate IsDigit(c: char)
  {
    '0' <= c <= '9'
  }

  predicate AllDigits(ds: string)
  {
    forall k :: 0 <= k < |ds| ==> IsDigit(ds[k])
  }

  /** `s` has `p` at position `i`. */
  predicate HasAt(s: string, i: int, p: string)
  {
    0 <= i && i + |p| <= |s| && s[i..i + |p|] == p
  }

  /** The length of the run of digits that starts at `k`, taken as far as it goes
      (the greedy `\d+`). */
  function DigitRun(s: string, k: nat): (n: nat)
    requires k <= |s|
    ensures k + n <= |s|
    ensures forall j :: k <= j < k + n ==> IsDigit(s[j])
    ensures k + n == |s| || !IsDigit(s[k + n])
    decreases |s| - k
  {
    if k == |s| || !IsDigit(s[k]) then 0 else 1 + DigitRun(s, k + 1)
  }

  /** `int()` of a string of decimal digits. */
  function DecimalValue(ds: string): nat
    requires AllDigits(ds)
  {
    if |ds| == 0 then 0 else DecimalValue(ds[..|ds| - 1]) * 10 + (ds[|ds| - 1] as int - '0' as int)
  }

  function Signed(neg: bool, v: int): int
  {
    if neg then -v else v
  }

  // ---------------------------------------------------------------------------
  // The two regular expressions. Each is described twice: by the text a match
  // spells out (`...Match`, the reference) and by a scan that finds it (`...At`).
  // ---------------------------------------------------------------------------

  /** `xmp:Rating="(-?\d+)"` matches at `i` with group `-ds` (when `neg`) or `ds`:
      the literal prefix, the optional minus sign, one or more digits and the
      closing quote follow one another from `i` on. */
  ghost predicate RatingMatch(s: string, i: int, neg: bool, ds: string)
  {
    && |ds| > 0 && AllDigits(ds)
    && HasAt(s, i, RatingPrefix) && (neg ==> HasAt(s, i + |RatingPrefix|, "-"))
    && HasAt(s, GroupStart(i, neg), ds) && HasAt(s, GroupStart(i, neg) + |ds|, "\"")
  }

  /** Where the digits of a rating match at `i` begin: after the prefix and, when
      the group is negative, after the minus sign. */
  function GroupStart(i: int, neg: bool): int
  {
    if neg then i + |RatingPrefix| + 1 else i + |RatingPrefix|
  }

  /** `xmp:Label="([^"]*)"` matches at `i` with `label` as its group: the literal
      prefix, a text without quotes and the closing quote follow one another. */
  ghost predicate LabelMatch(s: string, i: int, colorLabel: string)
  {
    var k := i + |LabelPrefix|;
    '"' !in colorLabel && HasAt(s, i, LabelPrefix) && HasAt(s, k, colorLabel) && HasAt(s, k + |colorLabel|, "\"")
  }

  /** The rating pattern tried at position `i`: the integer its group spells. */
  function RatingAt(s: string, i: nat): Option<int>
  {
    if !HasAt(s, i, RatingPrefix) then None else RatingGroup(s, i + |RatingPrefix|)
  }

  /** The part of the rating pattern after its literal prefix, read from `k`: an
      optional minus sign, the greedy run of digits, which must not be empty, and
      the closing quote. */
  function RatingGroup(s: string, k: nat): Option<int>
    requires k <= |s|
  {
    var neg := k < |s| && s[k] == '-';
    var d := if neg then k + 1 else k;
    var n := DigitRun(s, d);
    if n > 0 && d + n < |s| && s[d + n] == '"' then Some(Signed(neg, DecimalValue(s[d..d + n])))
    else None
  }

  /** The number of digits in the rating pattern's group at `i`, or 0 when the
      pattern does not match there. */
  function RatingDigitsAt(s: string, i: nat): nat
  {
    if RatingAt(s, i).None? then 0
    else
      var k := i + |RatingPrefix|;
      DigitRun(s, if k < |s| && s[k] == '-' then k + 1 else k)
  }

  /** The first index at or after `k` that holds `c`, or -1 (`str.find`). */
  function FindFrom(s: string, c: char, k: nat): (q: int)
    requires k <= |s|
    ensures q == -1 || (k <= q < |s| && s[q] == c)
    ensures forall j :: k <= j < |s| && (q == -1 || j < q) ==> s[j] != c
    decreases |s| - k
  {
    if k == |s| then -1 else if s[k] == c then k else FindFrom(s, c, k + 1)
  }

  /** The label pattern tried at position `i`: the text up to the next quote. */
  function LabelAt(s: string, i: nat): Option<string>
  {
    if !HasAt(s, i, LabelPrefix) then None
    else
      var k := i + |LabelPrefix|;
      var q := FindFrom(s, '"', k);
      if q < 0 then None else Some(s[k..q])
  }

  /** The rating scan at `i` finds exactly what the pattern matches there: a match
      exists iff the scan succeeds, and every match's group has the scanned value. */
  lemma RatingAtMatches(s: string, i: nat)
    ensures RatingAt(s, i).Some? <==> exists neg, ds :: RatingMatch(s, i, neg, ds)
    ensures forall neg, ds :: RatingMatch(s, i, neg, ds) ==> RatingAt(s, i) == Some(Signed(neg, DecimalValue(ds)))
  {
    forall neg, ds | RatingMatch(s, i, neg, ds)
      ensures RatingAt(s, i) == Some(Signed(neg, DecimalValue(ds)))
    {
      MatchIsScanned(s, i, neg, ds);
    }
    if RatingAt(s, i).Some? {
      var k := i + |RatingPrefix|;
      assert HasAt(s, i, RatingPrefix);
      assert RatingGroup(s, k).Some?;
      var neg := k < |s| && s[k] == '-';
      var d := if neg then k + 1 else k;
      var n := DigitRun(s, d);
      assert 0 < n && d + n < |s| && s[d + n] == '"';
      ScanIsMatch(s, i, neg, d, n);
    }
  }

  /** Where a match of the rating pattern starts, the scan sees its minus sign,
      exactly its run of digits and the closing quote. */
  lemma MatchRun(s: string, i: nat, neg: bool, ds: string)
    requires RatingMatch(s, i, neg, ds)
    ensures neg <==> (i + |RatingPrefix| < |s| && s[i + |RatingPrefix|] == '-')
    ensures GroupStart(i, neg) + |ds| < |s| && s[GroupStart(i, neg) + |ds|] == '"'
    ensures s[GroupStart(i, neg)..GroupStart(i, neg) + |ds|] == ds
    ensures DigitRun(s, GroupStart(i, neg)) == |ds|
  {
    SignAt(s, i + |RatingPrefix|, neg, ds);
    MatchDigitRun(s, GroupStart(i, neg), ds);
  }

  /** The optional minus sign of a match is there exactly when the group is
      negative, since the digits that follow it are not a minus sign. */
  lemma SignAt(s: string, k: nat, neg: bool, ds: string)
    requires |ds| > 0 && AllDigits(ds) && (neg ==> HasAt(s, k, "-"))
    requires HasAt(s, if neg then k + 1 else k, ds)
    ensures neg <==> (k < |s| && s[k] == '-')
  {
    if neg {
      assert s[k] == s[k..k + 1][0];
    } else {
      assert s[k] == ds[0];
    }
  }

  /** Digits seen as text at `d` and followed by a quote are the greedy run there. */
  lemma MatchDigitRun(s: string, d: nat, ds: string)
    requires HasAt(s, d, ds) && AllDigits(ds) && HasAt(s, d + |ds|, "\"")
    ensures d + |ds| < |s| && s[d + |ds|] == '"' && DigitRun(s, d) == |ds|
  {
    QuoteAt(s, d + |ds|);
    DigitsAt(s, d, ds);
    DigitRunExact(s, d, |ds|);
  }

  /** The digits of a group seen as text at `d` are digits of `s`. */
  lemma DigitsAt(s: string, d: int, ds: string)
    requires HasAt(s, d, ds) && AllDigits(ds)
    ensures forall j :: d <= j < d + |ds| ==> IsDigit(s[j])
  {
    forall j | d <= j < d + |ds|
      ensures IsDigit(s[j])
    {
      assert s[j] == s[d..d + |ds|][j - d];
    }
  }

  /** A quote seen as text at `j` is the character at `j`. */
  lemma QuoteAt(s: string, j: int)
    requires HasAt(s, j, "\"")
    ensures j < |s| && s[j] == '"'
  {
    assert s[j] == s[j..j + 1][0];
  }

  /** A match of the rating pattern is what the scan reads. */
  lemma MatchIsScanned(s: string, i: nat, neg: bool, ds: string)
    requires RatingMatch(s, i, neg, ds)
    ensures RatingAt(s, i) == Some(Signed(neg, DecimalValue(ds)))
  {
    MatchRun(s, i, neg, ds);
    var k := i + |RatingPrefix|;
    var d := GroupStart(i, neg);
    assert RatingGroup(s, k) == Some(Signed(neg, DecimalValue(ds))) by {
      assert s[d..d + DigitRun(s, d)] == ds;
    }
    assert RatingAt(s, i) == RatingGroup(s, k);
  }

  /** A match of the rating pattern has as many digits as the scan counts. */
  lemma MatchDigitCount(s: string, i: nat, neg: bool, ds: string)
    requires RatingMatch(s, i, neg, ds)
    ensures RatingDigitsAt(s, i) == |ds|
  {
    MatchIsScanned(s, i, neg, ds);
    MatchRun(s, i, neg, ds);
  }

  /** The pieces the rating scan checks spell a match of the pattern. */
  lemma ScanIsMatch(s: string, i: nat, neg: bool, d: nat, n: nat)
    requires HasAt(s, i, RatingPrefix)
    requires neg == (i + |RatingPrefix| < |s| && s[i + |RatingPrefix|] == '-')
    requires d == (if neg then i + |RatingPrefix| + 1 else i + |RatingPrefix|)
    requires 0 < n && d + n < |s| && s[d + n] == '"'
    requires forall j :: d <= j < d + n ==> IsDigit(s[j])
    ensures RatingMatch(s, i, neg, s[d..d + n])
  {
    if neg {
      CharAt(s, i + |RatingPrefix|, '-');
    }
    CharAt(s, d + n, '"');
    var ds := s[d..d + n];
    forall j | 0 <= j < |ds|
      ensures IsDigit(ds[j])
    {
      assert ds[j] == s[d + j];
    }
  }

  /** A single character seen at `j` is the one-letter text at `j`. */
  lemma CharAt(s: string, j: nat, c: char)
    requires j < |s| && s[j] == c
    ensures HasAt(s, j, [c])
  {
    assert s[j..j + 1] == [s[j]];
  }

  /** A run of `n` digits followed by a non-digit is the whole greedy run. */
  lemma {:induction false} DigitRunExact(s: string, d: nat, n: nat)
    requires d + n < |s| && !IsDigit(s[d + n])
    requires forall j :: d <= j < d + n ==> IsDigit(s[j])
    ensures DigitRun(s, d) == n
    decreases n
  {
    if n > 0 {
      DigitRunExact(s, d + 1, n - 1);
    }
  }

  /** The label scan at `i` yields `label` exactly when the pattern matches there
      with `label` as its group. */
  lemma LabelAtMatches(s: string, i: nat, colorLabel: string)
    ensures LabelAt(s, i) == Some(colorLabel) <==> LabelMatch(s, i, colorLabel)
  {
    var k := i + |LabelPrefix|;
    if LabelMatch(s, i, colorLabel) {
      assert s[k..k + |colorLabel|] == colorLabel;
      assert s[k + |colorLabel|] == s[k + |colorLabel|..k + |colorLabel| + 1][0] == '"';
      forall j | k <= j < k + |colorLabel|
        ensures s[j] != '"'
      {
        assert s[j] == colorLabel[j - k];
      }
    }
    if LabelAt(s, i) == Some(colorLabel) {
      var q := FindFrom(s, '"', k);
      CharAt(s, q, '"');
      assert '"' !in colorLabel by {
        forall j | 0 <= j < |colorLabel|
          ensures colorLabel[j] != '"'
        {
          assert colorLabel[j] == s[k + j];
        }
      }
    }
  }

  /** `re.search` with the rating pattern from `from` on: the match with the
      leftmost start. */
  function SearchRating(s: string, from: nat): (r: Option<int>)
    ensures r.None? ==> forall i: nat :: from <= i ==> RatingAt(s, i).None?
    ensures r.Some? ==> exists i: nat :: from <= i <= |s| && RatingAt(s, i) == r &&
                          forall j: nat :: from <= j < i ==> RatingAt(s, j).None?
    decreases |s| - from
  {
    if RatingAt(s, from).Some? then RatingAt(s, from)
    else if from >= |s| then None
    else SearchRating(s, from + 1)
  }

  /** The number of digits in the group of the match `re.search` finds with the
      rating pattern from `from` on, or 0 when there is none. */
  function SearchRatingDigits(s: string, from: nat): (n: nat)
    ensures n > 0 <==> SearchRating(s, from).Some?
    decreases |s| - from
  {
    if RatingAt(s, from).Some? then RatingDigitsAt(s, from)
    else if from >= |s| then 0
    else SearchRatingDigits(s, from + 1)
  }

  /** `re.search` with the label pattern from `from` on. */
  function SearchLabel(s: string, from: nat): (r: Option<string>)
    ensures r.None? ==> forall i: nat :: from <= i ==> LabelAt(s, i).None?
    ensures r.Some? ==> exists i: nat :: from <= i <= |s| && LabelAt(s, i) == r &&
                          forall j: nat :: from <= j < i ==> LabelAt(s, j).None?
    decreases |s| - from
  {
    if LabelAt(s, from).Some? then LabelAt(s, from)
    else if from >= |s| then None
    else SearchLabel(s, from + 1)
  }

  /** `_parse_xmp_metadata`, given the sidecar's text or `None` when it could not be
      read. A rating of -1 is Lightroom's reject mark: it becomes `pick = -1` with
      rating 0; the label is the first label match's group. */
  function ParseXmp(content: Option<string>): (info: XmpInfo)
    ensures info.pick == -1 || info.pick == 0
    ensures info.rating != -1
    ensures content.None? ==> info == Unreadable
    ensures content.Some? ==>
              && (info.pick == -1 <==> SearchRating(content.value, 0) == Some(-1))
              && (info.pick == -1 ==> info.rating == 0)
              && (info.pick == 0 ==> info.rating == SearchRating(content.value, 0).GetOr(0))
              && info.colorLabel == SearchLabel(content.value, 0).GetOr("")
  {
    match content
    case None => Unreadable
    case Some(text) =>
      var rating := SearchRating(text, 0).GetOr(0);
      var colorLabel := SearchLabel(text, 0).GetOr("");
      if rating == -1 then XmpInfo(0, -1, colorLabel) else XmpInfo(rating, 0, colorLabel)
  }

  /** The test at lightroom.py:119 for keeping a photo's metadata. */
  predicate IsFlagged(info: XmpInfo)
    ensures info.rating >= 0 ==> (IsFlagged(info) <==> info != Unreadable)
  {
    info.rating > 0 || info.pick != 0 || info.colorLabel != ""
  }

  /** `_parse_xmp_metadata` raises: the group of the leftmost rating match has more
      digits than `int()` converts. */
  predicate ParseRaises(content: Option<string>)
    ensures ParseRaises(content) ==> content.Some? && SearchRating(content.value, 0).Some?
  {
    content.Some? && SearchRatingDigits(content.value, 0) > IntMaxStrDigits
  }

  /** A sidecar's metadata is kept (lightroom.py:117-122): parsing returned and the
      result carries a rating, a reject mark or a label. */
  predicate FlagsPhoto(content: Option<string>)
    ensures FlagsPhoto(content) ==> content.Some?
    ensures content.Some? && SearchRating(content.value, 0).None? ==>
              (FlagsPhoto(content) <==> SearchLabel(content.value, 0).Some? && SearchLabel(content.value, 0).value != "")
  {
    !ParseRaises(content) && IsFlagged(ParseXmp(content))
  }

  /** The rating and pick parsed from a sidecar whose leftmost rating match, at `i`,
      has the group value `v`: -1 is the reject mark, anything else is kept as the
      rating, so -2 stays -2 and flags nothing. */
  lemma ParseXmpRating(s: string, i: nat, neg: bool, ds: string)
    requires RatingMatch(s, i, neg, ds)
    requires forall j: nat, n: bool, e: string :: j < i ==> !RatingMatch(s, j, n, e)
    ensures var v := Signed(neg, DecimalValue(ds));
            var info := ParseXmp(Some(s));
            && (v == -1 ==> info.pick == -1 && info.rating == 0)
            && (v != -1 ==> info.pick == 0 && info.rating == v)
            && (IsFlagged(info) <==> v > 0 || v == -1 || info.colorLabel != "")
            && (ParseRaises(Some(s)) <==> |ds| > IntMaxStrDigits)
  {
    RatingAtMatches(s, i);
    MatchIsScanned(s, i, neg, ds);
    MatchDigitCount(s, i, neg, ds);
    forall j: nat | j < i
      ensures RatingAt(s, j).None?
    {
      RatingAtMatches(s, j);
    }
    SearchRatingFirst(s, 0, i);
    SearchDigitsFirst(s, 0, i);
  }

  /** The search from `from` stops at the first position where the pattern matches. */
  lemma {:induction false} SearchRatingFirst(s: string, from: nat, i: nat)
    requires from <= i && RatingAt(s, i).Some?
    requires forall j: nat :: from <= j < i ==> RatingAt(s, j).None?
    ensures SearchRating(s, from) == RatingAt(s, i)
    decreases i - from
  {
    if from < i {
      assert RatingAt(s, from).None?;
      assert from < |s| by {
        assert HasAt(s, i, RatingPrefix);
      }
      SearchRatingFirst(s, from + 1, i);
    }
  }

  /** The digit count of the search from `from` is that of the first match. */
  lemma {:induction false} SearchDigitsFirst(s: string, from: nat, i: nat)
    requires from <= i && RatingAt(s, i).Some?
    requires forall j: nat :: from <= j < i ==> RatingAt(s, j).None?
    ensures SearchRatingDigits(s, from) == RatingDigitsAt(s, i)
    decreases i - from
  {
    if from < i {
      assert RatingAt(s, from).None?;
      assert from < |s| by {
        assert HasAt(s, i, RatingPrefix);
      }
      SearchDigitsFirst(s, from + 1, i);
    }
  }

  /** A sidecar without any rating match parses to rating 0 and no reject mark. */
  lemma ParseXmpNoRating(s: string)
    requires forall i: nat, neg: bool, ds: string :: !RatingMatch(s, i, neg, ds)
    ensures ParseXmp(Some(s)).rating == 0 && ParseXmp(Some(s)).pick == 0 && !ParseRaises(Some(s))
  {
    forall i: nat
      ensures RatingAt(s, i).None?
    {
      RatingAtMatches(s, i);
    }
  }

  /** The label parsed from a sidecar is the group of its leftmost label match. */
  lemma ParseXmpLabel(s: string, i: nat, colorLabel: string)
    requires LabelMatch(s, i, colorLabel)
    requires forall j: nat, e: string :: j < i ==> !LabelMatch(s, j, e)
    ensures ParseXmp(Some(s)).colorLabel == colorLabel
  {
    LabelAtMatches(s, i, colorLabel);
    forall j: nat | j < i
      ensures LabelAt(s, j).None?
    {
      if LabelAt(s, j).Some? {
        LabelAtMatches(s, j, LabelAt(s, j).value);
      }
    }
    SearchLabelFirst(s, 0, i);
  }

  /** A sidecar without any label match parses to the empty label. */
  lemma ParseXmpNoLabel(s: string)
    requires forall i: nat, e: string :: !LabelMatch(s, i, e)
    ensures ParseXmp(Some(s)).colorLabel == ""
  {
    forall i: nat
      ensures LabelAt(s, i).None?
    {
      if LabelAt(s, i).Some? {
        LabelAtMatches(s, i, LabelAt(s, i).value);
      }
    }
  }

  /** The label search from `from` stops at the first position where the pattern
      matches. */
  lemma {:induction false} SearchLabelFirst(s: string, from: nat, i: nat)
    requires from <= i && LabelAt(s, i).Some?
    requires forall j: nat :: from <= j < i ==> LabelAt(s, j).None?
    ensures SearchLabel(s, from) == LabelAt(s, i)
    decreases i - from
  {
    if from < i {
      assert LabelAt(s, from).None?;
      assert from < |s| by {
        assert HasAt(s, i, LabelPrefix);
      }
      SearchLabelFirst(s, from + 1, i);
    }
  }

  /** The sidecar `detect_edited_photos` settles on: `base + ".xmp"` if it exists,
      else `base + ".XMP"` if that exists, where `base` is the path without its
      extension. */
  function SidecarOf(path: string, fileExists: string -> bool): (x: Option<string>)
    ensures x.Some? <==> fileExists(SplitExt(path).0 + ".xmp") || fileExists(SplitExt(path).0 + ".XMP")
    ensures x.Some? ==> fileExists(x.value) && (x.value == SplitExt(path).0 + ".xmp" || x.value == SplitExt(path).0 + ".XMP")
    ensures fileExists(SplitExt(path).0 + ".xmp") ==> x == Some(SplitExt(path).0 + ".xmp")
  {
    var base := SplitExt(path).0;
    if fileExists(base + ".xmp") then Some(base + ".xmp")
    else if fileExists(base + ".XMP") then Some(base + ".XMP")
    else None
  }

  /** `detect_edited_photos`: a photo is edited when it has a sidecar, and its
      sidecar's metadata is kept when parsing returns and the metadata carries a
      rating, a reject mark or a label; a parse that raises is swallowed and leaves
      the photo edited only. */
  method DetectEditedPhotos(paths: seq<string>, fileExists: string -> bool, read: string -> Option<string>)
    returns (edited: set<string>, flagged: map<string, XmpInfo>)
    ensures forall p :: p in edited <==> p in paths && SidecarOf(p, fileExists).Some?
    ensures forall p :: p in flagged <==>
              p in paths && SidecarOf(p, fileExists).Some? && FlagsPhoto(read(SidecarOf(p, fileExists).value))
    ensures flagged.Keys <= edited
    ensures forall p :: p in flagged ==> flagged[p] == ParseXmp(read(SidecarOf(p, fileExists).value))
  {
    edited := {};
    flagged := map[];
    for n := 0 to |paths|
      invariant forall p :: p in edited <==> p in paths[..n] && SidecarOf(p, fileExists).Some?
      invariant forall p :: p in flagged <==>
                  p in paths[..n] && SidecarOf(p, fileExists).Some? && FlagsPhoto(read(SidecarOf(p, fileExists).value))
      invariant forall p :: p in flagged ==> flagged[p] == ParseXmp(read(SidecarOf(p, fileExists).value))
    {
      var p := paths[n];
      assert paths[..n + 1] == paths[..n] + [p];
      var xmp := SidecarOf(p, fileExists);
      if xmp.Some? {
        edited := edited + {p};
        var content := read(xmp.value);
        if !ParseRaises(content) {
          var info := ParseXmp(content);
          if IsFlagged(info) {
            flagged := flagged[p := info];
          }
        }
      }
    }
    assert paths[..|paths|] == paths;
  }

  /** What `get_catalog_info` reports. */
  datatype CatalogInfo = CatalogInfo(path: string, totalPhotos: nat, editedCount: nat, flaggedCount: nat,
                                     detectionMethod: string)

  /** The `path` reported when no catalog path (or an empty one) was given. */
  const SidecarCatalogName: string := "XMP Sidecar 检测"

  /** `LightroomCatalog.get_catalog_info` for a catalog whose photo list is `paths`:
      the counts are those of the distinct edited and flagged paths, and neither
      exceeds the number of paths. */
  method GetCatalogInfo(lrcatPath: Option<string>, paths: seq<string>, fileExists: string -> bool,
                        read: string -> Option<string>)
    returns (info: CatalogInfo)
    ensures info.totalPhotos == |paths|
    ensures info.flaggedCount <= info.editedCount <= info.totalPhotos
    ensures info.editedCount == |set p | p in paths && SidecarOf(p, fileExists).Some?|
    ensures info.flaggedCount ==
              |set p | p in paths && SidecarOf(p, fileExists).Some? && FlagsPhoto(read(SidecarOf(p, fileExists).value))|
    ensures info.path == if lrcatPath.Some? && lrcatPath.value != "" then lrcatPath.value else SidecarCatalogName
  {
    var edited, flagged := DetectEditedPhotos(paths, fileExists, read);
    assert edited == set p | p in paths && SidecarOf(p, fileExists).Some?;
    assert flagged.Keys ==
             set p | p in paths && SidecarOf(p, fileExists).Some? && FlagsPhoto(read(SidecarOf(p, fileExists).value));
    SubsetBound(flagged.Keys, edited);
    SubsetBound(edited, set p | p in paths);
    ElemsBound(paths);
    var name := if lrcatPath.Some? && lrcatPath.value != "" then lrcatPath.value else SidecarCatalogName;
    info := CatalogInfo(name, |paths|, |edited|, |flagged.Keys|, "xmp_sidecar");
  }
}

=== FILE: posix_path.dfy ===
/** The part of Python's `posixpath` (os.path on POSIX) the pipeline uses. */
module PosixPath {

  /** Index of the last occurrence of `c` in `s`, or -1 (Python's `str.rfind`). */
  function RFind(s: string, c: char): (i: int)
    ensures -1 <= i < |s|
    ensures 0 <= i ==> s[i] == c
    ensures forall k :: i < k < |s| ==> s[k] != c
  {
    if |s| == 0 then -1
    else if s[|s| - 1] == c then |s| - 1
    else RFind(s[..|s| - 1], c)
  }

  /** `os.path.basename`: everything after the last slash. */
  function Basename(p: string): (b: string)
    ensures '/' !in b
    ensures |b| <= |p| && b == p[|p| - |b|..]
    ensures |b| < |p| ==> p[|p| - |b| - 1] == '/'
  {
    p[RFind(p, '/') + 1..]
  }

  /** A file name has an extension when a dot follows some non-dot character. */
  ghost predicate HasExtension(name: string)
  {
    exists i, j :: 0 <= i < j < |name| && name[i] != '.' && name[j] == '.'
  }

  /** The scan of `_splitext` over the leading part of the file name: true when a
      non-dot character occurs in `p[from..dot]`. */
  function NonDotBefore(p: string, from: int, dot: int): (b: bool)
    requires 0 <= from <= dot <= |p|
    ensures b <==> exists k :: from <= k < dot && p[k] != '.'
    decreases dot - from
  {
    if from == dot then false
    else if p[from] != '.' then true
    else NonDotBefore(p, from + 1, dot)
  }

  /** `os.path.splitext`: cut at the last dot of the file name, unless every character
      before that dot in the file name is itself a dot (".bashrc" has no extension). */
  function SplitExt(p: string): (r: (string, string))
    ensures r.0 + r.1 == p
    ensures r.1 == "" || (r.1[0] == '.' && forall k :: 0 < k < |r.1| ==> r.1[k] != '.' && r.1[k] != '/')
  {
    var sep := RFind(p, '/');
    var dot := RFind(p, '.');
    if dot > sep && NonDotBefore(p, sep + 1, dot) then (p[..dot], p[dot..]) else (p, "")
  }

  /** The extension is cut off exactly when the file name has one: a dot after some
      non-dot character. */
  lemma SplitExtCut(p: string)
    ensures SplitExt(p).1 != "" <==> HasExtension(Basename(p))
  {
    var sep := RFind(p, '/');
    var dot := RFind(p, '.');
    var name := Basename(p);
    assert name == p[sep + 1..];
    if dot > sep && NonDotBefore(p, sep + 1, dot) {
      var k :| sep + 1 <= k < dot && p[k] != '.';
      assert name[k - sep - 1] == p[k] && name[dot - sep - 1] == p[dot];
    } else {
      forall i, j | 0 <= i < j < |name|
        ensures name[j] == '.' ==> name[i] == '.'
      {
        assert name[i] == p[sep + 1 + i] && name[j] == p[sep + 1 + j];
      }
    }
  }

  /** `os.path.join` of two components: an absolute `b` replaces `a`; otherwise
      `b` follows `a`, with one slash between them unless `a` is empty or already
      ends with one. */
  function Join(a: string, b: string): (r: string)
    ensures |b| > 0 && b[0] == '/' ==> r == b
    ensures !(|b| > 0 && b[0] == '/') ==>
              && |a| + |b| <= |r| <= |a| + |b| + 1
              && r[..|a|] == a && r[|r| - |b|..] == b
              && (|r| == |a| + |b| + 1 <==> |a| > 0 && a[|a| - 1] != '/')
              && (|r| == |a| + |b| + 1 ==> r[|a|] == '/')
  {
    if |b| > 0 && b[0] == '/' then b
    else if |a| == 0 || a[|a| - 1] == '/' then a + b
    else a + "/" + b
  }

  /** Joining a directory and a plain file name gives a path whose basename is that name. */
  lemma BasenameOfJoin(dir: string, name: string)
    requires '/' !in name
    ensures Basename(Join(dir, name)) == name
  {
    var p := Join(dir, name);
    var s := RFind(p, '/');
    assert p[|p| - |name|..] == name;
    if |p| > |name| {
      assert p[|p| - |name| - 1] == '/';
    }
    assert s == |p| - |name| - 1 by {
      forall k | |p| - |name| <= k < |p| ensures p[k] != '/' {
        assert p[k] == name[k - (|p| - |name|)];
      }
    }
  }

  /** ASCII case folding of one character. */
  function LowerChar(c: char): char
  {
    if 'A' <= c <= 'Z' then (c as int + 32) as char else c
  }

  /** `str.lower`, restricted to ASCII letters. */
  function Lower(s: string): (r: string)
    ensures |r| == |s|
    ensures forall k :: 0 <= k < |s| ==> r[k] == LowerChar(s[k])
  {
    if |s| == 0 then "" else [LowerChar(s[0])] + Lower(s[1..])
  }
}

=== FILE: recommender.dfy ===
/** Keep/delete recommendations for groups of similar photos
    (backend/core/recommender.py). */
module Recommender {
  import opened Wrappers
  import opened Seqs
  import opened Grouper
  import opened Lightroom

  datatype Verdict = Keep | Delete

  /** `is_rejected`: the photo's kept metadata carries Lightroom's reject mark. */
  predicate IsRejected(p: string, flagged: map<string, XmpInfo>)
  {
    p in flagged && flagged[p].pick == -1
  }

  /** The per-photo rule of `recommend_for_group`: a rejected photo goes, an edited
      or flagged one stays, any other goes. */
  function Classify(p: string, edited: set<string>, flagged: map<string, XmpInfo>): (v: Verdict)
    ensures IsRejected(p, flagged) ==> v == Delete
    ensures v == Keep <==> !IsRejected(p, flagged) && (p in edited || p in flagged)
  {
    if IsRejected(p, flagged) then Delete
    else if p in edited || p in flagged then Keep
    else Delete
  }

  /** The paths of `ps` with verdict `v`, in their order in `ps`: the list the loop
      appends them to. */
  function Select(ps: seq<string>, v: Verdict, edited: set<string>, flagged: map<string, XmpInfo>): (r: seq<string>)
    ensures IsSubseq(r, ps)
    ensures forall p :: p in r <==> p in ps && Classify(p, edited, flagged) == v
  {
    if |ps| == 0 then []
    else
      var init := ps[..|ps| - 1];
      var last := ps[|ps| - 1];
      var r := Select(init, v, edited, flagged);
      assert ps == init + [last];
      if Classify(last, edited, flagged) == v then
        SubseqSnoc(r, init, last);
        r + [last]
      else
        SubseqExtend(r, init, last);
        r
  }

  /** Every path gets exactly one verdict, so the two lists share out the paths. */
  lemma {:induction false} SelectPartition(ps: seq<string>, edited: set<string>, flagged: map<string, XmpInfo>)
    ensures multiset(Select(ps, Keep, edited, flagged)) + multiset(Select(ps, Delete, edited, flagged)) == multiset(ps)
  {
    if |ps| > 0 {
      var init := ps[..|ps| - 1];
      var last := ps[|ps| - 1];
      assert ps == init + [last];
      assert multiset(ps) == multiset(init) + multiset{last};
      SelectPartition(init, edited, flagged);
      SelectSnoc(ps, Keep, edited, flagged);
      SelectSnoc(ps, Delete, edited, flagged);
    }
  }

  /** The selection grows with the last path when that path has the verdict. */
  lemma SelectSnoc(ps: seq<string>, v: Verdict, edited: set<string>, flagged: map<string, XmpInfo>)
    requires |ps| > 0
    ensures Select(ps, v, edited, flagged) ==
              Select(ps[..|ps| - 1], v, edited, flagged) +
              (if Classify(ps[|ps| - 1], edited, flagged) == v then [ps[|ps| - 1]] else [])
  {
  }

  /** With no path kept by the rule, every path is in the delete list, in order. */
  lemma {:induction false} SelectAll(ps: seq<string>, edited: set<string>, flagged: map<string, XmpInfo>)
    requires forall p :: p in ps ==> Classify(p, edited, flagged) == Delete
    ensures Select(ps, Delete, edited, flagged) == ps
    ensures Select(ps, Keep, edited, flagged) == []
  {
    if |ps| > 0 {
      SelectAll(ps[..|ps| - 1], edited, flagged);
      assert ps == ps[..|ps| - 1] + [ps[|ps| - 1]];
    }
  }

  /** The result of `recommend_for_group`. */
  datatype Recommendation = Recommendation(group: PhotoGroup, keep: seq<string>, delete: seq<string>)

  /** `recommend_for_group`. `None` for the edited set or the flagged map stands
      for an argument left out or passed as `None`. A non-empty group always keeps
      at least one photo. */
  function RecommendForGroup(group: PhotoGroup, edited: Option<set<string>>, flagged: Option<map<string, XmpInfo>>)
    : (rec: Recommendation)
    ensures rec.group == group
    ensures Count(group) > 0 ==> |rec.keep| > 0
  {
    var ps := PathsOf(group);
    var e := edited.GetOr({});
    var f := flagged.GetOr(map[]);
    var keep := Select(ps, Keep, e, f);
    var delete := Select(ps, Delete, e, f);
    if |keep| == 0 && |delete| > 0 then
      Recommendation(group, [delete[0]], delete[1..])
    else
      assert |ps| > 0 ==> |keep| > 0 by {
        if |ps| > 0 {
          SelectPartition(ps, e, f);
          assert ps[0] in multiset(ps);
        }
      }
      Recommendation(group, keep, delete)
  }

  /** The two lists share out the group's paths: together they hold each path as
      often as the group does, and each keeps the group's order. */
  lemma RecommendationSplit(group: PhotoGroup, edited: Option<set<string>>, flagged: Option<map<string, XmpInfo>>)
    ensures var rec := RecommendForGroup(group, edited, flagged);
            && multiset(rec.keep) + multiset(rec.delete) == multiset(PathsOf(group))
            && IsSubseq(rec.keep, PathsOf(group)) && IsSubseq(rec.delete, PathsOf(group))
  {
    var ps := PathsOf(group);
    var e := edited.GetOr({});
    var f := flagged.GetOr(map[]);
    var delete := Select(ps, Delete, e, f);
    SelectPartition(ps, e, f);
    if |Select(ps, Keep, e, f)| == 0 && |delete| > 0 {
      assert delete == [delete[0]] + delete[1..];
      SubseqHead(delete, ps);
      SubseqTail(delete, ps);
    }
  }

  /** Which list each path lands in. Photos kept by the rule are exactly the kept
      ones when there is at least one; when the rule keeps none, the first photo is
      kept and the rest, in order, are to be deleted. A rejected photo is deleted
      unless it is that first photo. */
  lemma RecommendationLists(group: PhotoGroup, edited: Option<set<string>>, flagged: Option<map<string, XmpInfo>>)
    ensures var rec := RecommendForGroup(group, edited, flagged);
            var e := edited.GetOr({});
            var f := flagged.GetOr(map[]);
            var ps := PathsOf(group);
            && ((exists p :: p in ps && Classify(p, e, f) == Keep) ==>
                  (forall p :: p in rec.keep <==> p in ps && Classify(p, e, f) == Keep) &&
                  (forall p :: p in rec.delete <==> p in ps && Classify(p, e, f) == Delete))
            && ((forall p :: p in ps ==> Classify(p, e, f) == Delete) && |ps| > 0 ==>
                  rec.keep == [ps[0]] && rec.delete == ps[1..])
            && (forall p :: p in ps && IsRejected(p, f) && p != ps[0] ==> p in rec.delete)
  {
    var e := edited.GetOr({});
    var f := flagged.GetOr(map[]);
    var ps := PathsOf(group);
    if forall p :: p in ps ==> Classify(p, e, f) == Delete {
      SelectAll(ps, e, f);
    }
  }

  /** `None` for the edited set or the flagged map behaves exactly like an empty one. */
  lemma NoneIsEmpty(group: PhotoGroup, edited: Option<set<string>>, flagged: Option<map<string, XmpInfo>>)
    ensures RecommendForGroup(group, None, flagged) == RecommendForGroup(group, Some({}), flagged)
    ensures RecommendForGroup(group, edited, None) == RecommendForGroup(group, edited, Some(map[]))
  {
  }

  /** With distinct paths in the group, every photo is in exactly one of the lists. */
  lemma KeepDeleteDisjoint(group: PhotoGroup, edited: Option<set<string>>, flagged: Option<map<string, XmpInfo>>)
    requires NoDup(PathsOf(group))
    ensures var rec := RecommendForGroup(group, edited, flagged);
            forall p :: p in PathsOf(group) ==> (p in rec.keep <==> p !in rec.delete)
  {
    var rec := RecommendForGroup(group, edited, flagged);
    var ps := PathsOf(group);
    RecommendationSplit(group, edited, flagged);
    NoDupMultiplicity(ps);
    forall p | p in ps
      ensures p in rec.keep <==> p !in rec.delete
    {
      assert multiset(rec.keep)[p] + multiset(rec.delete)[p] == multiset(ps)[p] == 1;
    }
  }

  /** The sum of the sizes of the photos in `es` whose path is in `ps`. */
  function SizeWhere(es: seq<PhotoEntry>, ps: seq<string>): int
  {
    if |es| == 0 then 0
    else SizeWhere(es[..|es| - 1], ps) + (if es[|es| - 1].path in ps then es[|es| - 1].size else 0)
  }

  /** `Recommendation.save_bytes`: the sizes of the group's photos listed for deletion. */
  function SaveBytes(rec: Recommendation): (b: int)
    ensures (forall i :: 0 <= i < |rec.group.photos| ==> rec.group.photos[i].size >= 0) ==>
              0 <= b <= TotalSize(rec.group)
  {
    SizeWhereBounds(rec.group.photos, rec.delete);
    SizeWhere(rec.group.photos, rec.delete)
  }

  /** Two lists that every photo is in exactly one of split the total size. */
  lemma {:induction false} SizeWhereSplit(es: seq<PhotoEntry>, a: seq<string>, b: seq<string>)
    requires forall i :: 0 <= i < |es| ==> (es[i].path in a <==> es[i].path !in b)
    ensures SizeWhere(es, a) + SizeWhere(es, b) == SumSizes(es)
  {
    if |es| > 0 {
      SizeWhereSplit(es[..|es| - 1], a, b);
    }
  }

  /** Sizes picked from non-negative sizes lie between 0 and the total. */
  lemma {:induction false} SizeWhereBounds(es: seq<PhotoEntry>, ps: seq<string>)
    ensures (forall i :: 0 <= i < |es| ==> es[i].size >= 0) ==> 0 <= SizeWhere(es, ps) <= SumSizes(es)
  {
    if |es| > 0 {
      SizeWhereBounds(es[..|es| - 1], ps);
    }
  }

  /** The bytes to be saved are the group's total size minus the kept photos' sizes:
      no kept photo is counted. With non-negative sizes they lie within the total. */
  lemma SaveBytesOfKept(group: PhotoGroup, edited: Option<set<string>>, flagged: Option<map<string, XmpInfo>>)
    requires NoDup(PathsOf(group))
    ensures var rec := RecommendForGroup(group, edited, flagged);
            && SaveBytes(rec) == TotalSize(group) - SizeWhere(group.photos, rec.keep)
            && ((forall i :: 0 <= i < |group.photos| ==> group.photos[i].size >= 0) ==>
                  0 <= SaveBytes(rec) <= TotalSize(group))
  {
    var rec := RecommendForGroup(group, edited, flagged);
    KeepDeleteDisjoint(group, edited, flagged);
    forall i | 0 <= i < |group.photos|
      ensures group.photos[i].path in rec.keep <==> group.photos[i].path !in rec.delete
    {
      assert group.photos[i].path == PathsOf(group)[i];
    }
    SizeWhereSplit(group.photos, rec.keep, rec.delete);
    if forall i :: 0 <= i < |group.photos| ==> group.photos[i].size >= 0 {
      SizeWhereBounds(group.photos, rec.delete);
    }
  }

  /** `Recommendation.to_dict()`. */
  datatype RecommendationDict = RecommendationDict(groupId: nat, totalInGroup: nat, keep: seq<string>,
                                                   delete: seq<string>, keepCount: nat, deleteCount: nat,
                                                   saveBytes: int)

  function ToDict(rec: Recommendation): (d: RecommendationDict)
    ensures d.groupId == rec.group.groupId && d.totalInGroup == |rec.group.photos|
    ensures d.keep == rec.keep && d.delete == rec.delete
    ensures d.keepCount == |d.keep| && d.deleteCount == |d.delete|
    ensures d.saveBytes == SaveBytes(rec)
  {
    RecommendationDict(rec.group.groupId, Count(rec.group), rec.keep, rec.delete, |rec.keep|, |rec.delete|,
                       SaveBytes(rec))
  }

  /** The `summary` of `recommend_all`, without the rounded `save_gb`. */
  datatype Summary = Summary(totalGroups: nat, totalPhotos: nat, keepCount: nat, deleteCount: nat, saveBytes: int)

  function SumKeep(ds: seq<RecommendationDict>): nat
  {
    if |ds| == 0 then 0 else SumKeep(ds[..|ds| - 1]) + ds[|ds| - 1].keepCount
  }

  function SumDelete(ds: seq<RecommendationDict>): nat
  {
    if |ds| == 0 then 0 else SumDelete(ds[..|ds| - 1]) + ds[|ds| - 1].deleteCount
  }

  function SumSave(ds: seq<RecommendationDict>): int
  {
    if |ds| == 0 then 0 else SumSave(ds[..|ds| - 1]) + ds[|ds| - 1].saveBytes
  }

  /** The number of photos over all groups. */
  function SumCounts(groups: seq<PhotoGroup>): nat
  {
    if |groups| == 0 then 0 else SumCounts(groups[..|groups| - 1]) + Count(groups[|groups| - 1])
  }

  /** The two lists hold as many paths as the group has photos. */
  lemma ListsCover(group: PhotoGroup, edited: Option<set<string>>, flagged: Option<map<string, XmpInfo>>)
    ensures var rec := RecommendForGroup(group, edited, flagged);
            |rec.keep| + |rec.delete| == Count(group)
  {
    var rec := RecommendForGroup(group, edited, flagged);
    RecommendationSplit(group, edited, flagged);
    assert |multiset(rec.keep) + multiset(rec.delete)| == |multiset(PathsOf(group))|;
  }

  lemma SumsSnoc(ds: seq<RecommendationDict>, d: RecommendationDict)
    ensures SumKeep(ds + [d]) == SumKeep(ds) + d.keepCount
    ensures SumDelete(ds + [d]) == SumDelete(ds) + d.deleteCount
    ensures SumSave(ds + [d]) == SumSave(ds) + d.saveBytes
  {
    assert (ds + [d])[..|ds|] == ds;
  }

  lemma SumCountsStep(groups: seq<PhotoGroup>, k: int)
    requires 0 <= k < |groups|
    ensures SumCounts(groups[..k + 1]) == SumCounts(groups[..k]) + Count(groups[k])
  {
    assert groups[..k + 1][..k] == groups[..k];
  }

  /** The first `|recs|` groups each have their recommendation, as a dictionary. */
  ghost predicate RecsFor(groups: seq<PhotoGroup>, edited: Option<set<string>>, flagged: Option<map<string, XmpInfo>>,
                          recs: seq<RecommendationDict>)
  {
    && |recs| <= |groups|
    && forall j :: 0 <= j < |recs| ==> recs[j] == ToDict(RecommendForGroup(groups[j], edited, flagged))
  }

  /** One more group keeps the per-group part of `recommend_all`'s loop invariant. */
  lemma RecsStep(groups: seq<PhotoGroup>, edited: Option<set<string>>, flagged: Option<map<string, XmpInfo>>,
                 recs: seq<RecommendationDict>)
    requires RecsFor(groups, edited, flagged, recs) && |recs| < |groups|
    ensures RecsFor(groups, edited, flagged, recs + [ToDict(RecommendForGroup(groups[|recs|], edited, flagged))])
  {
  }

  /** Each group's dictionary keeps the group's id and splits all of its photos. */
  lemma RecsShape(groups: seq<PhotoGroup>, edited: Option<set<string>>, flagged: Option<map<string, XmpInfo>>,
                  recs: seq<RecommendationDict>)
    requires RecsFor(groups, edited, flagged, recs) && |recs| == |groups|
    ensures forall k :: 0 <= k < |groups| ==>
              && recs[k].groupId == groups[k].groupId
              && recs[k].keepCount + recs[k].deleteCount == recs[k].totalInGroup == Count(groups[k])
  {
    forall k | 0 <= k < |groups|
      ensures recs[k].groupId == groups[k].groupId
      ensures recs[k].keepCount + recs[k].deleteCount == recs[k].totalInGroup == Count(groups[k])
    {
      ListsCover(groups[k], edited, flagged);
    }
  }

  /** `recommend_all`: one recommendation per group, in group order, and a summary
      whose counts add up over the groups. */
  method RecommendAll(groups: seq<PhotoGroup>, edited: Option<set<string>>, flagged: Option<map<string, XmpInfo>>)
    returns (recs: seq<RecommendationDict>, summary: Summary)
    ensures |recs| == |groups|
    ensures forall k :: 0 <= k < |groups| ==>
              && recs[k] == ToDict(RecommendForGroup(groups[k], edited, flagged))
              && recs[k].groupId == groups[k].groupId
              && recs[k].keepCount + recs[k].deleteCount == recs[k].totalInGroup == Count(groups[k])
    ensures summary.totalGroups == |groups|
    ensures summary.keepCount == SumKeep(recs) && summary.deleteCount == SumDelete(recs)
    ensures summary.saveBytes == SumSave(recs)
    ensures summary.totalPhotos == summary.keepCount + summary.deleteCount == SumCounts(groups)
  {
    recs := [];
    var totalKeep := 0;
    var totalDelete := 0;
    var totalSave := 0;
    for k := 0 to |groups|
      invariant |recs| == k
      invariant RecsFor(groups, edited, flagged, recs)
      invariant totalKeep == SumKeep(recs) && totalDelete == SumDelete(recs) && totalSave == SumSave(recs)
      invariant totalKeep + totalDelete == SumCounts(groups[..k])
    {
      var d := ToDict(RecommendForGroup(groups[k], edited, flagged));
      RecsStep(groups, edited, flagged, recs);
      ListsCover(groups[k], edited, flagged);
      SumsSnoc(recs, d);
      SumCountsStep(groups, k);
      recs := recs + [d];
      totalKeep := totalKeep + d.keepCount;
      totalDelete := totalDelete + d.deleteCount;
      totalSave := totalSave + d.saveBytes;
    }
    assert groups[..|groups|] == groups;
    RecsShape(groups, edited, flagged, recs);
    summary := Summary(|groups|, totalKeep + totalDelete, totalKeep, totalDelete, totalSave);
  }
}

=== FILE: routes.dfy ===
/** backend/api/routes.py: the scan state shared by the HTTP endpoints, the
    background scan that fills it, and the endpoints that read it or act on files.
    The file system, the thumbnail decoder, the pHash primitive and the trash are
    parameters; the background thread is modelled as one sequential run. */
module Routes {
  import opened Wrappers
  import opened Seqs
  import opened Dicts
  import opened PosixPath
  import opened Hasher
  import opened Grouper
  import opened Lightroom
  import opened Recommender
  import opened Scanner
  import opened Thumbnail

  // ---------------------------------------------------------------------------
  // The scan state
  // ---------------------------------------------------------------------------

  /** The values `status` and `stage` take. */
  datatype Stage = Idle | Scanning | Extracting | Hashing | Grouping | Done | Error

  /** `recommend_all`'s result as stored in the state. */
  datatype Recommendations = Recommendations(recommendations: seq<RecommendationDict>, summary: Summary)

  /** `scan_state`. `photoHashes` keeps the insertion order of the dictionary. */
  datatype ScanState = ScanState(
    status: Stage, progress: int, total: int, currentFile: string, message: string, stage: Stage,
    photos: seq<PhotoInfo>, photoHashes: seq<(string, Option<string>)>, groups: seq<PhotoGroup>,
    scanDir: string, lrcatPath: string, edited: set<string>, flagged: map<string, XmpInfo>,
    recommendations: Option<Recommendations>)

  /** The state at start-up. */
  const Initial: ScanState :=
    ScanState(Idle, 0, 0, "", "", Idle, [], [], [], "", "", {}, map[], None)

  /** No scan result is held. */
  predicate Cleared(st: ScanState)
  {
    && st.photos == [] && st.photoHashes == [] && st.groups == []
    && st.edited == {} && st.flagged == map[] && st.recommendations == None
  }

  /** `st` and `st'` hold the same scan results and request parameters. */
  predicate SameResults(st: ScanState, st': ScanState)
  {
    && st.photos == st'.photos && st.photoHashes == st'.photoHashes && st.groups == st'.groups
    && st.scanDir == st'.scanDir && st.lrcatPath == st'.lrcatPath
    && st.edited == st'.edited && st.flagged == st'.flagged && st.recommendations == st'.recommendations
  }

  // ---------------------------------------------------------------------------
  // Messages. Numbers are written as `str(int)` writes them.
  // ---------------------------------------------------------------------------

  function DigitChar(d: nat): (c: char)
    requires d < 10
    ensures IsDigit(c) && c as int - '0' as int == d
  {
    ('0' as int + d) as char
  }

  /** `str(n)` for a non-negative integer. */
  function Decimal(n: nat): (s: string)
    ensures |s| > 0 && AllDigits(s)
    ensures s[0] == '0' ==> s == "0"
  {
    if n < 10 then [DigitChar(n)] else Decimal(n / 10) + [DigitChar(n % 10)]
  }

  /** Reading the decimal text back gives the number. */
  lemma {:induction false} DecimalRoundTrip(n: nat)
    ensures DecimalValue(Decimal(n)) == n
  {
    if n >= 10 {
      DecimalRoundTrip(n / 10);
      var s := Decimal(n);
      assert s[..|s| - 1] == Decimal(n / 10);
    }
  }

  const MsgStarting: string := "正在扫描目录..."
  const MsgCollecting: string := "正在扫描目录，收集照片文件..."
  const MsgNoPhotos: string := "未找到任何照片文件"
  const MsgExtracting: string := "正在提取缩略图..."
  const MsgHashing: string := "正在计算图像指纹..."
  const MsgGrouping: string := "正在识别相似照片..."
  const MsgDetecting: string := "正在检测 Lightroom 编辑状态..."
  const MsgRecommending: string := "正在生成推荐..."
  const DetailNoDirectory: string := "目录不存在: "
  const DetailBusy: string := "扫描正在进行中"
  const DetailNotDone: string := "扫描尚未完成"
  const DetailNoRecommendations: string := "暂无推荐结果"
  const DetailMissingFile: string := "文件不存在"

  function MsgScanning(filename: string): string { "扫描中: " + filename }
  function MsgThumbnail(filename: string): string { "提取缩略图: " + filename }
  function MsgHash(current: nat, total: nat): string { "计算哈希: " + Decimal(current) + "/" + Decimal(total) }
  function MsgEdited(n: nat): string { "检测到 " + Decimal(n) + " 张已编辑照片" }
  function MsgLightroomFailed(e: string): string { "LR 编辑状态检测失败: " + e }
  function MsgFinished(photos: nat, groups: nat): string
  {
    "扫描完成！共 " + Decimal(photos) + " 张照片，发现 " + Decimal(groups) + " 组相似照片"
  }
  function MsgFailed(e: string): string { "扫描出错: " + e }

  // ---------------------------------------------------------------------------
  // Progress updates
  // ---------------------------------------------------------------------------

  /** The progress fields as one write leaves them: `stage` (and `status`),
      `message`, `progress`, `total`, `current_file`. */
  datatype Update = Update(stage: Stage, message: string, progress: int, total: int, currentFile: string)

  /** The progress fields of a state. */
  function Snapshot(st: ScanState): Update
  {
    Update(st.stage, st.message, st.progress, st.total, st.currentFile)
  }

  /** `_update_progress`. Its status expression picks `stage` on both branches, so
      status always equals stage afterwards; the results are not touched. */
  function UpdateProgress(st: ScanState, stage: Stage, message: string,
                          progress: int := 0, total: int := 0, filename: string := ""): (r: ScanState)
    ensures r.status == r.stage == stage
    ensures Snapshot(r) == Update(stage, message, progress, total, filename)
    ensures SameResults(r, st)
  {
    st.(stage := stage,
        status := if stage != Done && stage != Error then stage else stage,
        message := message, progress := progress, total := total, currentFile := filename)
  }

  /** A run of progress updates, applied in order. */
  function ApplyAll(st: ScanState, us: seq<Update>): (r: ScanState)
    ensures SameResults(r, st)
    ensures |us| == 0 ==> r == st
    ensures |us| > 0 ==> r.status == r.stage && Snapshot(r) == us[|us| - 1]
  {
    if |us| == 0 then st
    else
      var u := us[|us| - 1];
      UpdateProgress(ApplyAll(st, us[..|us| - 1]), u.stage, u.message, u.progress, u.total, u.currentFile)
  }

  // ---------------------------------------------------------------------------
  // POST /scan and POST /reset
  // ---------------------------------------------------------------------------

  /** An `HTTPException`. */
  datatype HttpError = HttpError(statusCode: int, detail: string)

  /** A new scan may start from these statuses. */
  predicate Ready(s: Stage)
  {
    s == Idle || s == Done || s == Error
  }

  /** `start_scan` up to launching the background run: the state the run starts
      from, or the rejection. `isDir` is `os.path.isdir(directory)`. */
  function StartScan(st: ScanState, directory: string, lrcatPath: Option<string>, isDir: bool): (r: Result<ScanState, HttpError>)
    ensures !isDir ==> r == Err(HttpError(400, DetailNoDirectory + directory))
    ensures isDir && !Ready(st.status) ==> r == Err(HttpError(409, DetailBusy))
    ensures r.Ok? <==> isDir && Ready(st.status)
    ensures r.Ok? ==>
              && r.value.status == r.value.stage == Scanning
              && Snapshot(r.value) == Update(Scanning, MsgStarting, 0, 0, "")
              && Cleared(r.value)
              && r.value.scanDir == directory
              && r.value.lrcatPath == (if lrcatPath.Some? then lrcatPath.value else "")
  {
    if !isDir then Err(HttpError(400, DetailNoDirectory + directory))
    else if !Ready(st.status) then Err(HttpError(409, DetailBusy))
    else Ok(st.(status := Scanning, stage := Scanning, progress := 0, total := 0, currentFile := "",
                message := MsgStarting, photos := [], photoHashes := [], groups := [],
                scanDir := directory, lrcatPath := lrcatPath.GetOr(""),
                edited := {}, flagged := map[], recommendations := None))
  }

  /** An accepted start overwrites every field: the state it produces does not
      depend on what the previous scan left behind. */
  lemma StartForgetsPast(st1: ScanState, st2: ScanState, directory: string, lrcatPath: Option<string>)
    requires Ready(st1.status) && Ready(st2.status)
    ensures StartScan(st1, directory, lrcatPath, true) == StartScan(st2, directory, lrcatPath, true)
  {
  }

  /** While the scan it started is running, a second start is refused with 409,
      whatever directory it names. */
  lemma NoSecondStart(st: ScanState, d1: string, l1: Option<string>, d2: string, l2: Option<string>)
    requires StartScan(st, d1, l1, true).Ok?
    ensures StartScan(StartScan(st, d1, l1, true).value, d2, l2, true) == Err(HttpError(409, DetailBusy))
  {
  }

  /** `reset_scan`: status back to idle, results and progress cleared, whatever the
      current status; `stage` is left as it was. */
  function ResetScan(st: ScanState): (r: ScanState)
    ensures r.status == Idle && Cleared(r)
    ensures r.stage == st.stage
    ensures r.progress == 0 && r.total == 0 && r.currentFile == "" && r.message == ""
    ensures r.scanDir == "" && r.lrcatPath == ""
  {
    st.(status := Idle, progress := 0, total := 0, currentFile := "", message := "",
        photos := [], photoHashes := [], groups := [], scanDir := "", lrcatPath := "",
        edited := {}, flagged := map[], recommendations := None)
  }

  /** After a reset a start is accepted for any existing directory, even when the
      reset interrupted a running scan; a reset after a finished scan leaves status
      and stage apart. */
  lemma ResetAllowsStart(st: ScanState, directory: string, lrcatPath: Option<string>)
    ensures StartScan(ResetScan(st), directory, lrcatPath, true).Ok?
    ensures st.stage == Done ==> ResetScan(st).status != ResetScan(st).stage
  {
  }

  // ---------------------------------------------------------------------------
  // The background scan (`_run_scan`)
  // ---------------------------------------------------------------------------

  /** What the run reads from outside: the directory walk and file sizes and EXIF
      tags (see `Scanner`), `extract_thumbnail`, the order in which the pHash
      workers complete, `compute_phash` on a thumbnail, the existence and text of
      files (for the sidecars), and whether edit detection raises, with its text. */
  datatype Env = Env(
    walk: seq<WalkEntry>, getsize: string -> Result<nat, string>, exif: string -> Exif,
    extract: string -> Result<Option<string>, string>, schedule: seq<string> -> seq<string>,
    phash: string -> Option<string>, fileExists: string -> bool, read: string -> Option<string>,
    lightroomFault: Option<string>)

  /** The worker pool completes every submitted task exactly once. */
  ghost predicate IsSchedule(schedule: seq<string> -> seq<string>)
  {
    forall ks :: NoDup(ks) ==> NoDup(schedule(ks)) && forall k :: k in schedule(ks) <==> k in ks
  }

  /** `imagehash.phash` with hash size 8 prints 64 bits as 16 hex digits. */
  ghost predicate PhashIsHex64(phash: string -> Option<string>)
  {
    forall t :: phash(t).Some? ==> IsHex(phash(t).value) && |phash(t).value| == 16
  }

  ghost predicate ValidEnv(env: Env)
  {
    IsSchedule(env.schedule) && PhashIsHex64(env.phash)
  }

  /** The files the run scans: RAW always, ordinary images on request. */
  function ScanFiles(env: Env, includeImages: bool): seq<string>
  {
    CollectFiles(env.walk, Extensions(true, includeImages))
  }

  /** `[p.path for p in photos]`. */
  function PathsOfInfos(photos: seq<PhotoInfo>): (ps: seq<string>)
    ensures |ps| == |photos|
    ensures forall i :: 0 <= i < |photos| ==> ps[i] == photos[i].path
  {
    if |photos| == 0 then [] else PathsOfInfos(photos[..|photos| - 1]) + [photos[|photos| - 1].path]
  }

  /** `{p.path: p.size for p in photos}`: one entry per listed path. */
  function SizesOf(photos: seq<PhotoInfo>): (m: map<string, int>)
    ensures forall p :: p in m <==> p in PathsOfInfos(photos)
  {
    if |photos| == 0 then map[]
    else SizesOf(photos[..|photos| - 1])[photos[|photos| - 1].path := photos[|photos| - 1].size]
  }

  /** A path listed more than once keeps the size of its last listing. */
  lemma {:induction false} SizesOfLastWins(photos: seq<PhotoInfo>, i: int)
    requires 0 <= i < |photos|
    requires forall j :: i < j < |photos| ==> photos[j].path != photos[i].path
    ensures photos[i].path in SizesOf(photos) && SizesOf(photos)[photos[i].path] == photos[i].size
  {
    if i < |photos| - 1 {
      var init := photos[..|photos| - 1];
      assert init[i] == photos[i];
      forall j | i < j < |init|
        ensures init[j].path != init[i].path
      {
        assert init[j] == photos[j];
      }
      SizesOfLastWins(init, i);
    }
  }

  /** Pairs with a value, in the form the hash batch takes (every value present). */
  function AsPresent(valid: seq<(string, string)>): (tm: seq<(string, Option<string>)>)
    ensures |tm| == |valid|
    ensures forall i :: 0 <= i < |tm| ==> tm[i] == (valid[i].0, Some(valid[i].1))
  {
    seq(|valid|, i requires 0 <= i < |valid| => (valid[i].0, Some(valid[i].1)))
  }

  /** The updates the scan callbacks make. */
  function ScanUpdates(es: seq<ScanEvent>): (us: seq<Update>)
    ensures |us| == |es|
    ensures forall i :: 0 <= i < |es| ==>
              us[i] == Update(Scanning, MsgScanning(es[i].filename), es[i].current, es[i].total, es[i].filename)
  {
    seq(|es|, i requires 0 <= i < |es| =>
      Update(Scanning, MsgScanning(es[i].filename), es[i].current, es[i].total, es[i].filename))
  }

  /** The updates the thumbnail callbacks make. */
  function ThumbUpdates(es: seq<ScanEvent>): (us: seq<Update>)
    ensures |us| == |es|
    ensures forall i :: 0 <= i < |es| ==>
              us[i] == Update(Extracting, MsgThumbnail(es[i].filename), es[i].current, es[i].total, es[i].filename)
  {
    seq(|es|, i requires 0 <= i < |es| =>
      Update(Extracting, MsgThumbnail(es[i].filename), es[i].current, es[i].total, es[i].filename))
  }

  /** The scan step's updates: its opening message, then the callbacks'. */
  function ScanBlock(es: seq<ScanEvent>): (us: seq<Update>)
    ensures |us| == |es| + 1 && us[0] == Update(Scanning, MsgCollecting, 0, 0, "")
    ensures forall i :: 0 <= i < |us| ==> us[i].stage == Scanning
  {
    [Update(Scanning, MsgCollecting, 0, 0, "")] + ScanUpdates(es)
  }

  /** The thumbnail step's updates: its opening message, then the callbacks'. */
  function ThumbBlock(es: seq<ScanEvent>): (us: seq<Update>)
    ensures |us| == |es| + 1 && us[0] == Update(Extracting, MsgExtracting, 0, 0, "")
    ensures forall i :: 0 <= i < |us| ==> us[i].stage == Extracting
  {
    [Update(Extracting, MsgExtracting, 0, 0, "")] + ThumbUpdates(es)
  }

  /** The updates the hash callbacks make. */
  function HashUpdates(rs: seq<(nat, nat)>): (us: seq<Update>)
    ensures |us| == |rs|
    ensures forall i :: 0 <= i < |rs| ==> us[i] == Update(Hashing, MsgHash(rs[i].0, rs[i].1), rs[i].0, rs[i].1, "")
  {
    seq(|rs|, i requires 0 <= i < |rs| => Update(Hashing, MsgHash(rs[i].0, rs[i].1), rs[i].0, rs[i].1, ""))
  }

  /** The scan step's updates over the listed files: the opening message, then a
      report for each file whose size was read and that meets the cadence. */
  function ScanTrace(files: seq<string>, getsize: string -> Result<nat, string>): seq<Update>
  {
    ScanBlock(ScanEvents(Names(files), Reached(files, getsize), ScanReportEvery))
  }

  /** The thumbnail step's updates over the photos: the opening message, then a
      report for each photo whose extraction returned and that meets the cadence. */
  function ThumbTrace(paths: seq<string>, extract: string -> Result<Option<string>, string>): seq<Update>
  {
    ThumbBlock(ScanEvents(Names(paths), Reached(paths, extract), ThumbReportEvery))
  }

  /** The photos whose extraction returned a thumbnail. */
  function Thumbed(paths: seq<string>, extract: string -> Result<Option<string>, string>): set<string>
  {
    set k | k in paths && extract(k).Ok? && extract(k).value.Some?
  }

  /** The hashing step's updates for `n` thumbnails: the opening message, then the
      batch's reports as every one of the `n` tasks completes. */
  function HashBlock(n: nat): seq<Update>
  {
    [Update(Hashing, MsgHashing, 0, 0, "")] + HashUpdates(BatchReports(n, n))
  }

  /** The photos that have a sidecar. */
  function Sidecars(paths: seq<string>, fileExists: string -> bool): set<string>
  {
    set p | p in paths && SidecarOf(p, fileExists).Some?
  }

  /** The update edit detection adds after its opening message: the failure, or
      the number of edited photos when there are any. */
  function EditUpdates(paths: seq<string>, env: Env): seq<Update>
  {
    match env.lightroomFault
    case Some(e) => [Update(Grouping, MsgLightroomFailed(e), 0, 0, "")]
    case None =>
      if |Sidecars(paths, env.fileExists)| > 0 then
        [Update(Grouping, MsgEdited(|Sidecars(paths, env.fileExists)|), 0, 0, "")]
      else []
  }

  /** The updates of steps 4 to 6: grouping, edit detection and recommending. */
  function GroupTrace(paths: seq<string>, env: Env): seq<Update>
  {
    [Update(Grouping, MsgGrouping, 0, 0, ""), Update(Grouping, MsgDetecting, 0, 0, "")] +
    EditUpdates(paths, env) + [Update(Grouping, MsgRecommending, 0, 0, "")]
  }

  // The order of the stages.

  function Rank(s: Stage): nat
  {
    match s
    case Idle => 0
    case Scanning => 1
    case Extracting => 2
    case Hashing => 3
    case Grouping => 4
    case Done => 5
    case Error => 6
  }

  /** Every update is at stage `s` or an earlier one, and the stages never go back. */
  ghost predicate UpTo(us: seq<Update>, s: Stage)
  {
    && (forall i :: 0 <= i < |us| ==> Rank(us[i].stage) <= Rank(s))
    && (forall i, j :: 0 <= i < j < |us| ==> Rank(us[i].stage) <= Rank(us[j].stage))
  }

  /** Updates all at stage `s`. */
  ghost predicate AllAt(us: seq<Update>, s: Stage)
  {
    forall i :: 0 <= i < |us| ==> us[i].stage == s
  }

  /** Updates all at stage `s` or a later one. */
  ghost predicate From(us: seq<Update>, s: Stage)
  {
    forall i :: 0 <= i < |us| ==> Rank(s) <= Rank(us[i].stage)
  }

  /** Updates that stay at or before `s` followed by updates that start at `s` or
      later keep the order. */
  lemma {:induction false} Concat(us: seq<Update>, s: Stage, more: seq<Update>, s': Stage)
    requires UpTo(us, s) && From(more, s) && UpTo(more, s') && Rank(s) <= Rank(s')
    ensures UpTo(us + more, s')
  {
    var r := us + more;
    forall i, j | 0 <= i < j < |r|
      ensures Rank(r[i].stage) <= Rank(r[j].stage)
    {
      if j < |us| {
        assert r[i] == us[i] && r[j] == us[j];
      } else if i < |us| {
        assert r[i] == us[i] && r[j] == more[j - |us|];
      } else {
        assert r[i] == more[i - |us|] && r[j] == more[j - |us|];
      }
    }
    forall i | 0 <= i < |r|
      ensures Rank(r[i].stage) <= Rank(s')
    {
      if i < |us| {
        assert r[i] == us[i];
      } else {
        assert r[i] == more[i - |us|];
      }
    }
  }

  lemma AllAtConcat(us: seq<Update>, more: seq<Update>, s: Stage)
    requires AllAt(us, s) && AllAt(more, s)
    ensures AllAt(us + more, s)
  {
  }

  /** Updates at one stage are in order. */
  lemma Level(us: seq<Update>, s: Stage)
    requires AllAt(us, s)
    ensures UpTo(us, s) && From(us, s)
  {
  }

  // From thumbnails to fingerprints.

  /** `{orig: thumb for orig, thumb in thumb_results.items() if thumb}`: exactly the
      photos that got a thumbnail, each with its own thumbnail, in the order of
      `thumb_results`. */
  function ThumbMap(thumbs: seq<(string, Option<string>)>): (tm: seq<(string, Option<string>)>)
    requires DistinctKeys(thumbs)
    ensures DistinctKeys(tm) && IsSubseq(KeysOf(tm), KeysOf(thumbs))
    ensures forall k :: k in KeysOf(tm) <==> Get(thumbs, k).Some? && Get(thumbs, k).value.Some?
    ensures forall i :: 0 <= i < |tm| ==> tm[i].1.Some? && Get(thumbs, tm[i].0) == Some(tm[i].1)
  {
    PresentKeys(thumbs);
    HashedOnlyDistinct(thumbs);
    PresentValues(thumbs);
    PresentComplete(thumbs);
    AsPresent(HashedOnly(thumbs))
  }

  lemma PresentKeys(thumbs: seq<(string, Option<string>)>)
    ensures KeysOf(AsPresent(HashedOnly(thumbs))) == KeysOf(HashedOnly(thumbs))
  {
  }

  lemma PresentValues(thumbs: seq<(string, Option<string>)>)
    requires DistinctKeys(thumbs)
    ensures var tm := AsPresent(HashedOnly(thumbs));
            forall i :: 0 <= i < |tm| ==> tm[i].1.Some? && Get(thumbs, tm[i].0) == Some(tm[i].1)
  {
    var tm := AsPresent(HashedOnly(thumbs));
    var valid := HashedOnly(thumbs);
    forall i | 0 <= i < |tm|
      ensures tm[i].1.Some? && Get(thumbs, tm[i].0) == Some(tm[i].1)
    {
      assert (valid[i].0, Some(valid[i].1)) in thumbs;
      GetStored(thumbs, valid[i].0, Some(valid[i].1));
    }
  }

  lemma PresentComplete(thumbs: seq<(string, Option<string>)>)
    requires DistinctKeys(thumbs)
    ensures forall k :: Get(thumbs, k).Some? && Get(thumbs, k).value.Some? ==> k in KeysOf(AsPresent(HashedOnly(thumbs)))
  {
    PresentKeys(thumbs);
    forall k | Get(thumbs, k).Some? && Get(thumbs, k).value.Some?
      ensures k in KeysOf(HashedOnly(thumbs))
    {
      ThumbKept(thumbs, k);
    }
  }

  /** A photo whose thumbnail is present keeps its key among the hashed ones. */
  lemma ThumbKept(thumbs: seq<(string, Option<string>)>, k: string)
    requires Get(thumbs, k).Some? && Get(thumbs, k).value.Some?
    ensures k in KeysOf(HashedOnly(thumbs))
  {
    var valid := HashedOnly(thumbs);
    var v := Get(thumbs, k).value;
    var i :| 0 <= i < |thumbs| && thumbs[i] == (k, v);
    assert (k, v.value) in valid;
    var j :| 0 <= j < |valid| && valid[j] == (k, v.value);
    assert KeysOf(valid)[j] == k;
  }

  /** Every key of a map whose values are all present is submitted to the pool,
      and none is filled in with `None`. */
  lemma AllSubmitted(tm: seq<(string, Option<string>)>)
    requires forall i :: 0 <= i < |tm| ==> tm[i].1.Some?
    ensures forall k :: Submitted(tm, k) <==> k in KeysOf(tm)
    ensures Unthumbed(tm) == []
  {
    forall k | k in KeysOf(tm)
      ensures Submitted(tm, k)
    {
      var v := Get(tm, k).value;
      var i :| 0 <= i < |tm| && tm[i] == (k, v);
    }
  }

  /** The fingerprints stored for the photos, as a function of the environment:
      exactly the photos that got a thumbnail, each under `compute_phash` of it. */
  ghost predicate HashedAs(hashes: seq<(string, Option<string>)>, paths: seq<string>, env: Env)
  {
    && DistinctKeys(hashes)
    && (forall k :: k in KeysOf(hashes) <==> k in paths && env.extract(k).Ok? && env.extract(k).value.Some?)
    && (forall k :: k in KeysOf(hashes) ==> Get(hashes, k) == Some(env.phash(env.extract(k).value.value)))
  }

  /** The batch's result is the photos' fingerprints. */
  lemma HashesOfThumbs(thumbs: seq<(string, Option<string>)>, paths: seq<string>, env: Env,
                       hashes: seq<(string, Option<string>)>)
    requires DistinctKeys(thumbs)
    requires forall k :: k in KeysOf(thumbs) <==> k in paths
    requires forall k :: k in KeysOf(thumbs) ==> env.extract(k).Ok? && Get(thumbs, k) == Some(env.extract(k).value)
    requires var tm := ThumbMap(thumbs);
             && DistinctKeys(hashes)
             && (forall k :: k in KeysOf(hashes) <==> k in KeysOf(tm))
             && (forall i :: 0 <= i < |tm| ==>
                   Get(hashes, tm[i].0) == Some(match tm[i].1 case None => None case Some(t) => env.phash(t)))
    ensures HashedAs(hashes, paths, env)
  {
    var tm := ThumbMap(thumbs);
    forall k | k in KeysOf(hashes)
      ensures Get(hashes, k) == Some(env.phash(env.extract(k).value.value))
    {
      var i :| 0 <= i < |tm| && KeysOf(tm)[i] == k;
    }
  }

  /** Fingerprints printed by `compute_phash` can all be compared with each other. */
  lemma StoredHashesComparable(hashes: seq<(string, Option<string>)>, paths: seq<string>, env: Env)
    requires HashedAs(hashes, paths, env) && PhashIsHex64(env.phash)
    ensures AllComparable(ValuesOf(HashedOnly(hashes)))
  {
    var valid := HashedOnly(hashes);
    var vs := ValuesOf(valid);
    forall i | 0 <= i < |vs|
      ensures IsHex(vs[i]) && |vs[i]| == 16
    {
      GetStored(hashes, valid[i].0, Some(valid[i].1));
      assert valid[i].0 in KeysOf(hashes);
    }
  }

  // The stages after the thumbnails: they cannot fail.

  /** Edit detection either ran over the photos or raised, leaving the previous
      (cleared) sets in place. */
  ghost predicate EditsOver(st: ScanState, edited0: set<string>, flagged0: map<string, XmpInfo>,
                            paths: seq<string>, env: Env)
  {
    && (env.lightroomFault.None? ==>
          && (forall p :: p in st.edited <==> p in paths && SidecarOf(p, env.fileExists).Some?)
          && (forall p :: p in st.flagged <==>
                p in st.edited && FlagsPhoto(env.read(SidecarOf(p, env.fileExists).value)))
          && (forall p :: p in st.flagged ==> st.flagged[p] == ParseXmp(env.read(SidecarOf(p, env.fileExists).value))))
    && (env.lightroomFault.Some? ==> st.edited == edited0 && st.flagged == flagged0)
  }

  /** The recommendations stored are those for the stored groups and edit state. */
  ghost predicate RecommendedFor(st: ScanState)
  {
    && st.recommendations.Some?
    && var recs := st.recommendations.value.recommendations;
       var summary := st.recommendations.value.summary;
       && |recs| == |st.groups|
       && (forall k :: 0 <= k < |st.groups| ==>
             recs[k] == ToDict(RecommendForGroup(st.groups[k], Some(st.edited), Some(st.flagged))))
       && summary.totalGroups == |st.groups|
       && summary.totalPhotos == summary.keepCount + summary.deleteCount == SumCounts(st.groups)
  }

  /** The results a completed analysis leaves in the state: fingerprints, groups,
      edit state (or the earlier one, when detection failed) and recommendations. */
  ghost predicate Analysed(st: ScanState, edited0: set<string>, flagged0: map<string, XmpInfo>, threshold: int, env: Env)
  {
    && HashedAs(st.photoHashes, PathsOfInfos(st.photos), env)
    && SimilarGroups(st.groups, st.photoHashes, Some(SizesOf(st.photos)), threshold)
    && EditsOver(st, edited0, flagged0, PathsOfInfos(st.photos), env)
    && RecommendedFor(st)
  }

  /** Progress updates do not disturb the results. */
  lemma AnalysedKept(st: ScanState, st': ScanState, edited0: set<string>, flagged0: map<string, XmpInfo>,
                     threshold: int, env: Env)
    requires Analysed(st, edited0, flagged0, threshold, env) && SameResults(st', st)
    ensures Analysed(st', edited0, flagged0, threshold, env)
  {
  }

  /** `st` differs from `st0` at most in its progress fields and the fingerprints. */
  predicate OnlyHashesChanged(st: ScanState, st0: ScanState)
  {
    && st.photos == st0.photos && st.groups == st0.groups && st.scanDir == st0.scanDir
    && st.lrcatPath == st0.lrcatPath && st.edited == st0.edited && st.flagged == st0.flagged
    && st.recommendations == st0.recommendations
  }

  /** `st` differs from `st0` at most in its progress fields and the groups. */
  predicate OnlyGroupsChanged(st: ScanState, st0: ScanState)
  {
    && st.photos == st0.photos && st.photoHashes == st0.photoHashes && st.scanDir == st0.scanDir
    && st.lrcatPath == st0.lrcatPath && st.edited == st0.edited && st.flagged == st0.flagged
    && st.recommendations == st0.recommendations
  }

  /** `st` differs from `st0` at most in its progress fields and the edit state. */
  predicate OnlyEditsChanged(st: ScanState, st0: ScanState)
  {
    && st.photos == st0.photos && st.photoHashes == st0.photoHashes && st.groups == st0.groups
    && st.scanDir == st0.scanDir && st.lrcatPath == st0.lrcatPath && st.recommendations == st0.recommendations
  }

  /** The fingerprints of the photos that have a thumbnail, in the order the
      workers complete, with the progress reports of the batch. */
  method HashBatch(thumbs: seq<(string, Option<string>)>, paths: seq<string>, env: Env)
    returns (hashes: seq<(string, Option<string>)>, reports: seq<(nat, nat)>)
    requires IsSchedule(env.schedule) && DistinctKeys(thumbs)
    requires forall k :: k in KeysOf(thumbs) <==> k in paths
    requires forall k :: k in KeysOf(thumbs) ==> env.extract(k).Ok? && Get(thumbs, k) == Some(env.extract(k).value)
    ensures HashedAs(hashes, paths, env)
    ensures reports == BatchReports(|Thumbed(paths, env.extract)|, |Thumbed(paths, env.extract)|)
  {
    var tm := ThumbMap(thumbs);
    AllSubmitted(tm);
    var completion := env.schedule(KeysOf(tm));
    hashes, reports := ComputePhashBatch(tm, completion, env.phash);
    HashesOfThumbs(thumbs, paths, env, hashes);
    ThumbMapCount(thumbs, paths, env.extract, completion);
  }

  /** The thumbnail map and any completion order of it have one entry per photo
      that got a thumbnail. */
  lemma ThumbMapCount(thumbs: seq<(string, Option<string>)>, paths: seq<string>,
                      extract: string -> Result<Option<string>, string>, completion: seq<string>)
    requires DistinctKeys(thumbs)
    requires forall k :: k in KeysOf(thumbs) <==> k in paths
    requires forall k :: k in KeysOf(thumbs) ==> extract(k).Ok? && Get(thumbs, k) == Some(extract(k).value)
    requires NoDup(completion) && forall k :: k in completion <==> k in KeysOf(ThumbMap(thumbs))
    ensures |completion| == |ThumbMap(thumbs)| == |Thumbed(paths, extract)|
  {
    var keys := KeysOf(ThumbMap(thumbs));
    forall k ensures k in keys <==> k in Thumbed(paths, extract) {
      ThumbKeyIff(thumbs, paths, extract, k);
    }
    CountDistinct(keys, completion, Thumbed(paths, extract));
  }

  /** Two duplicate-free sequences of the elements of one set have its size. */
  lemma CountDistinct(keys: seq<string>, completion: seq<string>, s: set<string>)
    requires NoDup(keys) && NoDup(completion)
    requires forall k :: k in completion <==> k in keys
    requires forall k :: k in keys <==> k in s
    ensures |completion| == |keys| == |s|
  {
    SameElemsLength(completion, keys);
    NoDupCard(keys);
    assert (set k | k in keys) == s;
  }

  /** A key of the thumbnail map is exactly a photo that got a thumbnail. */
  lemma ThumbKeyIff(thumbs: seq<(string, Option<string>)>, paths: seq<string>,
                    extract: string -> Result<Option<string>, string>, k: string)
    requires DistinctKeys(thumbs)
    requires forall k :: k in KeysOf(thumbs) <==> k in paths
    requires forall k :: k in KeysOf(thumbs) ==> extract(k).Ok? && Get(thumbs, k) == Some(extract(k).value)
    ensures k in KeysOf(ThumbMap(thumbs)) <==> k in Thumbed(paths, extract)
  {
  }

  /** Step 3 of `_run_scan`: the thumbnail map and the fingerprint batch. */
  method HashStage(st0: ScanState, thumbs: seq<(string, Option<string>)>, env: Env)
    returns (st: ScanState, us: seq<Update>)
    requires ValidEnv(env) && DistinctKeys(thumbs)
    requires forall k :: k in KeysOf(thumbs) <==> k in PathsOfInfos(st0.photos)
    requires forall k :: k in KeysOf(thumbs) ==> env.extract(k).Ok? && Get(thumbs, k) == Some(env.extract(k).value)
    ensures |us| > 0 && AllAt(us, Hashing) && us[0] == Update(Hashing, MsgHashing, 0, 0, "")
    ensures st.status == st.stage && Snapshot(st) == us[|us| - 1]
    ensures OnlyHashesChanged(st, st0)
    ensures HashedAs(st.photoHashes, PathsOfInfos(st0.photos), env)
    ensures us == HashBlock(|Thumbed(PathsOfInfos(st0.photos), env.extract)|)
  {
    var hashes, reports := HashBatch(thumbs, PathsOfInfos(st0.photos), env);
    var n := |Thumbed(PathsOfInfos(st0.photos), env.extract)|;
    us := HashBlock(n);
    HashBlockAt(n);
    st := ApplyAll(st0, us).(photoHashes := hashes);
  }

  /** The hashing step's updates open with the step's message and stay at the step. */
  lemma HashBlockAt(n: nat)
    ensures |HashBlock(n)| > 0 && AllAt(HashBlock(n), Hashing) && HashBlock(n)[0] == Update(Hashing, MsgHashing, 0, 0, "")
  {
    var us := HashBlock(n);
    var rs := HashUpdates(BatchReports(n, n));
    forall i | 0 <= i < |us| ensures us[i].stage == Hashing {
      if i > 0 {
        assert us[i] == rs[i - 1];
      }
    }
  }

  /** Step 4: grouping the photos by fingerprint. */
  method GroupStage(st0: ScanState, threshold: int, env: Env) returns (st: ScanState, us: seq<Update>)
    requires HashedAs(st0.photoHashes, PathsOfInfos(st0.photos), env) && PhashIsHex64(env.phash)
    ensures us == [Update(Grouping, MsgGrouping, 0, 0, "")]
    ensures st.status == st.stage && Snapshot(st) == us[|us| - 1]
    ensures OnlyGroupsChanged(st, st0)
    ensures SimilarGroups(st.groups, st.photoHashes, Some(SizesOf(st.photos)), threshold)
  {
    us := [Update(Grouping, MsgGrouping, 0, 0, "")];
    StoredHashesComparable(st0.photoHashes, PathsOfInfos(st0.photos), env);
    var groups := GroupSimilarPhotos(st0.photoHashes, Some(SizesOf(st0.photos)), threshold);
    st := ApplyAll(st0, us).(groups := groups);
  }

  /** The sidecar pass of step 5 and the count message it may add. */
  method DetectStage(st0: ScanState, env: Env) returns (st: ScanState, us: seq<Update>)
    requires st0.status == st0.stage
    ensures AllAt(us, Grouping) && |us| <= 1
    ensures st.status == st.stage && Snapshot(st) == if |us| == 0 then Snapshot(st0) else us[0]
    ensures OnlyEditsChanged(st, st0)
    ensures forall p :: p in st.edited <==> p in PathsOfInfos(st0.photos) && SidecarOf(p, env.fileExists).Some?
    ensures forall p :: p in st.flagged <==>
              p in st.edited && FlagsPhoto(env.read(SidecarOf(p, env.fileExists).value))
    ensures forall p :: p in st.flagged ==> st.flagged[p] == ParseXmp(env.read(SidecarOf(p, env.fileExists).value))
    ensures us == EditUpdates(PathsOfInfos(st0.photos), env.(lightroomFault := None))
  {
    var edited, flagged := DetectEditedPhotos(PathsOfInfos(st0.photos), env.fileExists, env.read);
    assert edited == Sidecars(PathsOfInfos(st0.photos), env.fileExists);
    st := st0.(edited := edited, flagged := flagged);
    us := [];
    if |edited| > 0 {
      us := [Update(Grouping, MsgEdited(|edited|), 0, 0, "")];
      st := ApplyAll(st, us);
    }
  }

  /** Step 5: edit detection through the sidecars. A failure only writes its
      message, which the next update overwrites. */
  method EditStage(st0: ScanState, env: Env) returns (st: ScanState, us: seq<Update>)
    ensures |us| > 0 && AllAt(us, Grouping) && us[0] == Update(Grouping, MsgDetecting, 0, 0, "")
    ensures st.status == st.stage && Snapshot(st) == us[|us| - 1]
    ensures OnlyEditsChanged(st, st0)
    ensures EditsOver(st, st0.edited, st0.flagged, PathsOfInfos(st0.photos), env)
    ensures us == [Update(Grouping, MsgDetecting, 0, 0, "")] + EditUpdates(PathsOfInfos(st0.photos), env)
  {
    var start := [Update(Grouping, MsgDetecting, 0, 0, "")];
    var st1 := ApplyAll(st0, start);
    match env.lightroomFault {
      case Some(e) =>
        us := start + [Update(Grouping, MsgLightroomFailed(e), 0, 0, "")];
        st := st1.(message := MsgLightroomFailed(e));
      case None =>
        var more;
        st, more := DetectStage(st1, env);
        us := start + more;
    }
  }

  /** Step 6: the recommendations for the stored groups and edit state. */
  method RecommendStage(st0: ScanState) returns (st: ScanState, us: seq<Update>)
    ensures us == [Update(Grouping, MsgRecommending, 0, 0, "")]
    ensures st.status == st.stage && Snapshot(st) == us[|us| - 1]
    ensures st.photos == st0.photos && st.photoHashes == st0.photoHashes && st.groups == st0.groups
    ensures st.scanDir == st0.scanDir && st.lrcatPath == st0.lrcatPath
    ensures st.edited == st0.edited && st.flagged == st0.flagged
    ensures RecommendedFor(st)
  {
    us := [Update(Grouping, MsgRecommending, 0, 0, "")];
    st := ApplyAll(st0, us);
    var recs, summary := RecommendAll(st0.groups, Some(st0.edited), Some(st0.flagged));
    st := st.(recommendations := Some(Recommendations(recs, summary)));
  }

  /** Steps 4 to 6 over stored fingerprints: the grouping updates, and a state
      holding the groups, the edit state and the recommendations. */
  method GroupSteps(st0: ScanState, threshold: int, env: Env) returns (st: ScanState, groupUs: seq<Update>)
    requires HashedAs(st0.photoHashes, PathsOfInfos(st0.photos), env) && PhashIsHex64(env.phash)
    ensures |groupUs| > 0 && groupUs[0] == Update(Grouping, MsgGrouping, 0, 0, "") && AllAt(groupUs, Grouping)
    ensures st.status == st.stage && Snapshot(st) == groupUs[|groupUs| - 1]
    ensures st.photos == st0.photos && st.photoHashes == st0.photoHashes
    ensures st.scanDir == st0.scanDir && st.lrcatPath == st0.lrcatPath
    ensures SimilarGroups(st.groups, st.photoHashes, Some(SizesOf(st.photos)), threshold)
    ensures EditsOver(st, st0.edited, st0.flagged, PathsOfInfos(st0.photos), env)
    ensures RecommendedFor(st)
    ensures groupUs == GroupTrace(PathsOfInfos(st0.photos), env)
  {
    var st2, st3, u2, u3, u4;
    st2, u2 := GroupStage(st0, threshold, env);
    st3, u3 := EditStage(st2, env);
    st, u4 := RecommendStage(st3);
    AllAtConcat(u2, u3, Grouping);
    AllAtConcat(u2 + u3, u4, Grouping);
    groupUs := u2 + u3 + u4;
    assert groupUs[|groupUs| - 1] == u4[0];
    GroupTraceOf(u2, u3, u4, PathsOfInfos(st0.photos), env);
  }

  /** The three grouping steps' updates, one after the other, are the grouping trace. */
  lemma GroupTraceOf(u2: seq<Update>, u3: seq<Update>, u4: seq<Update>, paths: seq<string>, env: Env)
    requires u2 == [Update(Grouping, MsgGrouping, 0, 0, "")]
    requires u3 == [Update(Grouping, MsgDetecting, 0, 0, "")] + EditUpdates(paths, env)
    requires u4 == [Update(Grouping, MsgRecommending, 0, 0, "")]
    ensures u2 + u3 + u4 == GroupTrace(paths, env)
  {
  }

  /** Steps 3 to 6, once every photo has its thumbnail: the hashing updates, then
      the grouping ones, and a state holding the fingerprints of the thumbnails,
      the groups over them, the edit state and the recommendations. */
  method AnalysePhotos(st0: ScanState, thumbs: seq<(string, Option<string>)>, threshold: int, env: Env)
    returns (st: ScanState, hashUs: seq<Update>, groupUs: seq<Update>)
    requires ValidEnv(env) && DistinctKeys(thumbs)
    requires forall k :: k in KeysOf(thumbs) <==> k in PathsOfInfos(st0.photos)
    requires forall k :: k in KeysOf(thumbs) ==> env.extract(k).Ok? && Get(thumbs, k) == Some(env.extract(k).value)
    ensures |hashUs| > 0 && hashUs[0] == Update(Hashing, MsgHashing, 0, 0, "") && AllAt(hashUs, Hashing)
    ensures |groupUs| > 0 && groupUs[0] == Update(Grouping, MsgGrouping, 0, 0, "") && AllAt(groupUs, Grouping)
    ensures st.status == st.stage && Snapshot(st) == groupUs[|groupUs| - 1]
    ensures st.photos == st0.photos && st.scanDir == st0.scanDir && st.lrcatPath == st0.lrcatPath
    ensures Analysed(st, st0.edited, st0.flagged, threshold, env)
    ensures hashUs == HashBlock(|Thumbed(PathsOfInfos(st0.photos), env.extract)|)
    ensures groupUs == GroupTrace(PathsOfInfos(st0.photos), env)
  {
    var st1;
    st1, hashUs := HashStage(st0, thumbs, env);
    st, groupUs := GroupSteps(st1, threshold, env);
  }

  /** The first extraction, in the order of `xs`, that raised, if any. */
  function FirstError<T>(xs: seq<string>, f: string -> Result<T, string>): (r: Option<string>)
    ensures r.None? <==> forall i :: 0 <= i < |xs| ==> f(xs[i]).Ok?
    ensures r.Some? ==> exists n :: 0 <= n < |xs| && f(xs[n]) == Err(r.value) &&
                                     forall i :: 0 <= i < n ==> f(xs[i]).Ok?
  {
    if |xs| == 0 then None
    else if f(xs[0]).Err? then Some(f(xs[0]).error)
    else
      var r := FirstError(xs[1..], f);
      if r.Some? then
        var n :| 0 <= n < |xs[1..]| && f(xs[1..][n]) == Err(r.value) && forall i :: 0 <= i < n ==> f(xs[1..][i]).Ok?;
        assert f(xs[n + 1]) == Err(r.value);
        r
      else r
  }

  /** How many of `xs`, in order, `f` handles before the first one it fails on:
      all of them when it fails on none. */
  function Reached<T>(xs: seq<string>, f: string -> Result<T, string>): (n: nat)
    ensures n <= |xs|
    ensures forall i :: 0 <= i < n ==> f(xs[i]).Ok?
    ensures n < |xs| ==> f(xs[n]).Err?
  {
    if |xs| == 0 || f(xs[0]).Err? then 0
    else
      var n := Reached(xs[1..], f);
      assert forall i :: 1 <= i < n + 1 ==> xs[i] == xs[1..][i - 1];
      n + 1
  }

  /** A position with every earlier call succeeding and a failing call there (or
      the end of `xs`) is where the calls stop, and the first failure is there. */
  lemma ReachedAt<T>(xs: seq<string>, f: string -> Result<T, string>, n: nat)
    requires n <= |xs| && forall i :: 0 <= i < n ==> f(xs[i]).Ok?
    requires n < |xs| ==> f(xs[n]).Err?
    ensures Reached(xs, f) == n
    ensures n == |xs| <==> FirstError(xs, f).None?
  {
  }

  /** The first failure is the error of whichever position fails with every
      earlier one succeeding. */
  lemma {:induction false} FirstErrorAt<T>(xs: seq<string>, f: string -> Result<T, string>, n: nat)
    requires n < |xs| && f(xs[n]).Err? && forall i :: 0 <= i < n ==> f(xs[i]).Ok?
    ensures FirstError(xs, f) == Some(f(xs[n]).error)
  {
    if n > 0 {
      FirstErrorAt(xs[1..], f, n - 1);
    }
  }

  lemma FirstErrorNone<T>(xs: seq<string>, f: string -> Result<T, string>)
    requires forall i :: 0 <= i < |xs| ==> f(xs[i]).Ok?
    ensures FirstError(xs, f) == None
  {
  }

  /** Steps 2 to 6 for the scanned photos, up to the last update, which is
      returned apart: an extraction error ends the run with `Error`; otherwise the
      run analyses the photos and ends with `Done`. */
  method ProcessPhotos(st0: ScanState, threshold: int, env: Env)
    returns (st: ScanState, thumbUs: seq<Update>, hashUs: seq<Update>, groupUs: seq<Update>, last: Update)
    requires ValidEnv(env)
    ensures |thumbUs| > 0 && thumbUs[0] == Update(Extracting, MsgExtracting, 0, 0, "") && AllAt(thumbUs, Extracting)
    ensures AllAt(hashUs, Hashing) && AllAt(groupUs, Grouping)
    ensures st.status == st.stage && Snapshot(st) == last
    ensures st.photos == st0.photos && st.scanDir == st0.scanDir && st.lrcatPath == st0.lrcatPath
    ensures last.stage == Error <==> FirstError(PathsOfInfos(st0.photos), env.extract).Some?
    ensures last.stage == Error ==>
              && last == Update(Error, MsgFailed(FirstError(PathsOfInfos(st0.photos), env.extract).value), 0, 0, "")
              && hashUs == [] && groupUs == []
              && SameResults(st, st0)
    ensures last.stage != Error ==>
              && last == Update(Done, MsgFinished(|st0.photos|, |st.groups|), 0, 0, "")
              && |hashUs| > 0 && |groupUs| > 0
              && Analysed(st, st0.edited, st0.flagged, threshold, env)
    ensures thumbUs == ThumbTrace(PathsOfInfos(st0.photos), env.extract)
    ensures last.stage != Error ==>
              && hashUs == HashBlock(|Thumbed(PathsOfInfos(st0.photos), env.extract)|)
              && groupUs == GroupTrace(PathsOfInfos(st0.photos), env)
  {
    var paths := PathsOfInfos(st0.photos);
    var thumbs, events := ExtractThumbnailsBatch(paths, env.extract);
    ThumbEventsTrace(paths, env.extract, thumbs, events);
    thumbUs := ThumbBlock(events);
    var st1 := ApplyAll(st0, thumbUs);
    match thumbs {
      case Err(e) =>
        var n :| 0 <= n < |paths| && env.extract(paths[n]) == Err(e) &&
                 forall i :: 0 <= i < n ==> env.extract(paths[i]).Ok?;
        FirstErrorAt(paths, env.extract, n);
        hashUs, groupUs := [], [];
        last := Update(Error, MsgFailed(e), 0, 0, "");
        st := ApplyAll(st1, [last]);
      case Ok(tm) =>
        var st2;
        st2, hashUs, groupUs := AnalysePhotos(st1, tm, threshold, env);
        last := Update(Done, MsgFinished(|st0.photos|, |st2.groups|), 0, 0, "");
        st := ApplyAll(st2, [last]);
        AnalysedKept(st2, st, st0.edited, st0.flagged, threshold, env);
    }
  }

  /** The thumbnail batch's callbacks make the thumbnail trace. */
  lemma ThumbEventsTrace(paths: seq<string>, extract: string -> Result<Option<string>, string>,
                         results: Result<seq<(string, Option<string>)>, string>, events: seq<ScanEvent>)
    requires BatchOutcome(paths, extract, results, events)
    ensures ThumbBlock(events) == ThumbTrace(paths, extract)
  {
    if results.Err? {
      var n :| 0 <= n < |paths| && extract(paths[n]) == Err(results.error) &&
               (forall i :: 0 <= i < n ==> extract(paths[i]).Ok?) &&
               events == ScanEvents(Names(paths), n, ThumbReportEvery);
      ReachedAt(paths, extract, n);
    } else {
      ReachedAt(paths, extract, |paths|);
    }
  }

  /** The paths of the photos a scan built are the files it listed. */
  lemma PathsOfScan(files: seq<string>, photos: seq<PhotoInfo>)
    requires |photos| == |files| && forall i :: 0 <= i < |files| ==> photos[i].path == files[i]
    ensures PathsOfInfos(photos) == files
  {
  }

  /** What a scan yields, in terms of the first file whose size cannot be read. */
  lemma ScanResult(files: seq<string>, getsize: string -> Result<nat, string>, exif: string -> Exif,
                   photos: Result<seq<PhotoInfo>, string>, events: seq<ScanEvent>)
    requires ScanOutcome(files, true, true, getsize, exif, photos, events)
    ensures photos.Err? <==> FirstError(files, getsize).Some?
    ensures photos.Err? ==> photos.error == FirstError(files, getsize).value
    ensures photos.Ok? ==>
              && PathsOfInfos(photos.value) == files
              && forall i :: 0 <= i < |photos.value| ==>
                   photos.value[i] == InfoOf(files[i], getsize(files[i]).value, true, exif)
  {
    match photos {
      case Err(e) =>
        var n :| 0 <= n < |files| && getsize(files[n]) == Err(e) &&
                 forall i :: 0 <= i < n ==> getsize(files[i]).Ok?;
        FirstErrorAt(files, getsize, n);
      case Ok(ps) =>
        FirstErrorNone(files, getsize);
        PathsOfScan(files, ps);
    }
  }

  /** Step 1: the scan and its updates. A failure is the first size that could
      not be read; a success lists one photo per file, in order. */
  method ScanStep(env: Env, includeImages: bool) returns (photos: Result<seq<PhotoInfo>, string>, us: seq<Update>)
    ensures |us| > 0 && us[0] == Update(Scanning, MsgCollecting, 0, 0, "") && AllAt(us, Scanning)
    ensures photos.Err? <==> FirstError(ScanFiles(env, includeImages), env.getsize).Some?
    ensures photos.Err? ==> photos.error == FirstError(ScanFiles(env, includeImages), env.getsize).value
    ensures photos.Ok? ==>
              && PathsOfInfos(photos.value) == ScanFiles(env, includeImages)
              && forall i :: 0 <= i < |photos.value| ==>
                   photos.value[i] == InfoOf(ScanFiles(env, includeImages)[i],
                                             env.getsize(ScanFiles(env, includeImages)[i]).value, true, env.exif)
    ensures us == ScanTrace(ScanFiles(env, includeImages), env.getsize)
  {
    var files := ScanFiles(env, includeImages);
    var events;
    photos, events := ScanDirectory(env.walk, true, includeImages, true, true, env.getsize, env.exif);
    ScanResult(files, env.getsize, env.exif, photos, events);
    if photos.Err? {
      var n :| 0 <= n < |files| && env.getsize(files[n]) == Err(photos.error) &&
               (forall i :: 0 <= i < n ==> env.getsize(files[i]).Ok?) &&
               events == ScanEvents(Names(files), n, ScanReportEvery);
      ReachedAt(files, env.getsize, n);
    } else {
      ReachedAt(files, env.getsize, |files|);
    }
    us := ScanBlock(events);
  }

  /** Steps 1 (storing the photos) to 6 of the run, after a successful scan. */
  method StoreAndProcess(st0: ScanState, photos: seq<PhotoInfo>, threshold: int, env: Env)
    returns (st: ScanState, thumbUs: seq<Update>, hashUs: seq<Update>, groupUs: seq<Update>, last: Update)
    requires ValidEnv(env)
    ensures AllAt(thumbUs, Extracting) && AllAt(hashUs, Hashing) && AllAt(groupUs, Grouping)
    ensures st.status == st.stage && Snapshot(st) == last
    ensures st.photos == photos && st.scanDir == st0.scanDir && st.lrcatPath == st0.lrcatPath
    ensures last.stage == Error <==> FirstError(PathsOfInfos(photos), env.extract).Some?
    ensures last.stage == Error ==>
              && last == Update(Error, MsgFailed(FirstError(PathsOfInfos(photos), env.extract).value), 0, 0, "")
              && hashUs == [] && groupUs == []
    ensures last.stage == Error || |photos| == 0 ==>
              && st.photoHashes == st0.photoHashes && st.groups == st0.groups
              && st.edited == st0.edited && st.flagged == st0.flagged && st.recommendations == st0.recommendations
    ensures |photos| == 0 ==> last == Update(Done, MsgNoPhotos, 0, 0, "") && thumbUs == [] && hashUs == [] && groupUs == []
    ensures |photos| > 0 && last.stage != Error ==>
              && last == Update(Done, MsgFinished(|photos|, |st.groups|), 0, 0, "")
              && |thumbUs| > 0 && |hashUs| > 0 && |groupUs| > 0
              && Analysed(st, st0.edited, st0.flagged, threshold, env)
    ensures |photos| > 0 ==> thumbUs == ThumbTrace(PathsOfInfos(photos), env.extract)
    ensures |photos| > 0 && last.stage != Error ==>
              && hashUs == HashBlock(|Thumbed(PathsOfInfos(photos), env.extract)|)
              && groupUs == GroupTrace(PathsOfInfos(photos), env)
  {
    st := st0.(photos := photos);
    if |photos| == 0 {
      thumbUs, hashUs, groupUs := [], [], [];
      last := Update(Done, MsgNoPhotos, 0, 0, "");
      st := ApplyAll(st, [last]);
    } else {
      st, thumbUs, hashUs, groupUs, last := ProcessPhotos(st, threshold, env);
    }
  }

  /** `_run_scan`, from the state `start_scan` left. The updates it makes are the
      scanning block, the thumbnail block, the hashing block, the grouping block and
      the last update, in that order (see `RunOrdered`). The run ends in `Error`
      exactly when reading a file size or extracting a thumbnail fails, with the
      first such error; otherwise in `Done`, having stored the photos and, when there
      are any, their analysis. A failure keeps the earlier results. */
  method RunScan(st0: ScanState, threshold: int, includeImages: bool, env: Env)
    returns (st: ScanState, scanUs: seq<Update>, thumbUs: seq<Update>, hashUs: seq<Update>, groupUs: seq<Update>,
             last: Update)
    requires ValidEnv(env)
    ensures |scanUs| > 0 && scanUs[0] == Update(Scanning, MsgCollecting, 0, 0, "") && AllAt(scanUs, Scanning)
    ensures AllAt(thumbUs, Extracting) && AllAt(hashUs, Hashing) && AllAt(groupUs, Grouping)
    ensures last.stage == Done || last.stage == Error
    ensures st.status == st.stage && Snapshot(st) == last
    ensures st.scanDir == st0.scanDir && st.lrcatPath == st0.lrcatPath
    ensures last.stage == Error <==>
              FirstError(ScanFiles(env, includeImages), env.getsize).Some? ||
              FirstError(ScanFiles(env, includeImages), env.extract).Some?
    ensures FirstError(ScanFiles(env, includeImages), env.getsize).Some? ==>
              && last == Update(Error, MsgFailed(FirstError(ScanFiles(env, includeImages), env.getsize).value), 0, 0, "")
              && thumbUs == [] && hashUs == [] && groupUs == []
              && SameResults(st, st0)
    ensures FirstError(ScanFiles(env, includeImages), env.getsize).None? ==>
              && PathsOfInfos(st.photos) == ScanFiles(env, includeImages)
              && forall i :: 0 <= i < |st.photos| ==>
                   st.photos[i] == InfoOf(ScanFiles(env, includeImages)[i],
                                          env.getsize(ScanFiles(env, includeImages)[i]).value, true, env.exif)
    ensures FirstError(ScanFiles(env, includeImages), env.getsize).None? &&
            FirstError(ScanFiles(env, includeImages), env.extract).Some? ==>
              && last == Update(Error, MsgFailed(FirstError(ScanFiles(env, includeImages), env.extract).value), 0, 0, "")
              && hashUs == [] && groupUs == []
              && st.photoHashes == st0.photoHashes && st.groups == st0.groups
              && st.edited == st0.edited && st.flagged == st0.flagged && st.recommendations == st0.recommendations
    ensures |ScanFiles(env, includeImages)| == 0 ==>
              && last == Update(Done, MsgNoPhotos, 0, 0, "")
              && thumbUs == [] && hashUs == [] && groupUs == []
              && st.photoHashes == st0.photoHashes && st.groups == st0.groups
              && st.edited == st0.edited && st.flagged == st0.flagged && st.recommendations == st0.recommendations
    ensures |ScanFiles(env, includeImages)| > 0 && last.stage == Done ==>
              && last == Update(Done, MsgFinished(|st.photos|, |st.groups|), 0, 0, "")
              && |thumbUs| > 0 && |hashUs| > 0 && |groupUs| > 0
              && Analysed(st, st0.edited, st0.flagged, threshold, env)
    ensures scanUs == ScanTrace(ScanFiles(env, includeImages), env.getsize)
    ensures FirstError(ScanFiles(env, includeImages), env.getsize).None? && |ScanFiles(env, includeImages)| > 0 ==>
              thumbUs == ThumbTrace(ScanFiles(env, includeImages), env.extract)
    ensures |ScanFiles(env, includeImages)| > 0 && last.stage == Done ==>
              && hashUs == HashBlock(|Thumbed(ScanFiles(env, includeImages), env.extract)|)
              && groupUs == GroupTrace(ScanFiles(env, includeImages), env)
  {
    var photos;
    photos, scanUs := ScanStep(env, includeImages);
    st := ApplyAll(st0, scanUs);
    thumbUs, hashUs, groupUs := [], [], [];
    match photos {
      case Err(e) =>
        last := Update(Error, MsgFailed(e), 0, 0, "");
        st := ApplyAll(st, [last]);
      case Ok(ps) =>
        st, thumbUs, hashUs, groupUs, last := StoreAndProcess(st, ps, threshold, env);
    }
  }

  /** The updates of a run in the order they are made. */
  function Trace(scanUs: seq<Update>, thumbUs: seq<Update>, hashUs: seq<Update>, groupUs: seq<Update>,
                 last: Update): seq<Update>
  {
    scanUs + thumbUs + hashUs + groupUs + [last]
  }

  /** A run's stages never go back, and only its last update is final. */
  lemma RunOrdered(scanUs: seq<Update>, thumbUs: seq<Update>, hashUs: seq<Update>, groupUs: seq<Update>, last: Update)
    requires AllAt(scanUs, Scanning) && AllAt(thumbUs, Extracting) && AllAt(hashUs, Hashing) && AllAt(groupUs, Grouping)
    requires last.stage == Done || last.stage == Error
    ensures UpTo(Trace(scanUs, thumbUs, hashUs, groupUs, last), last.stage)
    ensures forall i :: 0 <= i < |Trace(scanUs, thumbUs, hashUs, groupUs, last)| - 1 ==>
              Rank(Trace(scanUs, thumbUs, hashUs, groupUs, last)[i].stage) <= Rank(Grouping)
  {
    Level(scanUs, Scanning);
    Level(thumbUs, Extracting);
    Level(hashUs, Hashing);
    Level(groupUs, Grouping);
    Level([last], last.stage);
    Concat(scanUs, Scanning, thumbUs, Extracting);
    Concat(scanUs + thumbUs, Extracting, hashUs, Hashing);
    Concat(scanUs + thumbUs + hashUs, Hashing, groupUs, Grouping);
    Concat(scanUs + thumbUs + hashUs + groupUs, Grouping, [last], last.stage);
  }

  // ---------------------------------------------------------------------------
  // GET /groups and GET /recommendations
  // ---------------------------------------------------------------------------

  /** A photo of a group as `/groups` shows it. */
  datatype PhotoView = PhotoView(path: string, hash: string, size: int,
                                 isEdited: bool, isFlagged: bool, rating: int, pick: int)

  /** `PhotoGroup.to_dict` with its photos annotated. */
  datatype GroupView = GroupView(groupId: nat, count: nat, totalSize: int, photos: seq<PhotoView>)

  /** The three keys a photo is looked up under: its path, the normalised path
      (`normpath`, `os.path.normpath`) and its file name. */
  function Aliases(path: string, normpath: string -> string): (keys: seq<string>)
    ensures |keys| == 3 && keys[0] == path && keys[1] == normpath(path) && keys[2] == Basename(path)
  {
    [path, normpath(path), Basename(path)]
  }

  /** The entry found by trying the keys in order, as the chain of `flagged.get`
      calls joined by `or` finds it (a stored entry is a non-empty dict, so never
      skipped). */
  function FirstFound(keys: seq<string>, flagged: map<string, XmpInfo>): (r: Option<XmpInfo>)
    ensures r.None? <==> forall i :: 0 <= i < |keys| ==> keys[i] !in flagged
    ensures r.Some? ==> exists i :: 0 <= i < |keys| && keys[i] in flagged && r.value == flagged[keys[i]] &&
                                   forall j :: 0 <= j < i ==> keys[j] !in flagged
  {
    if |keys| == 0 then None
    else if keys[0] in flagged then Some(flagged[keys[0]])
    else
      var r := FirstFound(keys[1..], flagged);
      assert forall j :: 1 <= j < |keys| ==> keys[j] == keys[1..][j - 1];
      r
  }

  /** The annotations `get_groups` writes on one photo. */
  function Annotate(e: PhotoEntry, edited: set<string>, flagged: map<string, XmpInfo>,
                    normpath: string -> string): (v: PhotoView)
    ensures v.path == e.path && v.hash == e.hash && v.size == e.size
    ensures v.isEdited <==> exists i :: 0 <= i < 3 && Aliases(e.path, normpath)[i] in edited
    ensures v.isFlagged <==> exists i :: 0 <= i < 3 && Aliases(e.path, normpath)[i] in flagged
    ensures v.isFlagged ==> FirstFound(Aliases(e.path, normpath), flagged) == Some(XmpInfo(v.rating, v.pick, FirstFound(Aliases(e.path, normpath), flagged).value.colorLabel))
    ensures !v.isFlagged ==> v.rating == 0 && v.pick == 0
  {
    var keys := Aliases(e.path, normpath);
    var info := FirstFound(keys, flagged);
    PhotoView(e.path, e.hash, e.size,
              keys[0] in edited || keys[1] in edited || keys[2] in edited,
              keys[0] in flagged || keys[1] in flagged || keys[2] in flagged,
              if info.Some? then info.value.rating else 0,
              if info.Some? then info.value.pick else 0)
  }

  /** The sum of the sizes of the photos shown. */
  function ViewSizes(vs: seq<PhotoView>): int
  {
    if |vs| == 0 then 0 else ViewSizes(vs[..|vs| - 1]) + vs[|vs| - 1].size
  }

  /** Photos shown with their own sizes add up to the same total. */
  lemma {:induction false} ViewSizesOf(es: seq<PhotoEntry>, vs: seq<PhotoView>)
    requires |vs| == |es| && forall i :: 0 <= i < |es| ==> vs[i].size == es[i].size
    ensures ViewSizes(vs) == SumSizes(es)
  {
    if |es| > 0 {
      ViewSizesOf(es[..|es| - 1], vs[..|vs| - 1]);
    }
  }

  /** One group as `/groups` returns it: its id, each of its photos annotated, in
      order, and a count and total size that agree with the photos shown. */
  function ViewGroup(g: PhotoGroup, edited: set<string>, flagged: map<string, XmpInfo>,
                     normpath: string -> string): (v: GroupView)
    ensures v.groupId == g.groupId
    ensures v.count == |v.photos| == Count(g) && v.totalSize == ViewSizes(v.photos)
    ensures forall i :: 0 <= i < |g.photos| ==> v.photos[i] == Annotate(g.photos[i], edited, flagged, normpath)
  {
    var photos := seq(|g.photos|, i requires 0 <= i < |g.photos| => Annotate(g.photos[i], edited, flagged, normpath));
    ViewSizesOf(g.photos, photos);
    GroupView(g.groupId, Count(g), TotalSize(g), photos)
  }

  /** `get_groups`: refused until the scan is done; then every stored group, in
      order, with its photos annotated, and the number of groups. */
  function GetGroups(st: ScanState, normpath: string -> string): (r: Result<(seq<GroupView>, nat), HttpError>)
    ensures st.status != Done <==> r == Err(HttpError(400, DetailNotDone))
    ensures r.Ok? ==>
              && r.value.1 == |r.value.0| == |st.groups|
              && forall k :: 0 <= k < |st.groups| ==>
                   r.value.0[k] == ViewGroup(st.groups[k], st.edited, st.flagged, normpath)
  {
    if st.status != Done then Err(HttpError(400, DetailNotDone))
    else
      var views := seq(|st.groups|, k requires 0 <= k < |st.groups| =>
                       ViewGroup(st.groups[k], st.edited, st.flagged, normpath));
      Ok((views, |views|))
  }

  /** A photo whose own path was found edited or flagged is shown so, whatever the
      other two keys give; a photo none of whose keys is flagged shows rating and
      pick 0. */
  lemma ShownByPath(e: PhotoEntry, edited: set<string>, flagged: map<string, XmpInfo>, normpath: string -> string)
    ensures e.path in edited ==> Annotate(e, edited, flagged, normpath).isEdited
    ensures e.path in flagged ==>
              && Annotate(e, edited, flagged, normpath).isFlagged
              && Annotate(e, edited, flagged, normpath).rating == flagged[e.path].rating
              && Annotate(e, edited, flagged, normpath).pick == flagged[e.path].pick
  {
    var keys := Aliases(e.path, normpath);
    if e.path in flagged {
      assert keys[0] in flagged;
      assert FirstFound(keys, flagged) == Some(flagged[e.path]);
    }
  }

  /** After a completed run with edit detection, every grouped photo that has a
      sidecar is shown as edited, and one whose sidecar flags it is shown flagged
      with the sidecar's rating and pick. */
  lemma SidecarShown(st: ScanState, edited0: set<string>, flagged0: map<string, XmpInfo>, threshold: int,
                     env: Env, normpath: string -> string, e: PhotoEntry)
    requires Analysed(st, edited0, flagged0, threshold, env) && env.lightroomFault.None?
    requires e.path in PathsOfInfos(st.photos) && SidecarOf(e.path, env.fileExists).Some?
    ensures Annotate(e, st.edited, st.flagged, normpath).isEdited
    ensures FlagsPhoto(env.read(SidecarOf(e.path, env.fileExists).value)) ==>
              && Annotate(e, st.edited, st.flagged, normpath).isFlagged
              && Annotate(e, st.edited, st.flagged, normpath).pick ==
                 ParseXmp(env.read(SidecarOf(e.path, env.fileExists).value)).pick
  {
    ShownByPath(e, st.edited, st.flagged, normpath);
  }

  /** `get_recommendations`: refused until the scan is done, 404 when nothing was
      recommended (a scan that found no photos), else the stored result. */
  function GetRecommendations(st: ScanState): (r: Result<Recommendations, HttpError>)
    ensures st.status != Done <==> r == Err(HttpError(400, DetailNotDone))
    ensures st.status == Done && st.recommendations.None? <==> r == Err(HttpError(404, DetailNoRecommendations))
    ensures r.Ok? <==> st.status == Done && st.recommendations.Some?
    ensures r.Ok? ==> r.value == st.recommendations.value
  {
    if st.status != Done then Err(HttpError(400, DetailNotDone))
    else if st.recommendations.None? then Err(HttpError(404, DetailNoRecommendations))
    else Ok(st.recommendations.value)
  }

  /** Neither query answers between a start or a reset and the end of the run. */
  lemma QueriesWaitForRun(st: ScanState, directory: string, lrcatPath: Option<string>, normpath: string -> string)
    ensures GetGroups(ResetScan(st), normpath).Err? && GetRecommendations(ResetScan(st)).Err?
    ensures StartScan(st, directory, lrcatPath, true).Ok? ==>
              && GetGroups(StartScan(st, directory, lrcatPath, true).value, normpath).Err?
              && GetRecommendations(StartScan(st, directory, lrcatPath, true).value).Err?
  {
  }

  // ---------------------------------------------------------------------------
  // POST /delete
  // ---------------------------------------------------------------------------

  /** The response of `delete_photos`. */
  datatype DeleteResult = DeleteResult(deletedCount: nat, errorCount: nat, deleted: seq<string>,
                                       errors: seq<(string, string)>)

  /** `p` names something inside the directory `d`: `d` and a slash begin `p`. */
  predicate Inside(p: string, d: string)
  {
    |d| + 1 <= |p| && p[..|d| + 1] == d + "/"
  }

  /** Trashing `d` takes `p` along: `d` is `p`, or a directory holding it. */
  predicate Takes(d: string, p: string)
  {
    d == p || Inside(p, d)
  }

  /** `p` went to the trash with one of `trashed`: it is one of them, or it lies
      inside one of them, since trashing a directory takes its contents along. */
  predicate Gone(p: string, trashed: seq<string>)
    decreases |trashed|
  {
    |trashed| > 0 && (Takes(trashed[|trashed| - 1], p) || Gone(p, trashed[..|trashed| - 1]))
  }

  /** `Gone` read as a search: some trashed entry takes `p` along. */
  lemma {:induction false} GoneMeans(p: string, trashed: seq<string>)
    ensures Gone(p, trashed) <==> exists k :: 0 <= k < |trashed| && Takes(trashed[k], p)
    decreases |trashed|
  {
    if |trashed| > 0 {
      var init := trashed[..|trashed| - 1];
      GoneMeans(p, init);
      if exists k :: 0 <= k < |trashed| && Takes(trashed[k], p) {
        var k :| 0 <= k < |trashed| && Takes(trashed[k], p);
        if k < |init| {
          assert init[k] == trashed[k];
        }
      }
      if exists k :: 0 <= k < |init| && Takes(init[k], p) {
        var k :| 0 <= k < |init| && Takes(init[k], p);
        assert trashed[k] == init[k];
      }
    }
  }

  /** `os.path.exists(path)` when the loop reaches `path`: the file was there when
      the request came (`present`) and no earlier entry of the request sent it,
      or a directory holding it, to the trash. */
  predicate StillThere(p: string, present: string -> bool, trashed: seq<string>)
  {
    present(p) && !Gone(p, trashed)
  }

  /** Trashing more paths keeps gone what was gone. */
  lemma GoneGrows(p: string, trashed: seq<string>, more: seq<string>)
    requires Gone(p, trashed)
    ensures Gone(p, trashed + more)
  {
    GoneMeans(p, trashed);
    GoneMeans(p, trashed + more);
    var k :| 0 <= k < |trashed| && Takes(trashed[k], p);
    assert (trashed + more)[k] == trashed[k];
  }

  /** A path is gone with itself once it is trashed. */
  lemma GoneLast(p: string, trashed: seq<string>)
    ensures Gone(p, trashed + [p])
  {
    assert (trashed + [p])[|trashed|] == p;
  }

  /** `delete_photos`: each path that still exists is sent to the trash (`trash`,
      which returns the text of the exception `send2trash` raises, if any, and
      removes the file otherwise); a missing file or a failed trash is reported as
      an error for that path. */
  function DeletePhotos(paths: seq<string>, present: string -> bool, trash: string -> Option<string>): (r: DeleteResult)
    ensures r.deletedCount == |r.deleted| && r.errorCount == |r.errors|
    ensures r.deletedCount + r.errorCount == |paths|
  {
    if |paths| == 0 then DeleteResult(0, 0, [], [])
    else
      var p := paths[|paths| - 1];
      var r := DeletePhotos(paths[..|paths| - 1], present, trash);
      if StillThere(p, present, r.deleted) && trash(p).None? then
        DeleteResult(r.deletedCount + 1, r.errorCount, r.deleted + [p], r.errors)
      else
        DeleteResult(r.deletedCount, r.errorCount + 1, r.deleted,
                     r.errors + [(p, TrashError(p, StillThere(p, present, r.deleted), trash))])
  }

  /** The error text reported for a path that was not deleted: the exception's text
      when the file existed, or the missing-file detail. */
  function TrashError(p: string, there: bool, trash: string -> Option<string>): string
  {
    if there && trash(p).Some? then trash(p).value else DetailMissingFile
  }

  /** One more path adds it to the deleted paths or to the errors. */
  lemma DeleteSnoc(paths: seq<string>, present: string -> bool, trash: string -> Option<string>)
    requires |paths| > 0
    ensures var p := paths[|paths| - 1];
            var r := DeletePhotos(paths[..|paths| - 1], present, trash);
            var r' := DeletePhotos(paths, present, trash);
            if StillThere(p, present, r.deleted) && trash(p).None? then r'.deleted == r.deleted + [p] && r'.errors == r.errors
            else r'.deleted == r.deleted && r'.errors == r.errors + [(p, TrashError(p, StillThere(p, present, r.deleted), trash))]
  {
  }

  /** The deleted paths and the paths of the errors each keep the request's order. */
  lemma {:induction false} DeleteInOrder(paths: seq<string>, present: string -> bool, trash: string -> Option<string>)
    ensures IsSubseq(DeletePhotos(paths, present, trash).deleted, paths)
    ensures IsSubseq(KeysOf(DeletePhotos(paths, present, trash).errors), paths)
  {
    if |paths| > 0 {
      var init := paths[..|paths| - 1];
      var p := paths[|paths| - 1];
      var r := DeletePhotos(init, present, trash);
      DeleteInOrder(init, present, trash);
      DeleteSnoc(paths, present, trash);
      assert paths == init + [p];
      if StillThere(p, present, r.deleted) && trash(p).None? {
        SubseqSnoc(r.deleted, init, p);
        SubseqExtend(KeysOf(r.errors), init, p);
      } else {
        SubseqExtend(r.deleted, init, p);
        KeysOfAppend(r.errors, p, TrashError(p, StillThere(p, present, r.deleted), trash));
        SubseqSnoc(KeysOf(r.errors), init, p);
      }
    }
  }

  /** A deleted path was present and trashed without an exception, no path is
      deleted twice, and no deleted path lies inside a directory deleted before
      it. An error carries either the exception's text, for a file that was
      present and that the trash refused, or the missing-file detail, for a file
      that was absent or that went to the trash with an entry of the request
      (itself or a directory holding it); a file that was present, that the trash
      refuses and that no deleted entry took along carries the exception's text. */
  lemma {:induction false} DeleteOutcomes(paths: seq<string>, present: string -> bool, trash: string -> Option<string>)
    ensures var deleted := DeletePhotos(paths, present, trash).deleted;
            && NoDup(deleted)
            && (forall p :: p in deleted ==> present(p) && trash(p).None?)
            && forall i, j :: 0 <= i < j < |deleted| ==> !Inside(deleted[j], deleted[i])
    ensures var r := DeletePhotos(paths, present, trash);
            forall i :: 0 <= i < |r.errors| ==> ErrorExplained(r.errors[i], present, trash, r.deleted)
  {
    if |paths| > 0 {
      var init := paths[..|paths| - 1];
      var p := paths[|paths| - 1];
      DeleteOutcomes(init, present, trash);
      DeleteSnoc(paths, present, trash);
      var r := DeletePhotos(init, present, trash);
      var r' := DeletePhotos(paths, present, trash);
      if StillThere(p, present, r.deleted) && trash(p).None? {
        GoneMeans(p, r.deleted);
        NoDupSnoc(r.deleted, p);
        forall i, j | 0 <= i < j < |r'.deleted| ensures !Inside(r'.deleted[j], r'.deleted[i]) {
          if j == |r.deleted| {
            assert r'.deleted[i] == r.deleted[i];
            assert !Takes(r.deleted[i], p);
          }
        }
        forall i | 0 <= i < |r'.errors| ensures ErrorExplained(r'.errors[i], present, trash, r'.deleted) {
          ErrorStaysExplained(r.errors[i], present, trash, r.deleted, [p]);
        }
      } else {
        forall i | 0 <= i < |r'.errors| ensures ErrorExplained(r'.errors[i], present, trash, r'.deleted) {
          if i < |r.errors| {
            assert r'.errors[i] == r.errors[i];
          }
        }
      }
    }
  }

  /** What an error entry `e` of a request that deleted `deleted` can say: the
      exception's text of a present file the trash refused, or the missing-file
      detail of a file absent or gone with a deleted entry; and the exception's
      text whenever the file was present, refused, and not gone. */
  predicate ErrorExplained(e: (string, string), present: string -> bool, trash: string -> Option<string>, deleted: seq<string>)
  {
    && ((e.1 == DetailMissingFile && (present(e.0) ==> Gone(e.0, deleted)))
        || (present(e.0) && trash(e.0).Some? && e.1 == trash(e.0).value))
    && (present(e.0) && trash(e.0).Some? && !Gone(e.0, deleted) ==> e.1 == trash(e.0).value)
  }

  /** An explained error stays explained when more paths are deleted after it. */
  lemma ErrorStaysExplained(e: (string, string), present: string -> bool, trash: string -> Option<string>,
                            deleted: seq<string>, more: seq<string>)
    requires ErrorExplained(e, present, trash, deleted)
    ensures ErrorExplained(e, present, trash, deleted + more)
  {
    if present(e.0) && Gone(e.0, deleted) {
      GoneGrows(e.0, deleted, more);
    }
  }

  /** A path repeated in the request is deleted once; the second entry finds the
      file gone. */
  lemma DeleteTwice(p: string, present: string -> bool, trash: string -> Option<string>)
    requires present(p) && trash(p).None?
    ensures DeletePhotos([p, p], present, trash) == DeleteResult(1, 1, [p], [(p, DetailMissingFile)])
  {
    assert [p, p][..1] == [p];
    assert [p][..0] == [];
    assert DeletePhotos([p], present, trash) == DeleteResult(1, 0, [p], []);
    GoneLast(p, []);
  }

  /** The reports of one more path are the reports before it plus that path. */
  lemma DeleteStep(paths: seq<string>, present: string -> bool, trash: string -> Option<string>)
    requires |paths| > 0
    ensures multiset(DeletePhotos(paths, present, trash).deleted) + multiset(KeysOf(DeletePhotos(paths, present, trash).errors))
            == multiset(DeletePhotos(paths[..|paths| - 1], present, trash).deleted) +
               multiset(KeysOf(DeletePhotos(paths[..|paths| - 1], present, trash).errors)) + multiset{paths[|paths| - 1]}
  {
    var p := paths[|paths| - 1];
    var r := DeletePhotos(paths[..|paths| - 1], present, trash);
    var r' := DeletePhotos(paths, present, trash);
    DeleteSnoc(paths, present, trash);
    if !(StillThere(p, present, r.deleted) && trash(p).None?) {
      KeysOfAppend(r.errors, p, TrashError(p, StillThere(p, present, r.deleted), trash));
    }
    AppendToOne(r.deleted, KeysOf(r.errors), r'.deleted, KeysOf(r'.errors), p);
  }

  /** Every requested path is reported exactly once: the deleted paths and the
      paths of the errors together are the request, counted with multiplicity. */
  lemma {:induction false} DeletePartition(paths: seq<string>, present: string -> bool, trash: string -> Option<string>)
    ensures multiset(DeletePhotos(paths, present, trash).deleted) + multiset(KeysOf(DeletePhotos(paths, present, trash).errors))
            == multiset(paths)
  {
    if |paths| > 0 {
      var init := paths[..|paths| - 1];
      assert multiset(paths) == multiset(init) + multiset{paths[|paths| - 1]} by {
        assert paths == init + [paths[|paths| - 1]];
      }
      DeletePartition(init, present, trash);
      DeleteStep(paths, present, trash);
    }
  }

  /** A requested path is among the deleted only when it is present and the trash
      accepts it; and a requested path that is present and accepted is deleted
      unless a directory holding it was deleted already, in which case it went
      to the trash along with that directory. */
  lemma {:induction false} DeletedIff(paths: seq<string>, present: string -> bool, trash: string -> Option<string>, q: string)
    requires q in paths
    ensures q in DeletePhotos(paths, present, trash).deleted ==> present(q) && trash(q).None?
    ensures present(q) && trash(q).None? ==> Gone(q, DeletePhotos(paths, present, trash).deleted)
  {
    var init := paths[..|paths| - 1];
    var p := paths[|paths| - 1];
    var r := DeletePhotos(init, present, trash);
    var r' := DeletePhotos(paths, present, trash);
    DeleteSnoc(paths, present, trash);
    DeleteOutcomes(paths, present, trash);
    assert paths == init + [p];
    if present(q) && trash(q).None? {
      if q != p {
        assert q in init;
        DeletedIff(init, present, trash, q);
        GoneGrows(q, r.deleted, r'.deleted[|r.deleted|..]);
        assert r.deleted + r'.deleted[|r.deleted|..] == r'.deleted;
      } else if StillThere(p, present, r.deleted) {
        GoneLast(p, r.deleted);
      }
    }
  }

  /** When the loop reaches entry `i`, a path that is present and accepted by
      the trash goes to the trash there, or already went with an entry before it:
      itself, or a directory holding it. */
  lemma DeletedWhenReached(paths: seq<string>, present: string -> bool, trash: string -> Option<string>, i: int)
    requires 0 <= i < |paths| && present(paths[i]) && trash(paths[i]).None?
    ensures Gone(paths[i], DeletePhotos(paths[..i + 1], present, trash).deleted)
    ensures IsPrefix(DeletePhotos(paths[..i + 1], present, trash).deleted, DeletePhotos(paths, present, trash).deleted)
  {
    GoneAtTurn(paths, present, trash, i);
    DeletePrefix(paths, i + 1, present, trash);
  }

  /** Entry `i`, present and accepted, is gone once the loop has passed it: it went
      to the trash at its turn, or earlier with a directory holding it. */
  lemma GoneAtTurn(paths: seq<string>, present: string -> bool, trash: string -> Option<string>, i: int)
    requires 0 <= i < |paths| && present(paths[i]) && trash(paths[i]).None?
    ensures Gone(paths[i], DeletePhotos(paths[..i + 1], present, trash).deleted)
  {
    var upto := paths[..i + 1];
    var p := paths[i];
    assert upto[..i] == paths[..i] && upto[i] == p;
    var before := DeletePhotos(paths[..i], present, trash).deleted;
    DeleteSnoc(upto, present, trash);
    if StillThere(p, present, before) {
      GoneLast(p, before);
    }
  }

  /** `a` begins `b`. */
  predicate IsPrefix(a: seq<string>, b: seq<string>)
  {
    |a| <= |b| && b[..|a|] == a
  }

  /** The paths deleted over a prefix of the request begin the paths deleted over
      all of it. */
  lemma {:induction false} DeletePrefix(paths: seq<string>, j: int, present: string -> bool, trash: string -> Option<string>)
    requires 0 <= j <= |paths|
    ensures IsPrefix(DeletePhotos(paths[..j], present, trash).deleted, DeletePhotos(paths, present, trash).deleted)
    decreases |paths| - j
  {
    if j < |paths| {
      DeletePrefix(paths, j + 1, present, trash);
      assert paths[..j + 1][..j] == paths[..j];
      DeletedGrows(paths[..j + 1], present, trash);
      PrefixTrans(DeletePhotos(paths[..j], present, trash).deleted, DeletePhotos(paths[..j + 1], present, trash).deleted,
                  DeletePhotos(paths, present, trash).deleted);
    } else {
      assert paths[..j] == paths;
    }
  }

  /** One more entry only appends to the deleted paths. */
  lemma DeletedGrows(paths: seq<string>, present: string -> bool, trash: string -> Option<string>)
    requires |paths| > 0
    ensures IsPrefix(DeletePhotos(paths[..|paths| - 1], present, trash).deleted, DeletePhotos(paths, present, trash).deleted)
  {
    DeleteSnoc(paths, present, trash);
  }

  lemma PrefixTrans(a: seq<string>, b: seq<string>, c: seq<string>)
    requires IsPrefix(a, b) && IsPrefix(b, c)
    ensures IsPrefix(a, c)
  {
    assert c[..|a|] == c[..|b|][..|a|];
  }

  /** A directory and a file inside it, both present and both accepted by the
      trash: the directory goes to the trash and takes the file along, so the
      file's own entry finds it missing. */
  lemma DeleteDirectoryFirst(d: string, f: string, present: string -> bool, trash: string -> Option<string>)
    requires Inside(f, d)
    requires present(d) && trash(d).None? && present(f) && trash(f).None?
    ensures DeletePhotos([d, f], present, trash) == DeleteResult(1, 1, [d], [(f, DetailMissingFile)])
  {
    assert [d, f][..1] == [d];
    assert [d][..0] == [];
    assert DeletePhotos([d], present, trash) == DeleteResult(1, 0, [d], []);
    assert [d][0] == d;
    assert Gone(f, [d]);
  }
}

=== FILE: scanner.dfy ===
/** The directory scan (backend/core/scanner.py). The walk of the directory tree,
    file sizes and EXIF reading are passed in: `walk` is what `os.walk` yields
    (each directory with the names of its files, in visiting order), `getsize`
    is `os.path.getsize` (an `Err` when it raises) and `exif` is
    `read_exif_quick`. */
module Scanner {
  import opened Wrappers
  import opened Config
  import opened PosixPath
  import opened Seqs

  /** The extension set `scan_directory` builds from its two switches. */
  function Extensions(includeRaw: bool, includeImages: bool): (exts: set<string>)
    ensures forall e :: e in exts <==> (includeRaw && e in RawExtensions) || (includeImages && e in ImageExtensions)
  {
    (if includeRaw then RawExtensions else {}) + (if includeImages then ImageExtensions else {})
  }

  /** The test a file name has to pass: not hidden, and its extension, lower-cased,
      is selected. Only the file's own name is looked at. */
  predicate Wanted(name: string, exts: set<string>)
    ensures Wanted(name, exts) && "" !in exts ==>
              |name| > 0 && name[0] != '.' && exists i :: 0 < i < |name| && name[i] == '.'
  {
    !(|name| > 0 && name[0] == '.') && Lower(SplitExt(name).1) in exts
  }

  /** One directory visited by `os.walk`: its path and the names of its files. */
  type WalkEntry = (string, seq<string>)

  /** The files of one directory that pass the test, joined to the directory. */
  function CollectIn(root: string, names: seq<string>, exts: set<string>): (files: seq<string>)
    ensures |files| <= |names|
  {
    FilterMap(names, name => Wanted(name, exts), name => Join(root, name))
  }

  /** A path is collected from a directory exactly when it is the directory joined
      with one of its wanted names. */
  lemma CollectInMembers(root: string, names: seq<string>, exts: set<string>, p: string)
    ensures p in CollectIn(root, names, exts) <==>
            exists j :: 0 <= j < |names| && Wanted(names[j], exts) && p == Join(root, names[j])
  {
    FilterMapMembers(names, name => Wanted(name, exts), name => Join(root, name), p);
  }

  /** `all_files`: the collected paths, directory by directory in walk order. */
  function CollectFiles(walk: seq<WalkEntry>, exts: set<string>): (files: seq<string>)
    ensures forall p :: p in files <==> exists k :: 0 <= k < |walk| && p in CollectIn(walk[k].0, walk[k].1, exts)
  {
    var f := (e: WalkEntry) => CollectIn(e.0, e.1, exts);
    assert forall p :: p in FlatMap(walk, f) <==> exists k :: 0 <= k < |walk| && p in f(walk[k]) by {
      forall p
        ensures p in FlatMap(walk, f) <==> exists k :: 0 <= k < |walk| && p in f(walk[k])
      {
        FlatMapMembers(walk, f, p);
      }
    }
    FlatMap(walk, f)
  }

  /** A path is collected exactly when one of the visited directories yields it
      (see `CollectInMembers`); the directories themselves are not filtered. */
  lemma CollectFilesMembers(walk: seq<WalkEntry>, exts: set<string>, p: string)
    ensures p in CollectFiles(walk, exts) <==>
            exists k :: 0 <= k < |walk| && p in CollectIn(walk[k].0, walk[k].1, exts)
  {
    FlatMapMembers(walk, (e: WalkEntry) => CollectIn(e.0, e.1, exts), p);
  }

  /** A collected file's name is the one it was listed under, whatever its directory
      is called: a hidden directory is not skipped. */
  lemma CollectedName(root: string, name: string, exts: set<string>)
    requires '/' !in name && Wanted(name, exts)
    ensures CollectIn(root, [name], exts) == [Join(root, name)]
    ensures Basename(Join(root, name)) == name
  {
    assert [name][..0] == [];
    BasenameOfJoin(root, name);
  }

  /** What `read_exif_quick` returns: `{}` when reading raised, else the two tags as
      text (empty when missing). */
  datatype Exif = ExifFailed | ExifTags(dateTaken: string, cameraModel: string)

  /** `exif.get(key) or None`: a missing key or an empty text become `None`. */
  function NonEmpty(s: Option<string>): (r: Option<string>)
    ensures r.Some? <==> s.Some? && s.value != ""
    ensures r.Some? ==> r == s
  {
    if s.Some? && s.value != "" then s else None
  }

  function DateOf(e: Exif): Option<string>
  {
    match e
    case ExifFailed => None
    case ExifTags(d, _) => NonEmpty(Some(d))
  }

  function CameraOf(e: Exif): Option<string>
  {
    match e
    case ExifFailed => None
    case ExifTags(_, m) => NonEmpty(Some(m))
  }

  /** `PhotoInfo`. */
  datatype PhotoInfo = PhotoInfo(path: string, filename: string, size: nat,
                                 dateTaken: Option<string>, cameraModel: Option<string>)

  /** The `PhotoInfo` built for one collected file whose size could be read. */
  function InfoOf(path: string, size: nat, readExif: bool, exif: string -> Exif): (info: PhotoInfo)
    ensures info.path == path && info.filename == Basename(path) && info.size == size
    ensures info.dateTaken.Some? ==> readExif && info.dateTaken.value != ""
    ensures info.cameraModel.Some? ==> readExif && info.cameraModel.value != ""
    ensures !readExif ==> info.dateTaken.None? && info.cameraModel.None?
    ensures readExif && exif(path).ExifTags? && exif(path).dateTaken != "" ==>
              info.dateTaken == Some(exif(path).dateTaken)
    ensures readExif && exif(path).ExifTags? && exif(path).cameraModel != "" ==>
              info.cameraModel == Some(exif(path).cameraModel)
  {
    if readExif then PhotoInfo(path, Basename(path), size, DateOf(exif(path)), CameraOf(exif(path)))
    else PhotoInfo(path, Basename(path), size, None, None)
  }

  /** One call of the progress callback: `(current, total, filename)`. */
  datatype ScanEvent = ScanEvent(current: nat, total: nat, filename: string)

  /** `scan_directory` reports after files 1, 51, 101, … (`i % 50 == 0`, counting
      from 0) and after the last file. */
  const ScanReportEvery: nat := 50

  /** Whether a per-file progress callback fires after file `i` of `total` when it
      reports every `every` files: `i % every == 0 or i == total - 1`. */
  predicate Fires(i: nat, total: nat, every: nat)
    requires every > 0
  {
    i % every == 0 || i == total - 1
  }

  /** The file names of a list of paths, as the callback reports them. */
  function Names(files: seq<string>): (names: seq<string>)
    ensures |names| == |files|
    ensures forall i :: 0 <= i < |files| ==> names[i] == Basename(files[i])
  {
    seq(|files|, i requires 0 <= i < |files| => Basename(files[i]))
  }

  /** The callbacks fired while the first `n` of the files named `names` were
      processed, reporting every `every` files. */
  function ScanEvents(names: seq<string>, n: nat, every: nat): (es: seq<ScanEvent>)
    requires n <= |names| && every > 0
    ensures |es| <= n
    ensures forall k :: 0 <= k < |es| ==>
              1 <= es[k].current <= n && es[k].total == |names| && Fires(es[k].current - 1, |names|, every) &&
              es[k].filename == names[es[k].current - 1]
  {
    if n == 0 then []
    else
      var es := ScanEvents(names, n - 1, every);
      if Fires(n - 1, |names|, every) then es + [ScanEvent(n, |names|, names[n - 1])] else es
  }

  /** One more file processed adds at most its own report. */
  lemma ScanEventsStep(names: seq<string>, i: nat, every: nat)
    requires i < |names| && every > 0
    ensures ScanEvents(names, i + 1, every) ==
            ScanEvents(names, i, every) + if Fires(i, |names|, every) then [ScanEvent(i + 1, |names|, names[i])] else []
  {
  }

  /** Reports in strictly increasing order of file number. */
  predicate Increasing(es: seq<ScanEvent>)
  {
    forall k, l :: 0 <= k < l < |es| ==> es[k].current < es[l].current
  }

  /** The reports come in increasing order of file number. */
  lemma {:induction false} ScanEventsIncreasing(names: seq<string>, n: nat, every: nat)
    requires n <= |names| && every > 0
    ensures Increasing(ScanEvents(names, n, every))
  {
    if n > 0 {
      var prev := ScanEvents(names, n - 1, every);
      var es := ScanEvents(names, n, every);
      ScanEventsIncreasing(names, n - 1, every);
      if Fires(n - 1, |names|, every) {
        assert es == prev + [ScanEvent(n, |names|, names[n - 1])];
        forall k, l | 0 <= k < l < |es|
          ensures es[k].current < es[l].current
        {
          assert es[k] == prev[k];
          if l < |prev| {
            assert es[l] == prev[l];
          } else {
            assert es[l].current == n;
          }
        }
      } else {
        assert es == prev;
      }
    }
  }

  /** Every file that meets the cadence is reported. */
  lemma {:induction false} ScanEventsComplete(names: seq<string>, n: nat, i: nat, every: nat)
    requires i < n <= |names| && every > 0 && Fires(i, |names|, every)
    ensures exists k :: 0 <= k < |ScanEvents(names, n, every)| && ScanEvents(names, n, every)[k].current == i + 1
  {
    var es := ScanEvents(names, n - 1, every);
    if i < n - 1 {
      ScanEventsComplete(names, n - 1, i, every);
      var k :| 0 <= k < |es| && es[k].current == i + 1;
      assert ScanEvents(names, n, every)[k] == es[k];
    } else {
      assert ScanEvents(names, n, every)[|es|].current == n;
    }
  }

  /** For a scan that gets through, the first report is for file 1 and the last for
      the final one. */
  lemma ScanEventsEnds(names: seq<string>, every: nat)
    requires |names| > 0 && every > 0
    ensures var es := ScanEvents(names, |names|, every);
            |es| > 0 && es[0].current == 1 && es[|es| - 1].current == |names|
  {
    var es := ScanEvents(names, |names|, every);
    ScanEventsIncreasing(names, |names|, every);
    ScanEventsComplete(names, |names|, 0, every);
    ScanEventsComplete(names, |names|, |names| - 1, every);
  }

  /** What a scan of `files` yields: every file's `PhotoInfo` in order when every
      size can be read; otherwise the error of the first file whose size cannot be
      read, after the callbacks for the files before it. */
  ghost predicate ScanOutcome(files: seq<string>, readExif: bool, hasCallback: bool,
                              getsize: string -> Result<nat, string>, exif: string -> Exif,
                              photos: Result<seq<PhotoInfo>, string>, events: seq<ScanEvent>)
  {
    && (photos.Ok? <==> forall i :: 0 <= i < |files| ==> getsize(files[i]).Ok?)
    && (photos.Ok? ==>
          && |photos.value| == |files|
          && (forall i :: 0 <= i < |files| ==>
                photos.value[i] == InfoOf(files[i], getsize(files[i]).value, readExif, exif))
          && events == (if hasCallback then ScanEvents(Names(files), |files|, ScanReportEvery) else []))
    && (photos.Err? ==>
          exists n :: 0 <= n < |files| && getsize(files[n]) == Err(photos.error) &&
            (forall i :: 0 <= i < n ==> getsize(files[i]).Ok?) &&
            events == (if hasCallback then ScanEvents(Names(files), n, ScanReportEvery) else []))
  }

  /** The state of the scan loop after the first `n` files all had their size read. */
  ghost predicate ScannedPrefix(files: seq<string>, n: nat, readExif: bool, hasCallback: bool,
                                getsize: string -> Result<nat, string>, exif: string -> Exif,
                                infos: seq<PhotoInfo>, events: seq<ScanEvent>)
  {
    && n <= |files| && |infos| == n
    && (forall j :: 0 <= j < n ==> getsize(files[j]).Ok?)
    && (forall j :: 0 <= j < n ==> infos[j] == InfoOf(files[j], getsize(files[j]).value, readExif, exif))
    && events == (if hasCallback then ScanEvents(Names(files), n, ScanReportEvery) else [])
  }

  /** One more file whose size can be read extends the prefix by its `PhotoInfo` and
      its report, if one is due. */
  lemma ScannedStep(files: seq<string>, n: nat, readExif: bool, hasCallback: bool,
                    getsize: string -> Result<nat, string>, exif: string -> Exif,
                    infos: seq<PhotoInfo>, events: seq<ScanEvent>)
    requires ScannedPrefix(files, n, readExif, hasCallback, getsize, exif, infos, events)
    requires n < |files| && getsize(files[n]).Ok?
    ensures var info := InfoOf(files[n], getsize(files[n]).value, readExif, exif);
            ScannedPrefix(files, n + 1, readExif, hasCallback, getsize, exif, infos + [info],
                          events + if hasCallback && Fires(n, |files|, ScanReportEvery)
                                   then [ScanEvent(n + 1, |files|, info.filename)] else [])
  {
    ScanEventsStep(Names(files), n, ScanReportEvery);
  }

  /** A file whose size cannot be read ends the scan with its error. */
  lemma ScannedStops(files: seq<string>, n: nat, readExif: bool, hasCallback: bool,
                     getsize: string -> Result<nat, string>, exif: string -> Exif,
                     infos: seq<PhotoInfo>, events: seq<ScanEvent>)
    requires ScannedPrefix(files, n, readExif, hasCallback, getsize, exif, infos, events)
    requires n < |files| && getsize(files[n]).Err?
    ensures ScanOutcome(files, readExif, hasCallback, getsize, exif, Err(getsize(files[n]).error), events)
  {
  }

  /** A prefix covering every file is the whole scan. */
  lemma ScannedAll(files: seq<string>, readExif: bool, hasCallback: bool,
                   getsize: string -> Result<nat, string>, exif: string -> Exif,
                   infos: seq<PhotoInfo>, events: seq<ScanEvent>)
    requires ScannedPrefix(files, |files|, readExif, hasCallback, getsize, exif, infos, events)
    ensures ScanOutcome(files, readExif, hasCallback, getsize, exif, Ok(infos), events)
  {
  }

  /** `scan_directory`. `hasCallback` says whether a progress callback was passed;
      the callbacks it receives are returned as `events`. */
  method ScanDirectory(walk: seq<WalkEntry>, includeRaw: bool, includeImages: bool, readExif: bool,
                       hasCallback: bool, getsize: string -> Result<nat, string>, exif: string -> Exif)
    returns (photos: Result<seq<PhotoInfo>, string>, events: seq<ScanEvent>)
    ensures ScanOutcome(CollectFiles(walk, Extensions(includeRaw, includeImages)),
                        readExif, hasCallback, getsize, exif, photos, events)
  {
    photos, events := ScanFileList(CollectFiles(walk, Extensions(includeRaw, includeImages)),
                                   readExif, hasCallback, getsize, exif);
  }

  /** The loop of `scan_directory` over the collected files. */
  method ScanFileList(files: seq<string>, readExif: bool, hasCallback: bool,
                      getsize: string -> Result<nat, string>, exif: string -> Exif)
    returns (photos: Result<seq<PhotoInfo>, string>, events: seq<ScanEvent>)
    ensures ScanOutcome(files, readExif, hasCallback, getsize, exif, photos, events)
  {
    var total := |files|;
    var infos: seq<PhotoInfo> := [];
    events := [];
    for i := 0 to total
      invariant ScannedPrefix(files, i, readExif, hasCallback, getsize, exif, infos, events)
    {
      var filepath := files[i];
      match getsize(filepath) {
        case Err(e) =>
          ScannedStops(files, i, readExif, hasCallback, getsize, exif, infos, events);
          photos := Err(e);
          return;
        case Ok(size) =>
          var info := InfoOf(filepath, size, readExif, exif);
          ScannedStep(files, i, readExif, hasCallback, getsize, exif, infos, events);
          infos := infos + [info];
          if hasCallback && Fires(i, total, ScanReportEvery) {
            events := events + [ScanEvent(i + 1, total, info.filename)];
          }
      }
    }
    ScannedAll(files, readExif, hasCallback, getsize, exif, infos, events);
    photos := Ok(infos);
  }
}

=== FILE: seqs.dfy ===
/** Small facts about sequences that several components rely on. */
module Seqs {

  /** No element occurs twice. */
  ghost predicate NoDup<T>(s: seq<T>)
  {
    forall i, j :: 0 <= i < j < |s| ==> s[i] != s[j]
  }

  /** Appending an element not yet present keeps the elements distinct. */
  lemma NoDupSnoc<T>(s: seq<T>, x: T)
    requires NoDup(s) && x !in s
    ensures NoDup(s + [x])
  {
    var s' := s + [x];
    forall i, j | 0 <= i < j < |s'|
      ensures s'[i] != s'[j]
    {
      assert s'[i] == s[i];
    }
  }

  /** Appending an element to one of two sequences adds it to their joint multiset. */
  lemma AppendToOne<T>(a: seq<T>, b: seq<T>, a': seq<T>, b': seq<T>, x: T)
    requires (a' == a + [x] && b' == b) || (a' == a && b' == b + [x])
    ensures multiset(a') + multiset(b') == multiset(a) + multiset(b) + multiset{x}
  {
  }

  /** `xs` is obtained from `ys` by deleting elements, keeping the order of the rest. */
  ghost predicate IsSubseq<T>(xs: seq<T>, ys: seq<T>)
    decreases |ys|
  {
    if |xs| == 0 then true
    else if |ys| == 0 then false
    else if xs[0] == ys[0] then IsSubseq(xs[1..], ys[1..])
    else IsSubseq(xs, ys[1..])
  }

  /** The set of elements of a sequence has no more elements than the sequence. */
  lemma {:induction false} ElemsBound<T>(s: seq<T>)
    ensures |set x | x in s| <= |s|
  {
    if |s| > 0 {
      ElemsBound(s[1..]);
      var rest := set x | x in s[1..];
      assert (set x | x in s) == rest + {s[0]};
    }
  }

  /** A sequence without duplicates has as many elements as its set of elements. */
  lemma {:induction false} NoDupCard<T>(s: seq<T>)
    requires NoDup(s)
    ensures |set x | x in s| == |s|
  {
    if |s| > 0 {
      assert NoDup(s[1..]) by {
        forall i, j | 0 <= i < j < |s[1..]| ensures s[1..][i] != s[1..][j] {
          assert s[1..][i] == s[i + 1] && s[1..][j] == s[j + 1];
        }
      }
      NoDupCard(s[1..]);
      assert s[0] !in s[1..] by {
        forall i | 0 <= i < |s[1..]| ensures s[1..][i] != s[0] {
          assert s[1..][i] == s[i + 1];
        }
      }
      assert (set x | x in s) == (set x | x in s[1..]) + {s[0]} by {
        assert s == [s[0]] + s[1..];
      }
    }
  }

  /** Two duplicate-free sequences with the same elements have the same length. */
  lemma SameElemsLength<T>(a: seq<T>, b: seq<T>)
    requires NoDup(a) && NoDup(b) && forall x :: x in a <==> x in b
    ensures |a| == |b|
  {
    NoDupCard(a);
    NoDupCard(b);
    assert (set x | x in a) == (set x | x in b);
  }

  /** A subset is no larger than its superset. */
  lemma SubsetBound<T>(a: set<T>, b: set<T>)
    requires a <= b
    ensures |a| <= |b|
  {
    assert b == a + (b - a);
  }

  /** Appending one element at the end of a subsequence of a prefix. */
  lemma {:induction false} SubseqSnoc<T>(xs: seq<T>, ys: seq<T>, x: T)
    requires IsSubseq(xs, ys)
    ensures IsSubseq(xs + [x], ys + [x])
    decreases |ys|
  {
    if |xs| == 0 {
      assert xs + [x] == [x];
      SubseqSingleton(ys, x);
    } else {
      assert |ys| > 0;
      if xs[0] == ys[0] {
        assert (xs + [x])[1..] == xs[1..] + [x];
        assert (ys + [x])[1..] == ys[1..] + [x];
        SubseqSnoc(xs[1..], ys[1..], x);
      } else {
        assert (ys + [x])[1..] == ys[1..] + [x];
        SubseqSnoc(xs, ys[1..], x);
      }
    }
  }

  /** A one-element sequence is a subsequence of anything that ends with it. */
  lemma {:induction false} SubseqSingleton<T>(ys: seq<T>, x: T)
    ensures IsSubseq([x], ys + [x])
    decreases |ys|
  {
    if |ys| > 0 {
      assert (ys + [x])[1..] == ys[1..] + [x];
      if ys[0] != x {
        SubseqSingleton(ys[1..], x);
      } else {
        assert IsSubseq([x][1..], (ys + [x])[1..]);
      }
    }
  }

  /** A subsequence of a prefix stays one when the prefix grows. */
  lemma {:induction false} SubseqExtend<T>(xs: seq<T>, ys: seq<T>, x: T)
    requires IsSubseq(xs, ys)
    ensures IsSubseq(xs, ys + [x])
    decreases |ys|
  {
    if |xs| > 0 {
      assert |ys| > 0;
      assert (ys + [x])[1..] == ys[1..] + [x];
      if xs[0] == ys[0] {
        SubseqExtend(xs[1..], ys[1..], x);
      } else {
        SubseqExtend(xs, ys[1..], x);
      }
    }
  }

  /** The first element of a subsequence, alone, is a subsequence. */
  lemma {:induction false} SubseqHead<T>(xs: seq<T>, ys: seq<T>)
    requires IsSubseq(xs, ys) && |xs| > 0
    ensures IsSubseq([xs[0]], ys)
    decreases |ys|
  {
    if xs[0] != ys[0] {
      SubseqHead(xs, ys[1..]);
    }
  }

  /** Dropping the first element of a subsequence leaves a subsequence. */
  lemma {:induction false} SubseqTail<T>(xs: seq<T>, ys: seq<T>)
    requires IsSubseq(xs, ys) && |xs| > 0
    ensures IsSubseq(xs[1..], ys)
    decreases |ys|, 1
  {
    if xs[0] == ys[0] {
      SubseqCons(xs[1..], ys);
    } else {
      SubseqTail(xs, ys[1..]);
      SubseqCons(xs[1..], ys);
    }
  }

  /** A subsequence of the tail is a subsequence of the whole. */
  lemma {:induction false} SubseqCons<T>(xs: seq<T>, ys: seq<T>)
    requires |ys| > 0 && IsSubseq(xs, ys[1..])
    ensures IsSubseq(xs, ys)
    decreases |ys|, 0
  {
    if |xs| > 0 && xs[0] == ys[0] {
      SubseqTail(xs, ys[1..]);
    }
  }

  /** No duplicates means every element occurs at most once. */
  lemma {:induction false} NoDupMultiplicity<T>(s: seq<T>)
    ensures NoDup(s) <==> forall x :: multiset(s)[x] <= 1
  {
    if |s| > 0 {
      NoDupMultiplicity(s[1..]);
      assert s == [s[0]] + s[1..];
      assert multiset(s) == multiset{s[0]} + multiset(s[1..]);
      if NoDup(s) {
        assert NoDup(s[1..]);
        assert s[0] !in s[1..];
      }
      if forall x :: multiset(s)[x] <= 1 {
        forall x ensures multiset(s[1..])[x] <= 1 {
          assert multiset(s)[x] <= 1;
        }
        assert multiset(s)[s[0]] <= 1;
        assert multiset(s[1..])[s[0]] == 0;
        forall i, j | 0 <= i < j < |s|
          ensures s[i] != s[j]
        {
          if i > 0 {
            assert s[i] == s[1..][i - 1] && s[j] == s[1..][j - 1];
          } else {
            assert s[j] in s[1..];
          }
        }
      }
    }
  }

  /** A permutation of a duplicate-free sequence is duplicate-free. */
  lemma NoDupPerm<T>(a: seq<T>, b: seq<T>)
    requires multiset(a) == multiset(b) && NoDup(a)
    ensures NoDup(b)
  {
    NoDupMultiplicity(a);
    NoDupMultiplicity(b);
  }

  /** A subsequence holds only elements of the sequence. */
  lemma {:induction false} SubseqElems<T>(xs: seq<T>, ys: seq<T>)
    requires IsSubseq(xs, ys)
    ensures forall x :: x in xs ==> x in ys
    decreases |ys|
  {
    if |xs| > 0 {
      if xs[0] == ys[0] {
        SubseqElems(xs[1..], ys[1..]);
        assert xs == [xs[0]] + xs[1..];
      } else {
        SubseqElems(xs, ys[1..]);
      }
    }
  }

  /** A subsequence of a duplicate-free sequence is duplicate-free. */
  lemma {:induction false} SubseqNoDup<T>(xs: seq<T>, ys: seq<T>)
    requires IsSubseq(xs, ys) && NoDup(ys)
    ensures NoDup(xs)
    decreases |ys|
  {
    if |xs| > 0 {
      if xs[0] == ys[0] {
        SubseqNoDup(xs[1..], ys[1..]);
        SubseqElems(xs[1..], ys[1..]);
        assert ys[0] !in ys[1..];
        forall i, j | 0 <= i < j < |xs|
          ensures xs[i] != xs[j]
        {
          if i == 0 {
            assert xs[j] == xs[1..][j - 1];
          } else {
            assert xs[i] == xs[1..][i - 1] && xs[j] == xs[1..][j - 1];
          }
        }
      } else {
        SubseqNoDup(xs, ys[1..]);
      }
    }
  }

  /** The images under `f` of the elements that pass `keep`, in order. */
  function FilterMap<T, U>(xs: seq<T>, keep: T -> bool, f: T -> U): (ys: seq<U>)
    ensures |ys| <= |xs|
  {
    if |xs| == 0 then []
    else
      var ys := FilterMap(xs[..|xs| - 1], keep, f);
      if keep(xs[|xs| - 1]) then ys + [f(xs[|xs| - 1])] else ys
  }

  /** An element is selected exactly when it is the image of a kept element. */
  lemma {:induction false} FilterMapMembers<T, U>(xs: seq<T>, keep: T -> bool, f: T -> U, y: U)
    ensures y in FilterMap(xs, keep, f) <==> exists j :: 0 <= j < |xs| && keep(xs[j]) && y == f(xs[j])
  {
    if |xs| > 0 {
      var init := xs[..|xs| - 1];
      FilterMapMembers(init, keep, f, y);
      if y in FilterMap(xs, keep, f) && y in FilterMap(init, keep, f) {
        var j :| 0 <= j < |init| && keep(init[j]) && y == f(init[j]);
        assert xs[j] == init[j];
      }
      if exists j :: 0 <= j < |xs| && keep(xs[j]) && y == f(xs[j]) {
        var j :| 0 <= j < |xs| && keep(xs[j]) && y == f(xs[j]);
        if j < |init| {
          assert init[j] == xs[j];
        }
      }
    }
  }

  /** The concatenation of `f` over `xs`, in order. */
  function FlatMap<T, U>(xs: seq<T>, f: T -> seq<U>): seq<U>
  {
    if |xs| == 0 then [] else FlatMap(xs[..|xs| - 1], f) + f(xs[|xs| - 1])
  }

  /** An element is in the concatenation exactly when one of the parts holds it. */
  lemma {:induction false} FlatMapMembers<T, U>(xs: seq<T>, f: T -> seq<U>, y: U)
    ensures y in FlatMap(xs, f) <==> exists k :: 0 <= k < |xs| && y in f(xs[k])
  {
    if |xs| > 0 {
      var init := xs[..|xs| - 1];
      FlatMapMembers(init, f, y);
      if y in FlatMap(xs, f) && y in FlatMap(init, f) {
        var k :| 0 <= k < |init| && y in f(init[k]);
        assert xs[k] == init[k];
      }
      if exists k :: 0 <= k < |xs| && y in f(xs[k]) {
        var k :| 0 <= k < |xs| && y in f(xs[k]);
        if k < |init| {
          assert init[k] == xs[k];
        }
      }
    }
  }
}

=== FILE: thumbnail.dfy ===
/** The batch loop of backend/core/thumbnail.py, as the scan pipeline uses it. Decoding
    a single thumbnail (`extract_thumbnail`: rawpy, PIL, the on-disk cache) is the
    parameter `extract`: the thumbnail's path, `None` when no preview could be
    decoded, `Err` when it raises. */
module Thumbnail {
  import opened Wrappers
  import opened Dicts
  import opened PosixPath
  import opened Scanner

  /** `extract_thumbnails_batch` reports after files 1, 21, 41, … (`i % 20 == 0`,
      counting from 0) and after the last file. */
  const ThumbReportEvery: nat := 20

  /** What a batch over `filepaths` yields: when every extraction returns, one entry
      per distinct path holding that path's thumbnail, with a report after files
      1, 21, 41, … and the last; otherwise the error of the first extraction that
      raised, after the reports of the files before it. */
  ghost predicate BatchOutcome(filepaths: seq<string>, extract: string -> Result<Option<string>, string>,
                               results: Result<seq<(string, Option<string>)>, string>, events: seq<ScanEvent>)
  {
    && (results.Ok? <==> forall i :: 0 <= i < |filepaths| ==> extract(filepaths[i]).Ok?)
    && (results.Ok? ==>
          && DistinctKeys(results.value)
          && (forall k :: k in KeysOf(results.value) <==> k in filepaths)
          && (forall k :: k in KeysOf(results.value) ==> Get(results.value, k) == Some(extract(k).value))
          && events == ScanEvents(Names(filepaths), |filepaths|, ThumbReportEvery))
    && (results.Err? ==>
          exists n :: 0 <= n < |filepaths| && extract(filepaths[n]) == Err(results.error) &&
            (forall i :: 0 <= i < n ==> extract(filepaths[i]).Ok?) &&
            events == ScanEvents(Names(filepaths), n, ThumbReportEvery))
  }

  /** The results after the first `n` extractions: one entry per distinct path among
      them, holding its thumbnail. */
  ghost predicate KeptPrefix(filepaths: seq<string>, n: nat, extract: string -> Result<Option<string>, string>,
                             results: seq<(string, Option<string>)>)
    requires n <= |filepaths|
  {
    && DistinctKeys(results)
    && (forall k :: k in KeysOf(results) <==> exists j :: 0 <= j < n && filepaths[j] == k)
    && (forall k :: k in KeysOf(results) ==> extract(k).Ok? && Get(results, k) == Some(extract(k).value))
  }

  /** The state of the loop after the first `n` extractions returned. */
  ghost predicate ExtractedPrefix(filepaths: seq<string>, n: nat, extract: string -> Result<Option<string>, string>,
                                  results: seq<(string, Option<string>)>, events: seq<ScanEvent>)
  {
    && n <= |filepaths|
    && (forall j :: 0 <= j < n ==> extract(filepaths[j]).Ok?)
    && KeptPrefix(filepaths, n, extract, results)
    && events == ScanEvents(Names(filepaths), n, ThumbReportEvery)
  }

  lemma KeptStep(filepaths: seq<string>, n: nat, extract: string -> Result<Option<string>, string>,
                 results: seq<(string, Option<string>)>)
    requires n < |filepaths| && KeptPrefix(filepaths, n, extract, results)
    requires extract(filepaths[n]).Ok?
    ensures KeptPrefix(filepaths, n + 1, extract, Put(results, filepaths[n], extract(filepaths[n]).value))
  {
    var fp := filepaths[n];
    var r := Put(results, fp, extract(fp).value);
    PutDistinct(results, fp, extract(fp).value);
    forall k | k in KeysOf(r)
      ensures extract(k).Ok? && Get(r, k) == Some(extract(k).value)
    {
      if k != fp {
        assert k in KeysOf(results);
      }
    }
    forall k
      ensures k in KeysOf(r) <==> exists j :: 0 <= j < n + 1 && filepaths[j] == k
    {
      if k == fp {
        assert filepaths[n] == k;
      }
    }
  }

  lemma ExtractedStep(filepaths: seq<string>, n: nat, extract: string -> Result<Option<string>, string>,
                      results: seq<(string, Option<string>)>, events: seq<ScanEvent>)
    requires ExtractedPrefix(filepaths, n, extract, results, events)
    requires n < |filepaths| && extract(filepaths[n]).Ok?
    ensures ExtractedPrefix(filepaths, n + 1, extract, Put(results, filepaths[n], extract(filepaths[n]).value),
                            events + if Fires(n, |filepaths|, ThumbReportEvery)
                                     then [ScanEvent(n + 1, |filepaths|, Names(filepaths)[n])] else [])
  {
    KeptStep(filepaths, n, extract, results);
    ScanEventsStep(Names(filepaths), n, ThumbReportEvery);
  }

  lemma ExtractedStops(filepaths: seq<string>, n: nat, extract: string -> Result<Option<string>, string>,
                       results: seq<(string, Option<string>)>, events: seq<ScanEvent>)
    requires ExtractedPrefix(filepaths, n, extract, results, events)
    requires n < |filepaths| && extract(filepaths[n]).Err?
    ensures BatchOutcome(filepaths, extract, Err(extract(filepaths[n]).error), events)
  {
  }

  lemma ExtractedAll(filepaths: seq<string>, extract: string -> Result<Option<string>, string>,
                     results: seq<(string, Option<string>)>, events: seq<ScanEvent>)
    requires ExtractedPrefix(filepaths, |filepaths|, extract, results, events)
    ensures BatchOutcome(filepaths, extract, Ok(results), events)
  {
    forall k | k in filepaths
      ensures k in KeysOf(results)
    {
      var j :| 0 <= j < |filepaths| && filepaths[j] == k;
    }
  }

  /** `extract_thumbnails_batch` with a progress callback, as the scan pipeline
      calls it; the callbacks are returned as `events`. */
  method ExtractThumbnailsBatch(filepaths: seq<string>, extract: string -> Result<Option<string>, string>)
    returns (results: Result<seq<(string, Option<string>)>, string>, events: seq<ScanEvent>)
    ensures BatchOutcome(filepaths, extract, results, events)
  {
    var total := |filepaths|;
    var acc: seq<(string, Option<string>)> := [];
    events := [];
    for i := 0 to total
      invariant ExtractedPrefix(filepaths, i, extract, acc, events)
    {
      var fp := filepaths[i];
      match extract(fp) {
        case Err(e) =>
          ExtractedStops(filepaths, i, extract, acc, events);
          results := Err(e);
          return;
        case Ok(thumb) =>
          ExtractedStep(filepaths, i, extract, acc, events);
          acc := Put(acc, fp, thumb);
          if Fires(i, total, ThumbReportEvery) {
            assert Basename(fp) == Names(filepaths)[i];
            events := events + [ScanEvent(i + 1, total, Basename(fp))];
          }
      }
    }
    ExtractedAll(filepaths, extract, acc, events);
    results := Ok(acc);
  }
}

=== FILE: union_find.dfy ===
/** `UnionFind` of backend/core/grouper.py: a map-based disjoint-set forest with
    path compression and union by rank, whose nodes register lazily the first
    time they are looked up. Operations are pure: each returns the new forest. */
module UnionFind {

  /** The `parent` and `rank` dictionaries. */
  datatype Forest<T> = Forest(parent: map<T, T>, rank: map<T, nat>)

  /** A fresh structure, as built by `UnionFind()`. */
  function EmptyForest<T>(): (f: Forest<T>)
    ensures Valid(f)
  {
    Forest(map[], map[])
  }

  /** The structural invariant: every registered node has a registered parent and a
      rank, and a node that is not a root has a rank strictly below its parent's. */
  ghost predicate Valid<T>(f: Forest<T>)
  {
    && f.parent.Keys == f.rank.Keys
    && f.parent.Values <= f.parent.Keys
    && (forall x {:trigger f.parent[x]} :: x in f.parent && f.parent[x] != x ==> f.rank[x] < f.rank[f.parent[x]])
  }

  /** The registered nodes of strictly higher rank than `x`. */
  ghost function Above<T>(f: Forest<T>, x: T): set<T>
    requires x in f.rank
  {
    set y | y in f.rank && f.rank[y] > f.rank[x]
  }

  /** Termination measure of `find`: it shrinks at every step towards the root. */
  ghost function Height<T>(f: Forest<T>, x: T): nat
  {
    if x in f.rank then |Above(f, x)| else 0
  }

  /** Moving from a node to its parent strictly lowers the measure. */
  lemma AboveShrinks<T>(f: Forest<T>, x: T)
    requires Valid(f) && x in f.parent && f.parent[x] != x
    ensures Height(f, f.parent[x]) < Height(f, x)
  {
    var p := f.parent[x];
    assert Above(f, p) <= Above(f, x);
    assert p in Above(f, x) - Above(f, p);
    assert Above(f, x) == Above(f, p) + (Above(f, x) - Above(f, p));
  }

  /** The root of a registered node, following parents without compressing. */
  ghost function Root<T>(f: Forest<T>, x: T): T
    requires Valid(f) && x in f.parent
    decreases Height(f, x)
  {
    if f.parent[x] == x then x
    else
      AboveShrinks(f, x);
      Root(f, f.parent[x])
  }

  /** The representative `find` would return: an unregistered node is its own root. */
  ghost function RootOf<T>(f: Forest<T>, x: T): T
    requires Valid(f)
  {
    if x in f.parent then Root(f, x) else x
  }

  /** Two nodes are in the same set. */
  ghost predicate Same<T>(f: Forest<T>, a: T, b: T)
    requires Valid(f)
  {
    RootOf(f, a) == RootOf(f, b)
  }

  /** A root is registered, is its own parent, and outranks every node below it. */
  lemma {:induction false} RootFacts<T>(f: Forest<T>, x: T)
    requires Valid(f) && x in f.parent
    ensures Root(f, x) in f.parent && f.parent[Root(f, x)] == Root(f, x)
    ensures f.rank[Root(f, x)] >= f.rank[x]
    ensures f.parent[x] != x ==> f.rank[Root(f, x)] > f.rank[x]
    decreases Height(f, x)
  {
    if f.parent[x] != x {
      AboveShrinks(f, x);
      RootFacts(f, f.parent[x]);
    }
  }

  /** Re-pointing nodes straight at their roots (path compression) keeps every root. */
  lemma {:induction false} Redirect<T>(f: Forest<T>, g: Forest<T>, y: T)
    requires Valid(f) && Valid(g)
    requires g.parent.Keys == f.parent.Keys && g.rank == f.rank
    requires forall z {:trigger g.parent[z]} :: z in f.parent ==> g.parent[z] == f.parent[z] || g.parent[z] == Root(f, z)
    requires y in f.parent
    ensures Root(g, y) == Root(f, y)
    decreases Height(g, y)
  {
    RootFacts(f, y);
    if g.parent[y] != y {
      var p := g.parent[y];
      AboveShrinks(g, y);
      Redirect(f, g, p);
      if p != f.parent[y] {
        RootFacts(f, p);
      }
    }
  }

  lemma RedirectAll<T>(f: Forest<T>, g: Forest<T>)
    requires Valid(f) && Valid(g)
    requires g.parent.Keys == f.parent.Keys && g.rank == f.rank
    requires forall z {:trigger g.parent[z]} :: z in f.parent ==> g.parent[z] == f.parent[z] || g.parent[z] == Root(f, z)
    ensures forall z :: RootOf(g, z) == RootOf(f, z)
  {
    forall z | z in f.parent ensures Root(g, z) == Root(f, z) {
      Redirect(f, g, z);
    }
  }

  /** Registering a fresh node as its own root leaves every other root alone. */
  lemma {:induction false} RegisterKeepsRoot<T>(f: Forest<T>, g: Forest<T>, x: T, z: T)
    requires Valid(f) && x !in f.parent
    requires g == Forest(f.parent[x := x], f.rank[x := 0])
    requires Valid(g) && z in f.parent
    ensures Root(g, z) == Root(f, z)
    decreases Height(f, z)
  {
    if f.parent[z] != z {
      AboveShrinks(f, z);
      RegisterKeepsRoot(f, g, x, f.parent[z]);
    }
  }

  /** The path-compressing part of `find` on a registered node: every node on the
      path to the root ends up pointing at the root. */
  function Compress<T>(f: Forest<T>, x: T): (res: (Forest<T>, T))
    requires Valid(f) && x in f.parent
    ensures Valid(res.0)
    ensures res.0.parent.Keys == f.parent.Keys && res.0.rank == f.rank
    ensures res.1 == Root(f, x)
    ensures forall z {:trigger res.0.parent[z]} :: z in f.parent ==> res.0.parent[z] == f.parent[z] || res.0.parent[z] == Root(f, z)
    decreases Height(f, x)
  {
    if f.parent[x] == x then (f, x)
    else
      AboveShrinks(f, x);
      RootFacts(f, x);
      var (f1, r) := Compress(f, f.parent[x]);
      (Forest(f1.parent[x := r], f1.rank), r)
  }

  /** `find`: registers an unseen node as a root of rank 0, and otherwise returns the
      root of its set, compressing the path. The partition into sets is unchanged. */
  function Find<T(!new)>(f: Forest<T>, x: T): (res: (Forest<T>, T))
    requires Valid(f)
    ensures Valid(res.0)
    ensures res.0.parent.Keys == f.parent.Keys + {x}
    ensures x !in f.parent ==> res.1 == x && res.0.parent[x] == x && res.0.rank == f.rank[x := 0]
    ensures x in f.parent ==> res.0.rank == f.rank
    ensures res.1 == RootOf(f, x)
    ensures res.1 in res.0.parent && res.0.parent[res.1] == res.1
    ensures forall z :: RootOf(res.0, z) == RootOf(f, z)
  {
    if x !in f.parent then
      var g := Forest(f.parent[x := x], f.rank[x := 0]);
      assert Valid(g);
      RegisterKeepsRoots(f, g, x);
      (g, x)
    else
      var (g, r) := Compress(f, x);
      RedirectAll(f, g);
      RootFacts(f, x);
      (g, r)
  }

  lemma RegisterKeepsRoots<T>(f: Forest<T>, g: Forest<T>, x: T)
    requires Valid(f) && x !in f.parent
    requires g == Forest(f.parent[x := x], f.rank[x := 0])
    requires Valid(g)
    ensures forall z :: RootOf(g, z) == RootOf(f, z)
  {
    forall z | z in f.parent ensures Root(g, z) == Root(f, z) {
      RegisterKeepsRoot(f, g, x, z);
    }
  }

  /** The root that survives linking two roots: the higher-ranked one, `rx` on a tie. */
  function Winner<T>(f: Forest<T>, rx: T, ry: T): T
    requires rx in f.rank && ry in f.rank
  {
    if f.rank[rx] < f.rank[ry] then ry else rx
  }

  /** Hanging root `lo` under root `hi` sends exactly the nodes of `lo`'s set to `hi`. */
  lemma {:induction false} LinkKeepsRoot<T>(f: Forest<T>, g: Forest<T>, hi: T, lo: T, z: T)
    requires Valid(f) && Valid(g) && hi != lo
    requires hi in f.parent && f.parent[hi] == hi && lo in f.parent && f.parent[lo] == lo
    requires g.parent == f.parent[lo := hi]
    requires z in f.parent
    ensures Root(g, z) == if Root(f, z) == lo then hi else Root(f, z)
    decreases Height(g, z)
  {
    if g.parent[z] != z {
      AboveShrinks(g, z);
      LinkKeepsRoot(f, g, hi, lo, g.parent[z]);
    }
  }

  /** The linking step of `union` on two distinct roots, by rank: the lower-ranked
      root goes under the higher-ranked one, and a rank grows, by one, only on a tie. */
  function Link<T(!new)>(f: Forest<T>, rx: T, ry: T): (g: Forest<T>)
    requires Valid(f)
    requires rx in f.parent && f.parent[rx] == rx
    requires ry in f.parent && f.parent[ry] == ry
    requires rx != ry
    ensures Valid(g)
    ensures g.parent.Keys == f.parent.Keys
    ensures forall z :: RootOf(g, z) == if RootOf(f, z) == rx || RootOf(f, z) == ry then Winner(f, rx, ry) else RootOf(f, z)
    ensures var w := Winner(f, rx, ry);
            var l := if w == rx then ry else rx;
            && g.parent[l] == w && f.rank[l] <= f.rank[w]
            && g.rank[w] == (if f.rank[rx] == f.rank[ry] then f.rank[w] + 1 else f.rank[w])
            && forall z :: z in f.rank && z != w ==> g.rank[z] == f.rank[z]
  {
    var hi := Winner(f, rx, ry);
    var lo := if hi == rx then ry else rx;
    var g := Forest(f.parent[lo := hi], if f.rank[hi] == f.rank[lo] then f.rank[hi := f.rank[hi] + 1] else f.rank);
    assert Valid(g);
    LinkKeepsRoots(f, g, hi, lo);
    g
  }

  lemma LinkKeepsRoots<T>(f: Forest<T>, g: Forest<T>, hi: T, lo: T)
    requires Valid(f) && Valid(g) && hi != lo
    requires hi in f.parent && f.parent[hi] == hi && lo in f.parent && f.parent[lo] == lo
    requires g.parent == f.parent[lo := hi]
    ensures forall z :: RootOf(g, z) == if RootOf(f, z) == lo then hi else RootOf(f, z)
  {
    forall z | z in f.parent ensures Root(g, z) == if Root(f, z) == lo then hi else Root(f, z) {
      LinkKeepsRoot(f, g, hi, lo, z);
    }
  }

  /** `union`: registers both nodes and links their roots, by rank, when they differ.
      Afterwards `x` and `y` are connected. */
  function Union<T(!new)>(f: Forest<T>, x: T, y: T): (g: Forest<T>)
    requires Valid(f)
    ensures Valid(g)
    ensures g.parent.Keys == f.parent.Keys + {x, y}
    ensures Same(g, x, y)
  {
    var (f1, rx) := Find(f, x);
    var (f2, ry) := Find(f1, y);
    if rx == ry then f2 else Link(f2, rx, ry)
  }

  /** Every node that was with `x` or with `y` now has their common root, which is one
      of their old roots, and every other node keeps its root; joining two nodes that
      are already connected changes no rank. */
  lemma UnionMerges<T(!new)>(f: Forest<T>, x: T, y: T)
    requires Valid(f)
    ensures var g := Union(f, x, y);
            && (RootOf(g, x) == RootOf(f, x) || RootOf(g, x) == RootOf(f, y))
            && (forall a :: RootOf(g, a) == if Same(f, a, x) || Same(f, a, y) then RootOf(g, x) else RootOf(f, a))
            && (Same(f, x, y) ==> forall z :: z in g.rank ==> g.rank[z] == (if z in f.rank then f.rank[z] else 0))
  {
    var (f1, rx) := Find(f, x);
    var (f2, ry) := Find(f1, y);
    var g := if rx == ry then f2 else Link(f2, rx, ry);
    var w := if rx == ry then rx else Winner(f2, rx, ry);
    UnionRoots(f, f1, f2, g, x, y, rx, ry, w);
  }

  /** The root bookkeeping of `union`, from the facts `find` and `link` establish. */
  lemma UnionRoots<T>(f: Forest<T>, f1: Forest<T>, f2: Forest<T>, g: Forest<T>, x: T, y: T, rx: T, ry: T, w: T)
    requires Valid(f) && Valid(f1) && Valid(f2) && Valid(g)
    requires rx == RootOf(f, x) && ry == RootOf(f1, y)
    requires forall z :: RootOf(f1, z) == RootOf(f, z)
    requires forall z :: RootOf(f2, z) == RootOf(f1, z)
    requires w == rx || w == ry
    requires forall z :: RootOf(g, z) == if RootOf(f2, z) == rx || RootOf(f2, z) == ry then w else RootOf(f2, z)
    ensures Same(g, x, y)
    ensures RootOf(g, x) == RootOf(f, x) || RootOf(g, x) == RootOf(f, y)
    ensures forall a :: RootOf(g, a) == if Same(f, a, x) || Same(f, a, y) then RootOf(g, x) else RootOf(f, a)
  {
    assert RootOf(f1, x) == rx && RootOf(f2, x) == rx;
    assert RootOf(f, y) == ry && RootOf(f2, y) == ry;
    assert RootOf(g, x) == w && RootOf(g, y) == w;
  }

  /** After `union(x, y)` two nodes are connected exactly when they were before, or one
      was connected to `x` and the other to `y`. */
  lemma UnionConnects<T(!new)>(f: Forest<T>, x: T, y: T, a: T, b: T)
    requires Valid(f)
    ensures Same(Union(f, x, y), a, b) <==>
              Same(f, a, b) || (Same(f, a, x) && Same(f, b, y)) || (Same(f, a, y) && Same(f, b, x))
  {
    var g := Union(f, x, y);
    UnionMerges(f, x, y);
    assert RootOf(g, a) == if Same(f, a, x) || Same(f, a, y) then RootOf(g, x) else RootOf(f, a);
    assert RootOf(g, b) == if Same(f, b, x) || Same(f, b, y) then RootOf(g, x) else RootOf(f, b);
  }

  /** `connected`: whether two nodes are in the same set; the partition is unchanged. */
  function Connected<T(!new)>(f: Forest<T>, x: T, y: T): (res: (Forest<T>, bool))
    requires Valid(f)
    ensures Valid(res.0)
    ensures res.1 <==> Same(f, x, y)
    ensures forall z :: RootOf(res.0, z) == RootOf(f, z)
  {
    var (f1, rx) := Find(f, x);
    var (f2, ry) := Find(f1, y);
    (f2, rx == ry)
  }
}

=== FILE: wrappers.dfy ===
/** Failure-carrying values used across the model: Python's `None` and raised
    exceptions become explicit `Option` and `Result` values. */
module Wrappers {

  /** An optional value: `None` stands for Python's `None`. */
  datatype Option<+T> = None | Some(value: T) {

    /** The wrapped value, or `default` when there is none. */
    function GetOr(default: T): T
    {
      match this
      case Some(v) => v
      case None => default
    }
  }

  /** The outcome of a step that may raise: `Err` carries the exception's text. */
  datatype Result<+T, +E> = Ok(value: T) | Err(error: E)
}
